=== FILE: README.md ===
# Passport token, session and registration core, in Dafny

This project models the core of the passport service, a Go service that logs users in and keeps their sessions. The model covers these parts:

- **The user cache.** Redis holds five kinds of key:
  - user rows cached as hashes;
  - a token-to-id index for end users;
  - a token-to-id index for administrators;
  - each administrator's current session token;
  - one set per day of the users who logged in that day.
- **The token checks built on the cache.** The B-side (merchant) check extends a token that is about to expire. The C-side (consumer) check does not. A missing administrator token is never looked up in the database, unlike the B and C checks; the administrator's user row is still read through `GetUserByID`'s cache-aside path, which reads the database on a cache miss.
- **The user use cases:**
  - the administrator login with its session swap;
  - the WeChat H5 login with its token re-issue;
  - registration of a WeChat user, an upsert inside a transaction;
  - unbinding;
  - the agent, brand and administrator login checks;
  - `DoCacheOpWithRetry`, the combinator that retries cache evictions.
- **The user repository's guards.** An empty condition never matches. Lookups filter on status. Writes are restricted to the columns a filter names. The local transaction rolls back when its callback fails and commits when it succeeds; a failed commit is not reported, so the callback's answer stands while its writes are lost. Neither a rollback nor a lost commit gives back the auto-increment ids an insert used.
- **The per-table column filters** carried in the request context.
- **The `bit(1)` codec** `BitInt`.
- **Two brand use cases:** the join of a user's brands with their leases, and the mini-program entitlement check.

## How it is modelled

Every operation is a pure function of a state and its arguments. It returns a `Step`: the outcome (`Ok` value or `Err` code) together with the new state.

- **The state** is a `World`. It pairs a key-value store (`KvStore.Store`) with the user table (`UserRepo.Db`).
- **The key-value store** maps keys to strings, hashes and sets, each with an optional deadline. An entry whose deadline is not after `now` is absent.
- **The user table** maps ids to `User` rows. Inserts take the next id. A lookup answers with the matching row of least id, as `First` does on the primary key.
- **Failures.** Each store carries a fault script, one flag per round trip. A call whose flag is set fails with the store's error code and changes no data.
- **The clock** is a parameter: `now` in seconds, and `today` for the date string naming the daily login set.
- **Freshly generated tokens** are a parameter (`issued`).
- **Lookups into other repositories** are function parameters that return rows or an error code. These are the administrator, agent, brand-relation, phone-and-password, brand, lease and mini-program lookups.

Module by source file:

| module | source |
|---|---|
| `Outcomes` | error codes of the service, `Result`, `Option` |
| `Text`, `Decimal` | the `strings` and `strconv` behaviour the core relies on |
| `BitInt` | pkg/core/type.go |
| `FieldFilter` | pkg/core/app.go |
| `Users` | the user row, its columns and its hash encoding |
| `KvStore` | the Redis commands the cache uses |
| `CacheKeys` | key derivation in internal/passport/cache/user_cache.go |
| `UserRepo` | internal/passport/repository/user_repo.go |
| `UserCache` | internal/passport/cache/user_cache.go |
| `CacheRetry` | `DoCacheOpWithRetry` in internal/passport/usecase/user_ucase.go |
| `RowEffects`, `UserUsecase`, `Registration` | internal/passport/usecase/user_ucase.go |
| `BrandUsecase` | internal/passport/usecase/brand_ucase.go |

## Model

| member | source | states |
|---|---|---|
| BitInt.Value | pkg/core/type.go:14-20 | The driver value is one byte. That byte is 0 exactly when the integer is 0, and 1 otherwise. |
| BitInt.Scan | pkg/core/type.go:23-35 | A source that is not a byte slice is refused and the receiver keeps its value. An empty slice ends in the out-of-range panic with the value unchanged. Otherwise only the first byte counts: 0 gives 0 and any other byte gives 1. |
| BitInt.ScanValue | pkg/core/type.go:14-34 | Writing any integer and reading it back gives its normalisation to 0 or 1, whatever the receiver held before. |
| BitInt.ScanValueIdentity | pkg/core/type.go:14-34 | On 0 and 1, writing then reading back is the identity. |
| FieldFilter.GetFilter | pkg/core/app.go:11-23 | A missing or empty read filter gives the sentinel column list. Any other filter is returned trimmed of white space. |
| FieldFilter.SetFilter | pkg/core/app.go:26-28 | The table's read key now holds the fields, and every other key is unchanged. |
| FieldFilter.SetCuFilter | pkg/core/app.go:55-57 | The table's CU key now holds the fields, and every other key is unchanged. The CU key used here is the corrected one (see Findings). |
| FieldFilter.PadToTwo | pkg/core/app.go:44-50 | The list is padded in front with sentinels up to length two. The original pieces follow in order and nothing else is added. |
| FieldFilter.CuFilterAt | pkg/core/app.go:31-53 | A blank or `*` CU filter gives exactly two sentinels. Otherwise the result is the comma-split pieces, in order, with sentinels prepended up to length two. The length is always at least two. |
| FieldFilter.FilterRoundTrip | pkg/core/app.go:11-28 | Setting a read filter and reading it back yields the trimmed value, or the sentinel when the value was empty. |
| FieldFilter.FilterIgnoresCase | pkg/core/app.go:11-28 | Table names that agree after upper-casing share one read filter. |
| FieldFilter.CuFilterRoundTrip | pkg/core/app.go:31-57 | A trimmed column list set as a CU filter reads back as its comma-separated pieces. Joining those pieces gives the list again. |
| FieldFilter.ReadAndCuKeysDisjoint | pkg/core/app.go:13-56 | With the corrected CU key, no read key of any table equals a CU key of any table. |
| FieldFilter.FiltersIndependent | pkg/core/app.go:26-57 | With the corrected CU key, setting a read filter never changes any CU filter, and the reverse, for every pair of tables. |
| FieldFilter.ReadKeyIsCuKeyAsWritten | pkg/core/app.go:13-56 | With the CU key as the source spells it, a read key equals a CU key exactly when the read table's upper-cased name is `CU` followed by the CU table's upper-cased name. |
| FieldFilter.FiltersIndependentAsWritten | pkg/core/app.go:26-57 | With the CU key as the source spells it, a read filter leaves a CU filter alone, and the reverse, for every pair of tables outside that collision. |
| FieldFilter.CuKeyAsWrittenCollides | pkg/core/app.go:27-56 | With the CU key as the source spells it, table `t`'s CU key is the read key of table `CU`+`t`. A read filter `id` set on that table turns `t`'s two-sentinel CU filter into a sentinel followed by `id`. |
| Text.TrimSpace | pkg/core/app.go:22 | The result has no white space at either end. It is the input with exactly its leading and trailing white space removed. |
| Text.SplitJoin | pkg/core/app.go:43 | Splitting at commas and joining again gives back the original string. |
| Decimal.FormatIntInjective | internal/passport/cache/user_cache.go:33-35 | Distinct ids print as distinct decimal strings, so they get distinct uid keys. |
| Decimal.ParseFormatInt | internal/passport/cache/user_cache.go:214-235 | An int64 id stored as decimal text parses back to the same id. |
| Decimal.NonNumericParsesToZero | internal/passport/cache/user_cache.go:203 | A cached value with a non-digit among its first twenty characters after the sign is a syntax error. With the error ignored, it reads as 0. |
| Decimal.OverflowClampsToMax | internal/passport/cache/user_cache.go:223 | A run of twenty or more nines is out of range and parses to the largest int64. |
| Users.ColumnByNameInverse | internal/passport/cache/user_cache.go:59-62 | Every column is found again by its name. |
| Users.ColumnNameInjective | internal/passport/cache/user_cache.go:59-62 | Different columns have different names, so hash fields never overlap. |
| Users.FieldsRoundTrip | internal/passport/cache/user_cache.go:69-89 | Writing a row as a complete hash and reading all of it back gives the row unchanged. |
| Users.GetProject | internal/passport/repository/user_repo.go:96-98 | A row read through a column selection keeps the selected columns and reads the zero value in every other column. |
| Users.ProjectAll | internal/passport/cache/user_cache.go:69-71 | A `*` selection reads the whole row. |
| CacheKeys.KeyStringInjective | internal/passport/cache/user_cache.go:21-51 | Two keys that spell the same string are the same key. The namespaces are disjoint, and within one namespace different ids, tokens or dates give different keys. |
| CacheKeys.KindsDisjoint | internal/passport/cache/user_cache.go:21-51 | Keys of two different namespaces are never equal. |
| KvStore.Get | internal/passport/cache/user_cache.go:214-225 | A live string entry is returned, and a missing key is the nil reply. Any error is a Redis error. No data changes. |
| KvStore.Set | internal/passport/cache/user_cache.go:227-235 | After a successful set the key holds the value, with a deadline `ttl` seconds on when `ttl` is positive. Every other key is unchanged. |
| KvStore.Ttl | internal/passport/cache/user_cache.go:140-146 | The reply is positive exactly when the key is live with a deadline, and it is then the seconds left. It fails exactly when the round trip faults. No data changes. |
| KvStore.Expire | internal/passport/cache/user_cache.go:84-86 | A live key gets a deadline the given seconds from now and keeps its data. A missing key is left alone. Every other key is unchanged. |
| KvStore.HMSet | internal/passport/cache/user_cache.go:77-83 | The given fields are merged into the hash. A live hash keeps its deadline and a new one has none. Every other key is unchanged. |
| KvStore.SAdd | internal/passport/cache/user_cache.go:175-180 | The member is added to the set. A live set keeps its deadline and a new one has none. Every other key is unchanged. |
| UserRepo.FirstFrom | internal/passport/repository/user_repo.go:96-98 | The answer is the least id at or above the start that holds a matching row, or none when there is none. |
| UserRepo.FirstOnlyMatch | internal/passport/repository/user_repo.go:96-98 | When exactly one row matches, `First` finds that row. |
| UserRepo.SelectColumns | internal/passport/repository/user_repo.go:96-97 | A `*` read filter selects every column. Otherwise the statement fails with a database error unless every trimmed comma-separated name is a column, the sentinel included. The selected columns are exactly those named. |
| UserRepo.GetSingleUserByCond | internal/passport/repository/user_repo.go:86-109 | A faulted query, or a read filter naming something that is not a column, is a database error. Otherwise a row is found exactly when one meets the condition, never under the empty condition `1 = -1`. The answer is the least-id match, restricted to the read filter's columns. Any other error is "user not found". |
| UserRepo.GetUserByIdFindsOnlyOk | internal/passport/repository/user_repo.go:65-79 | The lookup by id succeeds only for a row with that id whose status is OK. |
| UserRepo.GetUserByPhoneSkipsDeleted | internal/passport/repository/user_repo.go:81-84 | The lookup by phone finds any row with that phone that is not marked deleted, and never a deleted one. |
| UserRepo.GetUserByAccessTokenFindsOnlyOk | internal/passport/repository/user_repo.go:199-202 | The lookup by token succeeds only for a row with that token whose status is OK. |
| UserRepo.EmptyConditionFindsNothing | internal/passport/repository/user_repo.go:88-90 | With no condition, no row is ever found. |
| UserRepo.ApplyEntity | internal/passport/repository/user_repo.go:132 | An update map changes exactly the columns it names, and never the primary key. An increment adds to the old value, and `NULL` gives the zero value. |
| UserRepo.UpdateRows | internal/passport/repository/user_repo.go:132 | Every row meeting the condition gets the map applied. Rows not meeting it are unchanged. No row is added or removed. |
| UserRepo.UpdateUserByCondUseMap | internal/passport/repository/user_repo.go:113-140 | A faulted update, or a value a column cannot hold, is a database error and leaves the table alone. Otherwise exactly the matching rows get the map applied, and it reports the number of rows whose contents changed, as the MySQL driver does when the connection does not ask for found rows. The empty condition changes nothing. |
| UserRepo.ChangedWithinMatched | internal/passport/repository/user_repo.go:132-138 | The reported count never exceeds the number of matching rows, and an update that changes no row reports 0. |
| UserRepo.UpdateUserByIdUseMap | internal/passport/repository/user_repo.go:175-179 | Only the row with the given id can change, and only in the columns the map names. |
| UserRepo.UpdateByIdRow | internal/passport/repository/user_repo.go:175-179 | After a successful update the row with that id, if it exists, is the map applied to its former contents. |
| UserRepo.CuColumns | internal/passport/repository/user_repo.go:161-163 | The columns a CU filter selects are exactly those whose names appear in it. Sentinels select nothing. |
| UserRepo.UpdateUserByCond | internal/passport/repository/user_repo.go:144-173 | No row is added or removed. A CU filter naming no column other than `id` sends no statement and changes nothing. An error is a database error and leaves the table as it was. |
| UserRepo.UpdateUserByCondKeepsUnselected | internal/passport/repository/user_repo.go:161-164 | Rows not meeting the condition, and columns the CU filter does not name, keep their values. |
| UserRepo.UpdateUserByCondWritesSelected | internal/passport/repository/user_repo.go:161-164 | Every row meeting the condition, and the struct's key when non-zero, takes the struct's value in each column the CU filter names. |
| UserRepo.UpdateUserByCondSucceeds | internal/passport/repository/user_repo.go:144-173 | An unfaulted update whose CU filter names some column other than `id` succeeds. |
| UserRepo.NewRow | internal/passport/repository/user_repo.go:187-190 | The inserted row has the new id. It holds the given user's value in each CU-filtered column and the defaults elsewhere. |
| UserRepo.AddUser | internal/passport/repository/user_repo.go:186-197 | A faulted insert is a database error and changes nothing. Otherwise it returns the next id and adds exactly one row under it. |
| UserRepo.AddUserWritesFilteredColumns | internal/passport/repository/user_repo.go:187-190 | Each column of the new row is the user's value if the CU filter names it, and the table default otherwise. |
| UserRepo.AddUserKeepsRows | internal/passport/repository/user_repo.go:186-197 | An insert leaves every existing row as it was and adds a row whose id is its key. |
| UserRepo.LocalRepoAtomic | internal/passport/repository/user_repo.go:25-48 | The callback's result is returned. After an error the rows are as they were before the transaction. After a success the commit is one more round trip: if it goes through the writes are kept, and if it fails the rows are as they were, while the answer is still the callback's success. The auto-increment counter keeps the value the callback left in every case. |
| UserRepo.UpdateKeepsWf | internal/passport/repository/user_repo.go:113-140 | Updates keep the table well formed: every key below the next id, and each row's id equal to its key. |
| UserRepo.AddKeepsWf | internal/passport/repository/user_repo.go:186-197 | Inserts keep the table well formed. |
| UserCache.WriteBack | internal/passport/cache/user_cache.go:69-89 | A repository error is passed on and nothing is written to the cache. A success returns the found row, and any other failure is a Redis error. The table is never changed. |
| UserCache.WriteBackWrites | internal/passport/cache/user_cache.go:77-86 | After a successful write-back, the uid hash reads back as the full row and lives thirty days. |
| UserCache.GetUserByIdHit | internal/passport/cache/user_cache.go:58-69 | A non-empty cached hash is returned as is. The repository is not consulted and nothing changes. |
| UserCache.GetUserByIdReadError | internal/passport/cache/user_cache.go:58-67 | A failed cache read is a Redis error, and nothing else happens. |
| UserCache.GetUserByIdMiss | internal/passport/cache/user_cache.go:69-89 | An empty cached hash falls through to a repository read of every column, whatever the caller's filter. A repository error is the answer and nothing is written to the cache. A found row is the answer unless the write-back fails with a Redis error. After a successful write-back the uid hash holds every column of the row and lives 30 days. |
| UserCache.TokenToId | internal/passport/cache/user_cache.go:214-225 | A missing token is "user not found", and any other failure is a Redis error. The id read is always an int64. Nothing is written. |
| UserCache.StoreTokenId | internal/passport/cache/user_cache.go:227-235 | The token key now holds the id's decimal text, and no other key changes. |
| UserCache.StoreThenResolve | internal/passport/cache/user_cache.go:214-235 | A token stored for an int64 id resolves to that id while it lives. |
| UserCache.DelTokenId | internal/passport/cache/user_cache.go:278-288 | After a successful delete the token key is gone and every other key is unchanged. A failure changes nothing. |
| UserCache.DelUserCache | internal/passport/cache/user_cache.go:399-409 | After a successful delete the uid key is gone and every other key is unchanged. |
| UserCache.DelMisTokenId | internal/passport/cache/user_cache.go:300-310 | After a successful delete the administrator token key is gone and every other key is unchanged. |
| UserCache.StoreMisTokenId | internal/passport/cache/user_cache.go:290-298 | After a successful store, the administrator token key holds the id's decimal text for the given lifetime. Nothing else changes. |
| UserCache.StoreMisSession | internal/passport/cache/user_cache.go:312-320 | After a successful store, the id's session key holds the token for the given lifetime. Nothing else changes. |
| UserCache.MisSessionToken | internal/passport/cache/user_cache.go:322-332 | A missing session is "user not found", and any other failure is a Redis error. Nothing is written. |
| UserCache.RecordDailyLogin | internal/passport/cache/user_cache.go:170-185 | The bookkeeping never touches the table, and any failure is a Redis error. |
| UserCache.RecordDailyLoginMember | internal/passport/cache/user_cache.go:170-185 | After a successful recording the user is in the day's set. |
| UserCache.RecordDailyLoginSeen | internal/passport/cache/user_cache.go:175-176 | A user already in the set leaves the set and its deadline as they were. |
| UserCache.RecordDailyLoginNew | internal/passport/cache/user_cache.go:175-184 | A new user is added, the set then lives two days, and no other key changes. |
| UserCache.RecordDailyLoginIdempotent | internal/passport/cache/user_cache.go:170-185 | A second recording of the same user on the same day changes neither the set nor its deadline. |
| UserCache.AdmitToken | internal/passport/cache/user_cache.go:108-133 | An unknown token, or a row whose expiry is before now, is an invalid token and writes nothing. Otherwise the token maps to the row's id. |
| UserCache.AdmitTokenStores | internal/passport/cache/user_cache.go:127-131 | An admitted token maps to the id until sixty seconds after the row's expiry, and no other key changes. |
| UserCache.ExtendToken | internal/passport/cache/user_cache.go:140-159 | The refresh never touches the table, and any failure is a Redis error. |
| UserCache.ExtendTokenOutsideWindow | internal/passport/cache/user_cache.go:147 | With no deadline, or with 0 or at least 1800 seconds left, nothing changes. |
| UserCache.ExtendTokenInsideWindow | internal/passport/cache/user_cache.go:147-158 | With between 0 and 1800 seconds left, a successful refresh sets the cached `expire_time` to an hour from now and the token's deadline to an hour from now. |
| UserCache.ResolveHitWithoutExtension | internal/passport/cache/user_cache.go:339-369 | On a cache hit the C side returns the cached id and changes nothing. |
| UserCache.ResolveHitWithExtension | internal/passport/cache/user_cache.go:137-160 | On a cache hit the B side runs the refresh on the cached id. It answers with that id when the refresh succeeds, and with a Redis error otherwise. |
| UserCache.ResolveMiss | internal/passport/cache/user_cache.go:106-136 | On a cache miss both sides read the token's row and admit the token the same way. |
| UserCache.CheckAccessTokenOk | internal/passport/cache/user_cache.go:162-187 | A successful check returns the user read through the cache for the resolved id. That user is then in the day's login set. |
| UserCache.CheckMisUserAccessToken | internal/passport/cache/user_cache.go:190-212 | A missing administrator token is "user not found" and a failed read is a Redis error. Neither reads the repository or writes anything. |
| UserCache.MisNonNumericIsUserZero | internal/passport/cache/user_cache.go:203-206 | A cached administrator token whose value is not a number resolves to user id 0. |
| CacheRetry.LoopMeetsSpec | internal/passport/usecase/user_ucase.go:382-391 | The loop, resumed after failed attempts, meets the retry promise. |
| CacheRetry.RetryMeetsSpec | internal/passport/usecase/user_ucase.go:379-393 | The first success is reported with its 1-based attempt number and no error, and no more attempts follow. When all `maxTryCount` attempts fail, the count is `maxTryCount + 1` with the last error. A bound below one makes no attempt and reports `(1, nil)`. |
| CacheRetry.RetryLoop | internal/passport/usecase/user_ucase.go:382-391 | The imperative loop meets the same promise. |
| CacheRetry.RetryLoopAgrees | internal/passport/usecase/user_ucase.go:379-393 | Any outcome meeting the promise is the recursive definition's outcome. |
| CacheRetry.SpecUnique | internal/passport/usecase/user_ucase.go:379-393 | The promise determines the outcome. |
| RowEffects.CountsLogin | internal/passport/usecase/user_ucase.go:217 | An update map with the `login_times + 1` expression adds exactly one to the count. |
| RowEffects.StampsLogin | internal/passport/usecase/user_ucase.go:215-216 | An update map stamping both times sets the last-login and update times to now. |
| RowEffects.TakesNickname | internal/passport/usecase/user_ucase.go:252-255 | The nickname changes to a given non-empty one and is kept otherwise. |
| RowEffects.TakesHeadImage | internal/passport/usecase/user_ucase.go:238-240 | The head image changes to a given non-empty one and is kept otherwise. |
| RowEffects.RenewsToken | internal/passport/usecase/user_ucase.go:221-228 | On renewal the token and expiry become the new ones. Otherwise both are kept. |
| RowEffects.ClearsUnionId | internal/passport/usecase/user_ucase.go:493 | Writing SQL `NULL` to the union id leaves it empty. |
| RowEffects.SetsExpiry | internal/passport/usecase/user_ucase.go:494-495 | The expiry and update time become the written values. |
| UserUsecase.FailedDeletesChangeNothing | internal/passport/usecase/user_ucase.go:382-387 | Any number of failed cache deletes change no data. |
| UserUsecase.EvictKeyEffect | internal/passport/usecase/user_ucase.go:379-393 | A retried eviction either removes the key and nothing else, or fails with a Redis error and changes no data. The table is never touched. |
| UserUsecase.EvictKeyKeepsOthers | internal/passport/usecase/user_ucase.go:379-393 | An eviction keeps the table and every other key's data. |
| UserUsecase.CheckBUserAgentLogin | internal/passport/usecase/user_ucase.go:150-170 | The login succeeds exactly when the B-side check succeeds and the agent lookup says the user is an agent administrator. A "no" is permission denied, and a lookup error passes through. |
| UserUsecase.CheckCUserLogin | internal/passport/usecase/user_ucase.go:172-193 | Brand 0 is the plain C-side check. For another brand, success also needs the user to belong to it, and a "no" is "user not related to brand". |
| UserUsecase.CheckMisUserLogin | internal/passport/usecase/user_ucase.go:56-77 | Success needs the administrator check to succeed, and for a non-zero id an administrator record with a non-zero user. A missing record is "user not found". |
| UserUsecase.BLogout | internal/passport/usecase/user_ucase.go:79-82 | Logout always reports success and never touches the table. Unless the store faulted, only the token's key is removed. |
| UserUsecase.BSetLoginInfo | internal/passport/usecase/user_ucase.go:84-92 | The answer is the B-side check's. For a known user, either only the uid key is removed from the cache or nothing changes. |
| UserUsecase.MisLogin | internal/passport/usecase/user_ucase.go:94-148 | A not-found login is "password incorrect", and other login errors pass through. A non-zero user who is no administrator is refused before anything is written. A success returns the user with the new token and an expiry `now` + TTL. The TTL is 7 days, plus 30 more when `keep` > 0. The table never changes. |
| UserUsecase.IssueMisSession | internal/passport/usecase/user_ucase.go:120-147 | The session swap never writes the table. On success it returns the user with the new token and expiry. |
| UserUsecase.MisKeysDistinct | internal/passport/cache/user_cache.go:41-51 | The new token's key, the previous token's key and the session key are pairwise distinct. |
| UserUsecase.StoresMisPair | internal/passport/usecase/user_ucase.go:128-137 | After both stores, the token maps to the id and the session key holds the token. |
| UserUsecase.IssueMisSessionSwaps | internal/passport/usecase/user_ucase.go:120-144 | A completed swap maps the new token to the user and points the session at it. The previous token, if different, no longer resolves. |
| UserUsecase.MisLoginSwapsSession | internal/passport/usecase/user_ucase.go:94-145 | After a successful login the new token maps to the user, the session points at it, and the previous token is gone. |
| UserUsecase.WxEntity | internal/passport/usecase/user_ucase.go:214-255 | The update map assigns exactly the columns of a WeChat login. |
| UserUsecase.LoginWxH5 | internal/passport/usecase/user_ucase.go:196-265 | An unknown union id is "WeChat user not registered", and other lookup errors pass through. A success returns the stored user with the token renewed exactly when it has expired, and with each non-empty nickname and head image taken over. The avatar changes only when it is non-empty and hosted on neither object-store domain. |
| UserUsecase.WxUpdate | internal/passport/usecase/user_ucase.go:221-264 | The writes succeed exactly when the update is not faulted. The table is then the by-id update with the login's map. The returned user carries the token, head-image, avatar and nickname changes, but not the login count or the login and update times. A failed update leaves the table as it was. |
| UserUsecase.WxTokenReissue | internal/passport/usecase/user_ucase.go:221-228 | The returned token is the stored one while it is valid. Once it has expired, the returned token is the new one, valid for 30 days from now. |
| UserUsecase.WxEntityStamps | internal/passport/usecase/user_ucase.go:214-218 | The update map always counts the login and stamps its time. |
| UserUsecase.WxEntityOptional | internal/passport/usecase/user_ucase.go:238-255 | The map takes the nickname and head image only when they are given. It touches the token only on re-issue. |
| UserUsecase.WxUpdateRow | internal/passport/usecase/user_ucase.go:214-257 | After a successful login the row has one more login, both times stamped, and the given nickname and head image. On re-issue it has the new token and expiry, which are otherwise unchanged. |
| UserUsecase.UnbindWeChatCUser | internal/passport/usecase/user_ucase.go:481-518 | A lookup error other than not-found is returned. An unknown token, or a user with id 0, succeeds with nothing written. Any other user goes on to the unbind's writes. |
| UserUsecase.Unbind | internal/passport/usecase/user_ucase.go:490-515 | Any failure is a database or Redis error. A success has applied the unbind update to the user's row and removed both the uid key and the token key. |
| UserUsecase.UidAndTokenKeysDiffer | internal/passport/cache/user_cache.go:33-39 | A user's uid key is never a token key. |
| UserUsecase.UnbindApplied | internal/passport/usecase/user_ucase.go:492-496 | The unbind update clears the union id, sets the expiry to ten seconds before now, and stamps the update time. |
| UserUsecase.UnbindWeChatCUserClears | internal/passport/usecase/user_ucase.go:481-518 | When the token names a user with a non-zero id and the call succeeds, that user's row has no union id and an expired token, and both the uid key and the token key are gone. |
| UserUsecase.UnbindClears | internal/passport/usecase/user_ucase.go:490-515 | A completed unbind leaves the user's row without a union id and with an expired token. Both the uid key and the token key are evicted. |
| Registration.CreateFilter | internal/passport/usecase/user_ucase.go:326-327 | The insert's CU filter reads back as exactly the ten column names it lists, in order. |
| Registration.BindFilter | internal/passport/usecase/user_ucase.go:352 | The bind's CU filter reads back as exactly `unionid`, `nickname`, `headimgurl` and `update_time`. |
| Registration.IdFilter | internal/passport/usecase/user_ucase.go:293-294 | The union-id lookup reads only the id. |
| Registration.IdUnionFilter | internal/passport/usecase/user_ucase.go:304-305 | The phone lookup reads only the id and the union id. |
| Registration.UnionLookupOutcome | internal/passport/usecase/user_ucase.go:295 | The union-id lookup, ignoring status, finds the least-id row with that union id, projected on the id. |
| Registration.PhoneLookupOutcome | internal/passport/usecase/user_ucase.go:306 | The phone lookup, ignoring status, finds the least-id row with that phone, projected on id and union id. |
| Registration.PhoneBranch | internal/passport/usecase/user_ucase.go:303-361 | A phone lookup error other than not-found aborts with that error. No phone user leads to the insert. A phone user with a union id is "phone already bound to another WeChat user". An unbound phone user is bound. |
| Registration.RegisterBlock | internal/passport/usecase/user_ucase.go:289-363 | A user with the union id is returned with nobody to evict. Another lookup error aborts with that error. Not-found continues with the phone branch. |
| Registration.RegisterTx | internal/passport/usecase/user_ucase.go:365-369 | The answer is the block's. A failed block leaves the rows as they were. A successful one keeps its writes when the commit goes through, and leaves the rows as they were when the commit fails. The auto-increment counter is the block's either way. |
| Registration.RegisterCUserByWeChatUser | internal/passport/usecase/user_ucase.go:273-377 | The answer is the transaction's user or error, and an error leaves the table and the cache untouched. After a success the cache either is unchanged or has lost only the evicted id's uid key. A failed eviction does not change the answer. |
| Registration.RegisterExisting | internal/passport/usecase/user_ucase.go:295-298 | When a row already has the union id, that user's id is returned and nothing is written. |
| Registration.RegisterLookupFails | internal/passport/usecase/user_ucase.go:299-301 | A faulted union-id lookup aborts the registration with a database error, and the table is unchanged. |
| Registration.RegisterPhoneTaken | internal/passport/usecase/user_ucase.go:338-342 | When the phone belongs to a row with a union id, the answer is "phone already bound to another WeChat user" and nothing is written. |
| Registration.BindCuFilter | internal/passport/usecase/user_ucase.go:352-354 | The bind's context keeps the four-column CU filter after the `*` read filter is set. |
| Registration.BindSucceeds | internal/passport/usecase/user_ucase.go:345-360 | An unfaulted bind succeeds and names the bound row's id. |
| Registration.BindWrites | internal/passport/usecase/user_ucase.go:345-358 | Binding a still-unbound row writes the union id, nickname, head image and update time into it. |
| Registration.BindKeeps | internal/passport/usecase/user_ucase.go:351-355 | The bind leaves every other row unchanged. In the bound row, every column outside the four named keeps its value. |
| Registration.CreateAdds | internal/passport/usecase/user_ucase.go:313-334 | The insert adds one row under the next id and answers with that id. No existing row changes and no user is named for eviction. |
| Registration.CreateWrites | internal/passport/usecase/user_ucase.go:313-329 | Each column of the new row is the profile's value if the filter names it, and the default otherwise. |
| Registration.RegisterBinds | internal/passport/usecase/user_ucase.go:303-360 | With no union-id match and an unbound phone row, registration binds that row and names it for eviction. |
| Registration.RegisterCreateCommitLost | internal/passport/usecase/user_ucase.go:365-375 | When every statement of an insert succeeds but the commit fails, registration still answers with the new id, and no row holds that id. The rows are as they were, and the auto-increment counter has moved past the id, so a later insert never reuses it. |
| Registration.RegisterCreates | internal/passport/usecase/user_ucase.go:303-334 | With no union-id and no phone match, registration creates a row under the next id and names nobody for eviction. |
| BrandUsecase.LastWithNone | internal/passport/usecase/brand_ucase.go:83-92 | A brand gets no lease exactly when no lease record names it. |
| BrandUsecase.LastWithIsLast | internal/passport/usecase/brand_ucase.go:83-92 | When several records name the brand, the last one in list order is attached. |
| BrandUsecase.GetBrandBaseAndLeaseInfoByUserID | internal/passport/usecase/brand_ucase.go:60-100 | The call never fails. A failed or empty lookup gives an empty list. Otherwise the list has one entry per brand, in the lookup's order, each carrying that brand's last lease. |
| BrandUsecase.CollectBrandIds | internal/passport/usecase/brand_ucase.go:68-71 | The id list has the memberships' brand ids, in order. |
| BrandUsecase.IndexLeases | internal/passport/usecase/brand_ucase.go:83-85 | The map holds a brand exactly when a record names it, and it holds the last such record. |
| BrandUsecase.CheckUniminiExpire | internal/passport/usecase/brand_ucase.go:126-159 | The check succeeds exactly when both the lease and the subscription exist and neither deadline is before now. |
| BrandUsecase.LeaseDecidesFirst | internal/passport/usecase/brand_ucase.go:129-142 | A missing or expired lease is "brand not found", whatever the subscription. |
| BrandUsecase.SubscriptionDecidesNext | internal/passport/usecase/brand_ucase.go:144-158 | With a valid lease, a missing subscription is "mini-program not open" and an expired one is "mini-program expired". |
| BrandUsecase.NeverBrandExpired | internal/passport/usecase/brand_ucase.go:126-159 | The check itself never reports "brand expired". |
| BrandUsecase.DeadlineNowIsValid | internal/passport/usecase/brand_ucase.go:139-154 | Deadlines equal to now still pass, because both comparisons are strict. |

## Left out

- Redis and gorm clients: replaced by the abstract stores above. A network or driver failure appears only as the fault flag of one round trip.
- Concurrency: the model runs one request at a time. Two requests that fill the cache at the same moment are not modelled.
- The panic path of `LocalRepoAtomic`: only the error-return path is modelled.
- `GenerateAccessToken` and the md5 password hash (pkg/core/app.go:59-63): the fresh token is the parameter `issued`, and the phone-and-password lookup is the parameter `login`.
- `time.Now`: it is the parameter `now`, and the formatted date naming the daily set is the parameter `today`.
- The OSS domain constants that decide whether the WeChat head image replaces the avatar: they are parameters.
- The administrator, agent, brand-relation and brand repositories: these are lookups whose answers are parameters. Their code is not part of this model.
- `GetUserByUnionID` and the `IgnoreStatusCheck` lookups: their bodies are not part of this model. They are modelled like `GetUserByPhone`, as column equality, with the status filter on `GetUserByUnionID` only.
- `UpdateUserByID`, `WithTrx` and `GetTrx`: none of the modelled use cases calls them.
- `BoundPhoneForWeChatCUser` and `BoundAdditionalInfoForWeChatCUser`: when the lookup finds nothing, the code dereferences a nil user, so there is no well-defined contract to state.
- The status and error-code constants: these are enum values. Their numeric values are not modelled.
- Hash field names: the cached hash is assumed to use the column names as field names. The struct tags are not part of this model.
- `BitInt.MarshalBinary`: this is a JSON call.
- Wallet, HTTP delivery, middleware, DTO mapping, logging, configuration and process entry points: none of these belong to the core.
- The brand use cases other than the two modelled: they only pass results through from the brand repositories.
- Logging of a failed eviction after registration: the failure is modelled, but the log line is not.
- UserUsecase.CheckBUserLogin has no contract of its own. It is the B-side check with the end-user column list, and its callers' contracts state what it does.
- UserCache.CheckBUserAccessToken and UserCache.CheckCUserAccessToken have no contracts of their own. `CheckAccessTokenOk` and the `Resolve*` lemmas state what the shared function they call does.
- Decimal.OverflowClampsToMax: stated only for runs of nines, not for every numeral above the int64 range, because the clamping proof is done for that family.
- Decimal.NonNumericParsesToZero: stated for a non-digit among the first twenty characters, where the parse certainly fails as a syntax error, not for every unparsable string.
- Registration.RegisterBinds and Registration.RegisterCreates: stated for runs in which none of the three statements and not the commit faults. The faulted cases are covered by `RegisterLookupFails`, `RegisterCreateCommitLost` and `RegisterTx`.
- UserUsecase.WxUpdateRow: does not state the avatar column. The avatar swap is stated on the update map by `WxEntity`.
- FieldFilter.SetCuFilter: keys the CU filter on the corrected key of the Findings table, not on the source's `"__CU"` + table + `":FIELDS"`. Every use of the CU filter in this model (updates, inserts, registration) therefore follows the corrected program. The source's key is modelled by `CuKeyAsWrittenCollides`, `ReadKeyIsCuKeyAsWritten` and `FiltersIndependentAsWritten`; the core only ever uses table `user`, where both keys behave alike.
- FieldFilter.FiltersIndependent: holds for every pair of tables only with the corrected key. With the source's key it fails for a read table named `cu` followed by the CU table's name; `FiltersIndependentAsWritten` states it for every other pair.
- Text.ToUpper: upper-cases ASCII letters only, where Go's `strings.ToUpper` also maps other Unicode letters ("é" to "É"). Table names only reach it through the filter keys, and the core's one table name, `user`, is ASCII.
- UserCache.AdmitTokenStores: computes the token's lifetime in unbounded seconds. The source converts it to a nanosecond `time.Duration` (internal/passport/cache/user_cache.go:229), which wraps around for a stored expiry more than about 292 years ahead; go-redis then sends a wrong expiry or none. The model does not follow that wrap-around, because the Redis store is modelled in whole seconds.
- KvStore.Set: a non-positive lifetime stores the key with no deadline. This follows the Go Redis client, which sends an expiry only for a positive duration.

## Findings

| source | as written | input that shows it | evidently intended | confidence | as-written member | corrected member |
|---|---|---|---|---|---|---|
| pkg/core/app.go:33,56 | The CU filter key of table `t` is `"__CU" + UPPER(t) + ":FIELDS"`. That is the read-filter key of table `"CU" + t` (lines 13 and 27). | `SetTableFilterFieldsToCtx(ctx, "cuuser", "id")` then `GetTableCUFilterFieldsFromCtx(ctx, "user")` answers `[sentinel, "id"]`, not two sentinels. | The read and CU filters live in separate key spaces, so setting one never changes the other. | low; not executed. It needs a second table whose name is `cu` followed by the first one's name. | FieldFilter.CuKeyAsWrittenCollides | FieldFilter.ReadAndCuKeysDisjoint |

=== FILE: bit_int.dfy ===
/** `BitInt`, the integer type the service uses for MySQL `bit(1)` columns
    (the user's sex): how it is written to and read back from the driver. */
module BitInt {

  newtype byte = x: int | 0 <= x < 256

  /** The shapes a database driver hands to `Scan`. */
  datatype DriverValue = Bytes(b: seq<byte>) | Int64Value(i: int) | Text(s: string) | Null

  /** `BitInt.Value`: 0 is written as the single byte 0, anything else as the byte 1. */
  function Value(b: int): (v: DriverValue)
    ensures v.Bytes? && |v.b| == 1
    ensures v.b[0] == 0 <==> b == 0
    ensures v.b[0] == 0 || v.b[0] == 1
  {
    if b == 0 then Bytes([0]) else Bytes([1])
  }

  datatype ScanStatus = Scanned | BadType | IndexOutOfRange

  /** The receiver's value after `Scan`, and how `Scan` ended. */
  datatype ScanOutcome = ScanOutcome(value: int, status: ScanStatus)

  /** `(*BitInt).Scan`: anything but a byte slice is refused with an error and
      the receiver is left alone; an empty slice makes the `v[0]` read panic;
      otherwise only the first byte counts, 0 giving 0 and any other byte 1. */
  function Scan(cur: int, src: DriverValue): (r: ScanOutcome)
    ensures !src.Bytes? ==> r == ScanOutcome(cur, BadType)
    ensures src.Bytes? && |src.b| == 0 ==> r == ScanOutcome(cur, IndexOutOfRange)
    ensures src.Bytes? && |src.b| > 0 ==>
      r.status == Scanned && (r.value == 0 <==> src.b[0] == 0) && (r.value == 0 || r.value == 1)
  {
    match src
    case Bytes(v) =>
      if |v| == 0 then ScanOutcome(cur, IndexOutOfRange)
      else if v[0] == 0 then ScanOutcome(0, Scanned)
      else ScanOutcome(1, Scanned)
    case _ => ScanOutcome(cur, BadType)
  }

  /** What a `bit(1)` column holds for `b`: 0 stays 0, every other value becomes 1. */
  function Normalize(b: int): int {
    if b == 0 then 0 else 1
  }

  /** Writing then reading back normalises, whatever the receiver held before. */
  lemma ScanValue(cur: int, b: int)
    ensures Scan(cur, Value(b)) == ScanOutcome(Normalize(b), Scanned)
  {
  }

  /** On the values a bit can hold, writing then reading is the identity. */
  lemma ScanValueIdentity(cur: int, b: int)
    requires b == 0 || b == 1
    ensures Scan(cur, Value(b)).value == b
  {
  }
}

=== FILE: brand_ucase.dfy ===
/** The brand use cases: the join of a user's brands with their leases, and
    the entitlement check for the shared mini-program. The brand, lease and
    mini-program tables belong to repositories outside this model, so each
    lookup is a parameter that yields either rows or an error code. */
module BrandUsecase {
  import opened Outcomes

  datatype Brand = Brand(id: int, name: string, dbName: string, logo: string)

  /** A user's membership of a brand. */
  datatype BrandUser = BrandUser(id: int, brandId: int, userId: int)

  /** A brand's lease: until when the brand may be used. */
  datatype BrandExpire = BrandExpire(id: int, brandId: int, status: int, expireTime: int, level: int, lastSignTime: int)

  /** A brand's subscription to the shared mini-program. */
  datatype BrandUnimini = BrandUnimini(expireTime: int)

  /** One entry of the joined list: a brand and its lease, if it has one. */
  datatype BrandInfo = BrandInfo(brand: Brand, expire: Option<BrandExpire>)

  /** The lease the join attaches to brand `id`: the last record in list
      order that names it, since later records overwrite earlier ones. */
  function LastWith(es: seq<BrandExpire>, id: int): Option<BrandExpire> {
    if |es| == 0 then None
    else if es[|es| - 1].brandId == id then Some(es[|es| - 1])
    else LastWith(es[..|es| - 1], id)
  }

  /** No lease is attached exactly when no record names the brand. */
  lemma {:induction false} LastWithNone(es: seq<BrandExpire>, id: int)
    ensures LastWith(es, id).None? <==> forall j :: 0 <= j < |es| ==> es[j].brandId != id
  {
    if |es| > 0 {
      var init := es[..|es| - 1];
      LastWithNone(init, id);
      assert forall j :: 0 <= j < |init| ==> init[j] == es[j];
    }
  }

  /** When records name the brand, the attached lease is the last of them. */
  lemma {:induction false} LastWithIsLast(es: seq<BrandExpire>, id: int, j: int)
    requires 0 <= j < |es| && es[j].brandId == id
    requires forall k :: j < k < |es| ==> es[k].brandId != id
    ensures LastWith(es, id) == Some(es[j])
  {
    if j < |es| - 1 {
      var init := es[..|es| - 1];
      assert init[j] == es[j];
      LastWithIsLast(init, id, j);
    }
  }

  /** `GetBrandBaseAndLeaseInfoByUserID`. The three lookups are the
      membership query for the user and the two batch queries by brand id.
      A failed or empty lookup ends the join early with an empty list; the
      call itself never fails. */
  method GetBrandBaseAndLeaseInfoByUserID(
    userId: int,
    brandUsersOf: int -> Result<seq<BrandUser>>,
    brandsOf: seq<int> -> Result<seq<Brand>>,
    expiresOf: seq<int> -> Result<seq<BrandExpire>>)
    returns (r: Result<seq<BrandInfo>>)
    ensures r.Ok?
    ensures brandUsersOf(userId).Err? || |brandUsersOf(userId).value| == 0 ==> r.value == []
    ensures brandUsersOf(userId).Ok? && |brandUsersOf(userId).value| > 0 ==>
      var ids := BrandIds(brandUsersOf(userId).value);
      var brands := brandsOf(ids);
      var expires := expiresOf(ids);
      if brands.Err? || |brands.value| == 0 || expires.Err? then r.value == []
      else
        && |r.value| == |brands.value|
        && forall i :: 0 <= i < |r.value| ==>
             r.value[i].brand == brands.value[i] && r.value[i].expire == LastWith(expires.value, brands.value[i].id)
  {
    var info: seq<BrandInfo> := [];
    var members := brandUsersOf(userId);
    if members.Err? || |members.value| == 0 {
      return Ok(info);
    }

    var ids := CollectBrandIds(members.value);

    var brands := brandsOf(ids);
    if brands.Err? || |brands.value| == 0 {
      return Ok(info);
    }

    var expires := expiresOf(ids);
    if expires.Err? {
      return Ok(info);
    }

    var leases := IndexLeases(expires.value);

    var i := 0;
    while i < |brands.value|
      invariant 0 <= i <= |brands.value| && |info| == i
      invariant forall k :: 0 <= k < i ==>
        info[k].brand == brands.value[k] && info[k].expire == LastWith(expires.value, brands.value[k].id)
    {
      var b := brands.value[i];
      var lease := if b.id in leases then Some(leases[b.id]) else None;
      info := info + [BrandInfo(b, lease)];
      i := i + 1;
    }
    return Ok(info);
  }

  /** The brand ids of the memberships, in order. */
  function BrandIds(us: seq<BrandUser>): (ids: seq<int>)
    ensures |ids| == |us|
  {
    if |us| == 0 then [] else BrandIds(us[..|us| - 1]) + [us[|us| - 1].brandId]
  }

  /** The loop that gathers the membership's brand ids. */
  method CollectBrandIds(us: seq<BrandUser>) returns (ids: seq<int>)
    ensures ids == BrandIds(us)
    ensures forall k :: 0 <= k < |us| ==> ids[k] == us[k].brandId
  {
    ids := [];
    var i := 0;
    while i < |us|
      invariant 0 <= i <= |us|
      invariant ids == BrandIds(us[..i])
      invariant forall k :: 0 <= k < i ==> ids[k] == us[k].brandId
    {
      assert us[..i + 1][..i] == us[..i];
      ids := ids + [us[i].brandId];
      i := i + 1;
    }
    assert us[..i] == us;
  }

  /** The loop that fills the lease map: each record is stored under its
      brand id, so a later record with the same brand id replaces an earlier
      one. */
  method IndexLeases(es: seq<BrandExpire>) returns (m: map<int, BrandExpire>)
    ensures forall id :: (id in m <==> LastWith(es, id).Some?)
    ensures forall id :: id in m ==> LastWith(es, id) == Some(m[id])
  {
    m := map[];
    var i := 0;
    while i < |es|
      invariant 0 <= i <= |es|
      invariant forall id :: (id in m <==> LastWith(es[..i], id).Some?)
      invariant forall id :: id in m ==> LastWith(es[..i], id) == Some(m[id])
    {
      assert es[..i + 1][..i] == es[..i];
      m := m[es[i].brandId := es[i]];
      i := i + 1;
    }
    assert es[..i] == es;
  }

  /** `CheckUniminiExpire`: the brand's lease is checked first, then its
      mini-program subscription. A missing lease and an expired lease are
      both reported as an unknown brand; a missing subscription means the
      mini-program is not open and an expired one that it has expired.
      Lookup errors other than not-found are passed on unchanged. Both
      expiry tests are strict, so a deadline equal to `now` is still valid. */
  function CheckUniminiExpire(
    brandId: int,
    expireOf: int -> Result<BrandExpire>,
    uniminiOf: int -> Result<BrandUnimini>,
    now: int): (r: Result<()>)
    ensures r.Ok? <==> Entitled(expireOf(brandId), uniminiOf(brandId), now)
  {
    var lease := expireOf(brandId);
    if lease.Err? then
      if lease.code == DataNotFound then Err(BrandNotFound) else Err(lease.code)
    else if lease.value.expireTime < now then Err(BrandNotFound)
    else
      var sub := uniminiOf(brandId);
      if sub.Err? then
        if sub.code == DataNotFound then Err(UniminiNotOpen) else Err(sub.code)
      else if sub.value.expireTime < now then Err(UniminiExpired)
      else Ok(())
  }

  /** A brand may use the mini-program when both its lease and its
      subscription exist and neither deadline has passed. */
  predicate Entitled(lease: Result<BrandExpire>, sub: Result<BrandUnimini>, now: int) {
    lease.Ok? && now <= lease.value.expireTime && sub.Ok? && now <= sub.value.expireTime
  }

  /** The lease decides first: when it is missing or expired the answer is
      an unknown brand, whatever the subscription looks like. */
  lemma LeaseDecidesFirst(brandId: int, expireOf: int -> Result<BrandExpire>,
                          uniminiOf: int -> Result<BrandUnimini>, uniminiOf': int -> Result<BrandUnimini>, now: int)
    requires expireOf(brandId) == Err(DataNotFound) || (expireOf(brandId).Ok? && expireOf(brandId).value.expireTime < now)
    ensures CheckUniminiExpire(brandId, expireOf, uniminiOf, now) == Err(BrandNotFound)
    ensures CheckUniminiExpire(brandId, expireOf, uniminiOf, now) == CheckUniminiExpire(brandId, expireOf, uniminiOf', now)
  {
  }

  /** With a valid lease, the subscription decides: missing means not open,
      expired means expired. */
  lemma SubscriptionDecidesNext(brandId: int, expireOf: int -> Result<BrandExpire>,
                                uniminiOf: int -> Result<BrandUnimini>, now: int)
    requires expireOf(brandId).Ok? && now <= expireOf(brandId).value.expireTime
    ensures uniminiOf(brandId) == Err(DataNotFound) ==> CheckUniminiExpire(brandId, expireOf, uniminiOf, now) == Err(UniminiNotOpen)
    ensures uniminiOf(brandId).Ok? && uniminiOf(brandId).value.expireTime < now ==>
      CheckUniminiExpire(brandId, expireOf, uniminiOf, now) == Err(UniminiExpired)
  {
  }

  /** The check never reports an expired brand of its own accord: that code
      comes back only when a lookup produced it. */
  lemma NeverBrandExpired(brandId: int, expireOf: int -> Result<BrandExpire>,
                          uniminiOf: int -> Result<BrandUnimini>, now: int)
    requires expireOf(brandId) != Err(BrandExpired) && uniminiOf(brandId) != Err(BrandExpired)
    ensures CheckUniminiExpire(brandId, expireOf, uniminiOf, now) != Err(BrandExpired)
  {
  }

  /** A deadline equal to the current time still counts as valid. */
  lemma DeadlineNowIsValid(brandId: int, expireOf: int -> Result<BrandExpire>,
                           uniminiOf: int -> Result<BrandUnimini>, now: int)
    requires expireOf(brandId).Ok? && expireOf(brandId).value.expireTime == now
    requires uniminiOf(brandId).Ok? && uniminiOf(brandId).value.expireTime == now
    ensures CheckUniminiExpire(brandId, expireOf, uniminiOf, now) == Ok(())
  {
  }
}

=== FILE: cache_keys.dfy ===
/** The five key namespaces of the user cache. Every key is the common
    prefix, a namespace segment and the id, token or date it is about. */
module CacheKeys {
  import opened Decimal

  const Prefix: string := "XPASSPORT:USER"

  /** Seconds a cached user hash lives after being filled. */
  const UserTtl: int := 86400 * 30
  /** Seconds a day's login set lives after its first member. */
  const LoginListTtl: int := 86400 * 2

  datatype CacheKey =
    | Uid(id: int)
    | Token(token: string)
    | MisToken(misToken: string)
    | LoginUsers(date: string)
    | MisSession(userId: int)

  function Segment(k: CacheKey): string {
    match k
    case Uid(_) => ":UID:"
    case Token(_) => ":ACCESS_TOKEN2ID:"
    case MisToken(_) => ":MIS_ACCESS_TOKEN2ID:"
    case LoginUsers(_) => ":LOGIN_USERS:"
    case MisSession(_) => ":MIS_UID_SESSION:"
  }

  function Suffix(k: CacheKey): string {
    match k
    case Uid(id) => FormatInt(id)
    case Token(t) => t
    case MisToken(t) => t
    case LoginUsers(d) => d
    case MisSession(id) => FormatInt(id)
  }

  function KeyString(k: CacheKey): string {
    Prefix + Segment(k) + Suffix(k)
  }

  function UidKey(id: int): string { KeyString(Uid(id)) }
  function TokenKey(token: string): string { KeyString(Token(token)) }
  function MisTokenKey(token: string): string { KeyString(MisToken(token)) }
  function LoginUsersKey(date: string): string { KeyString(LoginUsers(date)) }
  function MisSessionKey(id: int): string { KeyString(MisSession(id)) }

  /** The namespaces of two keys differ. */
  predicate OtherKind(a: CacheKey, b: CacheKey) {
    a.Uid? != b.Uid? || a.Token? != b.Token? || a.MisToken? != b.MisToken?
    || a.LoginUsers? != b.LoginUsers? || a.MisSession? != b.MisSession?
  }

  /** The segment's characters sit right after the prefix. */
  lemma SegmentAt(k: CacheKey, i: nat)
    requires i < |Segment(k)|
    ensures |KeyString(k)| > |Prefix| + i && KeyString(k)[|Prefix| + i] == Segment(k)[i]
  {
    assert KeyString(k) == Prefix + (Segment(k) + Suffix(k));
  }

  /** The key ends with its id, token or date. */
  lemma SuffixAt(k: CacheKey)
    ensures KeyString(k)[|Prefix| + |Segment(k)|..] == Suffix(k)
  {
  }

  /** The segments of two namespaces part at their second character, or,
      for the two `MIS_` ones, four characters later. */
  lemma SegmentsPart(a: CacheKey, b: CacheKey)
    requires OtherKind(a, b)
    ensures Segment(a)[1] != Segment(b)[1]
      || (|Segment(a)| > 5 && |Segment(b)| > 5 && Segment(a)[5] != Segment(b)[5])
  {
    match a
    case Uid(_) =>
    case Token(_) =>
    case MisToken(_) =>
    case LoginUsers(_) =>
    case MisSession(_) =>
  }

  /** Keys of different namespaces differ. */
  lemma KindsDisjoint(a: CacheKey, b: CacheKey)
    requires OtherKind(a, b)
    ensures KeyString(a) != KeyString(b)
  {
    SegmentsPart(a, b);
    if Segment(a)[1] != Segment(b)[1] {
      SegmentAt(a, 1);
      SegmentAt(b, 1);
    } else {
      SegmentAt(a, 5);
      SegmentAt(b, 5);
    }
  }

  /** Distinct keys are never written to the same string: the namespaces are
      disjoint and each key function is injective. */
  lemma {:induction false} KeyStringInjective(a: CacheKey, b: CacheKey)
    requires KeyString(a) == KeyString(b)
    ensures a == b
  {
    if OtherKind(a, b) {
      KindsDisjoint(a, b);
    } else {
      SuffixAt(a);
      SuffixAt(b);
      match a
      case Uid(x) => FormatIntInjective(x, b.id);
      case MisSession(x) => FormatIntInjective(x, b.userId);
      case _ =>
    }
  }
}

=== FILE: decimal.dfy ===
/** Base-10 formatting and parsing of 64-bit integers: Go's
    `strconv.FormatInt(n, 10)` (also what the cache client writes for an
    integer value) and `strconv.ParseInt(s, 10, 64)`. */
module Decimal {

  const MinInt64: int := -0x8000_0000_0000_0000
  const MaxInt64: int := 0x7fff_ffff_ffff_ffff
  const MaxUint64: int := 0xffff_ffff_ffff_ffff

  predicate IsInt64(n: int) {
    MinInt64 <= n <= MaxInt64
  }

  predicate IsDigit(c: char) {
    '0' <= c <= '9'
  }

  predicate AllDigits(s: string) {
    forall i :: 0 <= i < |s| ==> IsDigit(s[i])
  }

  function DigitValue(c: char): nat
    requires IsDigit(c)
  {
    c as int - '0' as int
  }

  function DigitChar(d: nat): (c: char)
    requires d < 10
    ensures IsDigit(c) && DigitValue(c) == d
  {
    ('0' as int + d) as char
  }

  /** The shortest decimal spelling of `n`. */
  function Digits(n: nat): (s: string)
    ensures |s| >= 1 && AllDigits(s)
  {
    if n < 10 then [DigitChar(n)] else Digits(n / 10) + [DigitChar(n % 10)]
  }

  /** Reads the digits of `s` left to right, starting from the accumulator `acc`. */
  function ValueFrom(s: string, acc: nat): nat
    requires AllDigits(s)
  {
    if |s| == 0 then acc else ValueFrom(s[1..], acc * 10 + DigitValue(s[0]))
  }

  /** `strconv.FormatInt(n, 10)`. */
  function FormatInt(n: int): string {
    if n < 0 then "-" + Digits(-n) else Digits(n)
  }

  lemma {:induction false} ValueFromAppend(s: string, c: char, acc: nat)
    requires AllDigits(s) && IsDigit(c)
    ensures AllDigits(s + [c])
    ensures ValueFrom(s + [c], acc) == ValueFrom(s, acc) * 10 + DigitValue(c)
    decreases |s|
  {
    if |s| > 0 {
      assert (s + [c])[1..] == s[1..] + [c];
      ValueFromAppend(s[1..], c, acc * 10 + DigitValue(s[0]));
    }
  }

  /** Reading the spelling of `n` back gives `n`. */
  lemma {:induction false} DigitsValue(n: nat)
    ensures ValueFrom(Digits(n), 0) == n
  {
    if n >= 10 {
      DigitsValue(n / 10);
      ValueFromAppend(Digits(n / 10), DigitChar(n % 10), 0);
    }
  }

  /** Reading never decreases the accumulator. */
  lemma {:induction false} ValueFromGrows(s: string, acc: nat)
    requires AllDigits(s)
    ensures ValueFrom(s, acc) >= acc
    decreases |s|
  {
    if |s| > 0 {
      ValueFromGrows(s[1..], acc * 10 + DigitValue(s[0]));
    }
  }

  /** `FormatInt` never spells two different integers the same way. */
  lemma FormatIntInjective(a: int, b: int)
    requires FormatInt(a) == FormatInt(b)
    ensures a == b
  {
    if a < 0 && b < 0 {
      assert Digits(-a) == FormatInt(a)[1..] == FormatInt(b)[1..] == Digits(-b);
      DigitsValue(-a);
      DigitsValue(-b);
    } else if a >= 0 && b >= 0 {
      DigitsValue(a);
      DigitsValue(b);
    } else {
      SignChar(a);
      SignChar(b);
    }
  }

  /** The spelling starts with a minus sign exactly for negative numbers. */
  lemma SignChar(n: int)
    ensures |FormatInt(n)| > 0 && (FormatInt(n)[0] == '-' <==> n < 0)
  {
    if n >= 0 {
      assert IsDigit(Digits(n)[0]);
    }
  }

  /** What `strconv.ParseUint(s, 10, 64)` reports. */
  datatype UintOutcome = UParsed(u: nat) | USyntax | URange

  /** The digit loop of `ParseUint`: a non-digit is a syntax error, and the
      first digit that pushes the value past 2^64-1 is a range error,
      whatever follows it. */
  function ScanUint(s: string, acc: nat): UintOutcome
    decreases |s|
  {
    if |s| == 0 then UParsed(acc)
    else if !IsDigit(s[0]) then USyntax
    else if acc * 10 + DigitValue(s[0]) > MaxUint64 then URange
    else ScanUint(s[1..], acc * 10 + DigitValue(s[0]))
  }

  /** What `strconv.ParseInt(s, 10, 64)` reports: the value, a syntax error
      (value 0) or a range error (value clamped to the int64 bound). */
  datatype ParseOutcome = Parsed(n: int) | SyntaxError | RangeError(clamped: int)

  function ParseInt(s: string): ParseOutcome {
    if |s| == 0 then SyntaxError
    else
      var neg := s[0] == '-';
      var body := Unsigned(s);
      if |body| == 0 then SyntaxError
      else match ScanUint(body, 0)
        case USyntax => SyntaxError
        case URange => if neg then RangeError(MinInt64) else RangeError(MaxInt64)
        case UParsed(u) =>
          if !neg && u > MaxInt64 then RangeError(MaxInt64)
          else if neg && u > -MinInt64 then RangeError(MinInt64)
          else Parsed(if neg then -(u as int) else u as int)
  }

  /** The integer the service keeps from `id, _ := strconv.ParseInt(val, 10, 64)`. */
  function ParseIntIgnoringError(s: string): (n: int)
    ensures IsInt64(n)
    ensures ParseInt(s).SyntaxError? ==> n == 0
  {
    match ParseInt(s)
    case Parsed(v) => v
    case SyntaxError => 0
    case RangeError(c) => c
  }

  lemma {:induction false} ScanDigits(s: string, acc: nat)
    requires AllDigits(s) && ValueFrom(s, acc) <= MaxUint64
    ensures ScanUint(s, acc) == UParsed(ValueFrom(s, acc))
    decreases |s|
  {
    if |s| > 0 {
      var next := acc * 10 + DigitValue(s[0]);
      ValueFromGrows(s[1..], next);
      ScanDigits(s[1..], next);
    }
  }

  /** Parsing the spelling of an int64 gives it back, without error. */
  lemma ParseFormatInt(n: int)
    requires IsInt64(n)
    ensures ParseInt(FormatInt(n)) == Parsed(n)
    ensures ParseIntIgnoringError(FormatInt(n)) == n
  {
    var m: nat := if n < 0 then -n else n;
    DigitsValue(m);
    ScanDigits(Digits(m), 0);
    if n < 0 {
      assert FormatInt(n)[1..] == Digits(m);
    }
  }

  /** The part of `s` after an optional leading sign. */
  function Unsigned(s: string): string
    requires |s| > 0
  {
    if s[0] == '+' || s[0] == '-' then s[1..] else s
  }

  function Pow10(k: nat): (p: nat)
    ensures p >= 1
  {
    if k == 0 then 1 else 10 * Pow10(k - 1)
  }

  /** Every power of ten up to the nineteenth fits below 2^64. */
  lemma {:induction false} Pow10Le19(k: nat)
    requires k <= 19
    ensures Pow10(k) <= 10_000_000_000_000_000_000
    decreases 19 - k
  {
    if k < 19 {
      Pow10Le19(k + 1);
    } else {
      Pow10Nineteen();
    }
  }

  lemma {:induction false} ScanHitsNonDigit(s: string, acc: nat, k: nat, i: nat)
    requires acc < Pow10(k) && i < |s| && !IsDigit(s[i]) && k + i <= 19
    ensures ScanUint(s, acc) == USyntax
    decreases i
  {
    if IsDigit(s[0]) {
      var next := acc * 10 + DigitValue(s[0]);
      Pow10Le19(k + 1);
      assert s[1..][i - 1] == s[i];
      ScanHitsNonDigit(s[1..], next, k + 1, i - 1);
    }
  }

  /** A cached value with a non-digit among its first twenty characters
      (after an optional sign) is a syntax error, so the ignored error leaves
      user id 0. */
  lemma NonNumericParsesToZero(s: string, i: nat)
    requires |s| > 0 && i < |Unsigned(s)| && i < 20 && !IsDigit(Unsigned(s)[i])
    ensures ParseInt(s) == SyntaxError
    ensures ParseIntIgnoringError(s) == 0
  {
    ScanHitsNonDigit(Unsigned(s), 0, 0, i);
  }

  lemma Pow10Nineteen()
    ensures Pow10(19) == 10_000_000_000_000_000_000
  {
    assert Pow10(1) == 10;
    assert Pow10(4) == 10_000;
    assert Pow10(7) == 10_000_000;
    assert Pow10(10) == 10_000_000_000;
    assert Pow10(13) == 10_000_000_000_000;
    assert Pow10(16) == 10_000_000_000_000_000;
  }

  lemma {:induction false} ScanNines(s: string, k: nat)
    requires k <= 19 && |s| + k >= 20
    requires forall i :: 0 <= i < |s| ==> s[i] == '9'
    ensures ScanUint(s, Pow10(k) - 1) == URange
    decreases |s|
  {
    var next := (Pow10(k) - 1) * 10 + 9;
    assert next == Pow10(k + 1) - 1;
    if k < 19 {
      Pow10Le19(k + 1);
      ScanNines(s[1..], k + 1);
    } else {
      Pow10Nineteen();
    }
  }

  /** A run of nines too long for 64 bits is not read as 0: the range
      error carries the clamped bound, which is what the ignored error leaves. */
  lemma OverflowClampsToMax(s: string)
    requires |s| >= 20 && forall i :: 0 <= i < |s| ==> s[i] == '9'
    ensures ParseInt(s) == RangeError(MaxInt64)
    ensures ParseIntIgnoringError(s) == MaxInt64
  {
    assert s[0] == '9' && Unsigned(s) == s;
    ScanNines(s, 0);
  }
}

=== FILE: field_filter.dfy ===
/** The per-table column filters the service passes down through the request
    context (pkg/core/app.go): a read filter, the column list a `SELECT` uses,
    and a create/update ("CU") filter, the columns an `INSERT` or `UPDATE`
    may write. The context is modelled as a string-keyed map of strings. */
module FieldFilter {
  import opened Text

  type Ctx = map<string, string>

  /** The column list handed to the database when the context carries none. */
  const Sentinel: string := "---INVALID FIELDS---"

  /** Context key of a table's read filter. */
  function ReadKey(table: string): string {
    "__" + ToUpper(table) + ":FIELDS"
  }

  /** Context key of a table's CU filter as the source spells it: the read
      key with `CU` inserted after the underscores. */
  function CuKeyAsWritten(table: string): string {
    "__CU" + ToUpper(table) + ":FIELDS"
  }

  /** Context key of a table's CU filter, moved into a suffix so that no read
      key can spell it (see `ReadAndCuKeysDisjoint`). */
  function CuKey(table: string): string {
    "__" + ToUpper(table) + ":CU_FIELDS"
  }

  /** The string stored under `key`, or the empty string when there is none. */
  function Stored(ctx: Ctx, key: string): string {
    if key in ctx then ctx[key] else ""
  }

  /** `GetTableFilterFieldsFromCtx`. */
  function GetFilter(ctx: Ctx, table: string): (r: string)
    ensures Stored(ctx, ReadKey(table)) == "" ==> r == Sentinel
    ensures Stored(ctx, ReadKey(table)) != "" ==> r == TrimSpace(ctx[ReadKey(table)])
  {
    var fields := Stored(ctx, ReadKey(table));
    if fields == "" then Sentinel else TrimSpace(fields)
  }

  /** `SetTableFilterFieldsToCtx`. */
  function SetFilter(ctx: Ctx, table: string, fields: string): (r: Ctx)
    ensures ReadKey(table) in r && r[ReadKey(table)] == fields
    ensures forall k :: k != ReadKey(table) ==> Stored(r, k) == Stored(ctx, k)
  {
    ctx[ReadKey(table) := fields]
  }

  /** `SetTableCUFilterFieldsToCtx`. */
  function SetCuFilter(ctx: Ctx, table: string, fields: string): (r: Ctx)
    ensures CuKey(table) in r && r[CuKey(table)] == fields
    ensures forall k :: k != CuKey(table) ==> Stored(r, k) == Stored(ctx, k)
  {
    ctx[CuKey(table) := fields]
  }

  function Replicate(s: string, n: nat): (r: seq<string>)
    ensures |r| == n && forall i :: 0 <= i < n ==> r[i] == s
  {
    if n == 0 then [] else [s] + Replicate(s, n - 1)
  }

  /** Prepends sentinels until there are at least two entries, as
      `Select(filter[0], filter[1:])` needs. */
  function PadToTwo(parts: seq<string>): (r: seq<string>)
    ensures |r| == if |parts| < 2 then 2 else |parts|
    ensures r[|r| - |parts|..] == parts
    ensures forall i :: 0 <= i < |r| - |parts| ==> r[i] == Sentinel
  {
    var j := if |parts| < 2 then 2 - |parts| else 0;
    Replicate(Sentinel, j) + parts
  }

  /** The CU filter stored under `key`: two sentinels for a blank or `*`
      value, otherwise the comma-separated pieces padded to length two. */
  function CuFilterAt(ctx: Ctx, key: string): (r: seq<string>)
    ensures |r| >= 2
    ensures var f := TrimSpace(Stored(ctx, key));
      f == "" || f == "*" ==> r == [Sentinel, Sentinel]
    ensures var f := TrimSpace(Stored(ctx, key));
      f != "" && f != "*" ==>
        var parts := Split(f, ',');
        && |r| == (if |parts| < 2 then 2 else |parts|)
        && r[|r| - |parts|..] == parts
        && (forall i :: 0 <= i < |r| - |parts| ==> r[i] == Sentinel)
  {
    var fields := TrimSpace(Stored(ctx, key));
    if fields == "" || fields == "*" then [Sentinel, Sentinel]
    else PadToTwo(Split(fields, ','))
  }

  /** `GetTableCUFilterFieldsFromCtx`. */
  function GetCuFilter(ctx: Ctx, table: string): (r: seq<string>)
    ensures |r| >= 2
  {
    CuFilterAt(ctx, CuKey(table))
  }

  /** Setting a read filter and reading it back yields the trimmed value, or
      the sentinel when the value set was empty. */
  lemma FilterRoundTrip(ctx: Ctx, table: string, fields: string)
    ensures GetFilter(SetFilter(ctx, table, fields), table)
      == if fields == "" then Sentinel else TrimSpace(fields)
  {
  }

  /** The key only depends on the upper-cased table name, so two spellings
      that differ in letter case share one filter. */
  lemma FilterIgnoresCase(ctx: Ctx, t1: string, t2: string, fields: string)
    requires ToUpper(t1) == ToUpper(t2)
    ensures GetFilter(SetFilter(ctx, t1, fields), t2)
      == if fields == "" then Sentinel else TrimSpace(fields)
  {
    assert ReadKey(t1) == ReadKey(t2);
  }

  /** Setting then reading a CU filter with a real column list gives exactly
      its comma-separated pieces, padded in front up to two entries. */
  lemma CuFilterRoundTrip(ctx: Ctx, table: string, fields: string)
    requires fields == TrimSpace(fields) && fields != "" && fields != "*"
    ensures var r := GetCuFilter(SetCuFilter(ctx, table, fields), table);
      var parts := Split(fields, ',');
      && |r| == (if |parts| < 2 then 2 else |parts|)
      && r[|r| - |parts|..] == parts
      && Join(parts, ',') == fields
  {
    SplitJoin(fields, ',');
  }

  /** No read key equals any CU key: their last seven characters differ. */
  lemma ReadAndCuKeysDisjoint(t1: string, t2: string)
    ensures ReadKey(t1) != CuKey(t2)
  {
    var a := ReadKey(t1);
    var b := CuKey(t2);
    assert a[|a| - 7] == ':';
    assert b[|b| - 7] == '_';
  }

  /** Setting a read filter never changes any table's CU filter, and setting
      a CU filter never changes any table's read filter. */
  lemma FiltersIndependent(ctx: Ctx, t1: string, t2: string, fields: string)
    ensures GetCuFilter(SetFilter(ctx, t1, fields), t2) == GetCuFilter(ctx, t2)
    ensures GetFilter(SetCuFilter(ctx, t1, fields), t2) == GetFilter(ctx, t2)
  {
    ReadAndCuKeysDisjoint(t1, t2);
    ReadAndCuKeysDisjoint(t2, t1);
  }

  /** With the source's spelling of the CU key, a read key and a CU key
      coincide only for a read table whose upper-cased name is `CU` followed
      by the CU table's upper-cased name. */
  lemma ReadKeyIsCuKeyAsWritten(t1: string, t2: string)
    ensures ReadKey(t1) == CuKeyAsWritten(t2) <==> ToUpper(t1) == "CU" + ToUpper(t2)
  {
    var a := ReadKey(t1);
    var b := CuKeyAsWritten(t2);
    assert b == "__" + ("CU" + ToUpper(t2)) + ":FIELDS";
    if a == b {
      assert a[2..|a| - 7] == ToUpper(t1);
      assert b[2..|b| - 7] == "CU" + ToUpper(t2);
    }
  }

  /** With the source's spelling of the CU key, the two filters stay
      independent for every pair of tables outside that collision: a read
      filter leaves the CU filter alone, and a CU filter leaves the read
      filter alone. */
  lemma FiltersIndependentAsWritten(ctx: Ctx, t1: string, t2: string, fields: string)
    requires ToUpper(t1) != "CU" + ToUpper(t2)
    requires ToUpper(t2) != "CU" + ToUpper(t1)
    ensures CuFilterAt(SetFilter(ctx, t1, fields), CuKeyAsWritten(t2)) == CuFilterAt(ctx, CuKeyAsWritten(t2))
    ensures GetFilter(ctx[CuKeyAsWritten(t1) := fields], t2) == GetFilter(ctx, t2)
  {
    ReadKeyIsCuKeyAsWritten(t1, t2);
    ReadKeyIsCuKeyAsWritten(t2, t1);
  }

  /** With the source's spelling of the CU key, the CU key of table `t` is
      the read key of table `CU` + `t`: a read filter set for that table is
      what `t`'s CU filter reads, and it turns two sentinels into a column. */
  lemma CuKeyAsWrittenCollides(t: string, fields: string)
    ensures CuKeyAsWritten(t) == ReadKey("CU" + t)
    ensures Stored(SetFilter(map[], "CU" + t, fields), CuKeyAsWritten(t)) == fields
    ensures CuFilterAt(map[], CuKeyAsWritten(t)) == [Sentinel, Sentinel]
    ensures fields == "id" ==>
      CuFilterAt(SetFilter(map[], "CU" + t, fields), CuKeyAsWritten(t)) == [Sentinel, "id"]
  {
    var u := ToUpper("CU" + t);
    assert u == "CU" + ToUpper(t) by {
      assert forall i :: 0 <= i < |u| ==> u[i] == ("CU" + ToUpper(t))[i];
    }
    assert TrimSpace("") == "";
    if fields == "id" {
      TrimSpaceOfTrimmed("id");
      JoinSplit(["id"], ',');
    }
  }
}

=== FILE: kv_store.dfy ===
/** The key-value cache (Redis) as the service uses it: string keys holding a
    string, a hash of user fields or a set of strings, each with an optional
    deadline in unix seconds. A key whose deadline has passed is gone.
    Every command is one round trip that the environment may fail: `faults`
    is the script of upcoming round trips, `true` meaning that one fails. A
    failed command changes no data. */
module KvStore {
  import opened Outcomes
  import opened Users

  datatype Value = Str(s: string) | Hash(h: Fields) | Members(ms: set<string>)

  datatype Entry = Entry(value: Value, deadline: Option<int>)

  datatype Store = Store(data: map<string, Entry>, faults: seq<bool>)

  type Reply<T> = Step<T, Store>

  predicate Live(e: Entry, now: int) {
    e.deadline.None? || now < e.deadline.value
  }

  /** The entry a command issued at `now` sees under `key`. */
  function Lookup(r: Store, key: string, now: int): (e: Option<Entry>)
    ensures e.Some? ==> key in r.data && e.value == r.data[key] && Live(e.value, now)
    ensures e.None? ==> key !in r.data || !Live(r.data[key], now)
  {
    if key in r.data && Live(r.data[key], now) then Some(r.data[key]) else None
  }

  /** Consumes one round trip of the fault script; true when it fails. */
  function Fails(r: Store): bool {
    |r.faults| > 0 && r.faults[0]
  }

  function Next(r: Store): (r': Store)
    ensures r'.data == r.data
  {
    if |r.faults| > 0 then r.(faults := r.faults[1..]) else r
  }

  /** `a` and `b` hold the same entries under every key other than `key`. */
  ghost predicate SameExcept(a: map<string, Entry>, b: map<string, Entry>, key: string) {
    forall k :: k != key ==> (k in a <==> k in b) && (k in a ==> a[k] == b[k])
  }

  /** The deadline `ttl` seconds after `now`; a non-positive duration sets
      none, as the client only sends an expiry for a positive one. */
  function DeadlineAfter(now: int, ttl: int): Option<int> {
    if ttl > 0 then Some(now + ttl) else None
  }

  /** GET: the string under `key`, `None` for a missing key, an error for a
      key of another type. */
  function Get(r: Store, key: string, now: int): (out: Reply<Option<string>>)
    ensures out.state == Next(r)
    ensures !Fails(r) && Lookup(r, key, now).None? ==> out.res == Ok(None)
    ensures !Fails(r) && Lookup(r, key, now).Some? && Lookup(r, key, now).value.value.Str? ==>
      out.res == Ok(Some(Lookup(r, key, now).value.value.s))
    ensures out.res.Err? ==> out.res.code == Redis
  {
    if Fails(r) then Step(Err(Redis), Next(r))
    else match Lookup(r, key, now)
      case None => Step(Ok(None), Next(r))
      case Some(Entry(Str(s), _)) => Step(Ok(Some(s)), Next(r))
      case Some(_) => Step(Err(Redis), Next(r))
  }

  /** SET with an expiry of `ttl` seconds. */
  function Set(r: Store, key: string, val: string, ttl: int, now: int): (out: Reply<()>)
    ensures Fails(r) ==> out == Step(Err(Redis), Next(r))
    ensures !Fails(r) ==> (out.res.Ok? && out.state.faults == Next(r).faults
      && key in out.state.data && out.state.data[key] == Entry(Str(val), DeadlineAfter(now, ttl))
      && SameExcept(out.state.data, r.data, key))
  {
    if Fails(r) then Step(Err(Redis), Next(r))
    else Step(Ok(()), Next(r).(data := r.data[key := Entry(Str(val), DeadlineAfter(now, ttl))]))
  }

  /** DEL: removes the key; removing a missing key is not an error. */
  function Del(r: Store, key: string): (out: Reply<()>)
    ensures Fails(r) ==> out == Step(Err(Redis), Next(r))
    ensures !Fails(r) ==> (out.res.Ok? && out.state.faults == Next(r).faults
      && key !in out.state.data && SameExcept(out.state.data, r.data, key))
  {
    if Fails(r) then Step(Err(Redis), Next(r))
    else Step(Ok(()), Next(r).(data := r.data - {key}))
  }

  /** TTL: -2 for a missing key, -1 for a key without deadline, otherwise the
      seconds left. */
  function Ttl(r: Store, key: string, now: int): (out: Reply<int>)
    ensures out.state == Next(r)
    ensures out.res.Ok? ==> (out.res.value > 0 <==> Lookup(r, key, now).Some? && Lookup(r, key, now).value.deadline.Some?)
    ensures out.res.Ok? && out.res.value > 0 ==> out.res.value == Lookup(r, key, now).value.deadline.value - now
    ensures out.res.Err? <==> Fails(r)
  {
    if Fails(r) then Step(Err(Redis), Next(r))
    else match Lookup(r, key, now)
      case None => Step(Ok(-2), Next(r))
      case Some(Entry(_, None)) => Step(Ok(-1), Next(r))
      case Some(Entry(_, Some(d))) => Step(Ok(d - now), Next(r))
  }

  /** EXPIRE: gives a live key a deadline `secs` seconds ahead (a
      non-positive `secs` deletes it); a missing key is left alone. */
  function Expire(r: Store, key: string, secs: int, now: int): (out: Reply<bool>)
    ensures Fails(r) ==> out == Step(Err(Redis), Next(r))
    ensures !Fails(r) ==> (out.res.Ok? && out.state.faults == Next(r).faults
      && SameExcept(out.state.data, r.data, key))
    ensures !Fails(r) && secs > 0 && Lookup(r, key, now).Some? ==>
      key in out.state.data && out.state.data[key] == Entry(r.data[key].value, Some(now + secs))
    ensures !Fails(r) && Lookup(r, key, now).None? ==> out.state.data == r.data
  {
    if Fails(r) then Step(Err(Redis), Next(r))
    else match Lookup(r, key, now)
      case None => Step(Ok(false), Next(r))
      case Some(e) =>
        if secs > 0 then Step(Ok(true), Next(r).(data := r.data[key := e.(deadline := Some(now + secs))]))
        else Step(Ok(true), Next(r).(data := r.data - {key}))
  }

  /** The hash under `key`: empty for a missing key, an error for another type. */
  function HashAt(r: Store, key: string, now: int): Result<Fields> {
    match Lookup(r, key, now)
    case None => Ok(map[])
    case Some(Entry(Hash(h), _)) => Ok(h)
    case Some(_) => Err(Redis)
  }

  /** HGETALL. */
  function HGetAll(r: Store, key: string, now: int): (out: Reply<Fields>)
    ensures out.state == Next(r)
    ensures Fails(r) ==> out.res == Err(Redis)
    ensures !Fails(r) ==> out.res == HashAt(r, key, now)
  {
    if Fails(r) then Step(Err(Redis), Next(r)) else Step(HashAt(r, key, now), Next(r))
  }

  /** The columns the given hash-field names denote. */
  function NamedColumns(names: seq<string>): set<Column> {
    set n, c | n in names && c == ColumnByName(n) && c.Some? :: c.value
  }

  /** HMGET of the named fields: only those present come back. */
  function HMGet(r: Store, key: string, names: seq<string>, now: int): (out: Reply<Fields>)
    ensures out.state == Next(r)
    ensures Fails(r) ==> out.res == Err(Redis)
    ensures !Fails(r) && HashAt(r, key, now).Ok? ==>
      out.res.Ok? && (forall c :: c in out.res.value <==> c in HashAt(r, key, now).value && c in NamedColumns(names))
      && (forall c :: c in out.res.value ==> out.res.value[c] == HashAt(r, key, now).value[c])
  {
    if Fails(r) then Step(Err(Redis), Next(r))
    else match HashAt(r, key, now)
      case Err(e) => Step(Err(e), Next(r))
      case Ok(h) => Step(Ok(map c | c in h && c in NamedColumns(names) :: h[c]), Next(r))
  }

  /** HSET / HMSET: merges `fields` into the hash under `key`. A missing key
      becomes a new hash without deadline; a live hash keeps its deadline. */
  function HMSet(r: Store, key: string, fields: Fields, now: int): (out: Reply<()>)
    ensures Fails(r) ==> out == Step(Err(Redis), Next(r))
    ensures !Fails(r) && HashAt(r, key, now).Ok? ==> (out.res.Ok? && out.state.faults == Next(r).faults
      && key in out.state.data
      && out.state.data[key].value == Hash(HashAt(r, key, now).value + fields)
      && out.state.data[key].deadline == (if Lookup(r, key, now).Some? then r.data[key].deadline else None)
      && SameExcept(out.state.data, r.data, key))
    ensures out.res.Err? ==> out.state.data == r.data
  {
    if Fails(r) then Step(Err(Redis), Next(r))
    else match Lookup(r, key, now)
      case None => Step(Ok(()), Next(r).(data := r.data[key := Entry(Hash(map[] + fields), None)]))
      case Some(Entry(Hash(h), d)) => Step(Ok(()), Next(r).(data := r.data[key := Entry(Hash(h + fields), d)]))
      case Some(_) => Step(Err(Redis), Next(r))
  }

  /** The set under `key`: empty for a missing key, an error for another type. */
  function SetAt(r: Store, key: string, now: int): Result<set<string>> {
    match Lookup(r, key, now)
    case None => Ok({})
    case Some(Entry(Members(ms), _)) => Ok(ms)
    case Some(_) => Err(Redis)
  }

  /** SISMEMBER. */
  function SIsMember(r: Store, key: string, m: string, now: int): (out: Reply<bool>)
    ensures out.state == Next(r)
    ensures Fails(r) ==> out.res == Err(Redis)
    ensures !Fails(r) && SetAt(r, key, now).Ok? ==> out.res == Ok(m in SetAt(r, key, now).value)
  {
    if Fails(r) then Step(Err(Redis), Next(r))
    else match SetAt(r, key, now)
      case Err(e) => Step(Err(e), Next(r))
      case Ok(ms) => Step(Ok(m in ms), Next(r))
  }

  /** SADD: adds `m`; a missing key becomes a new set without deadline. */
  function SAdd(r: Store, key: string, m: string, now: int): (out: Reply<()>)
    ensures Fails(r) ==> out == Step(Err(Redis), Next(r))
    ensures !Fails(r) && SetAt(r, key, now).Ok? ==> (out.res.Ok? && out.state.faults == Next(r).faults
      && key in out.state.data
      && out.state.data[key].value == Members(SetAt(r, key, now).value + {m})
      && out.state.data[key].deadline == (if Lookup(r, key, now).Some? then r.data[key].deadline else None)
      && SameExcept(out.state.data, r.data, key))
    ensures out.res.Err? ==> out.state.data == r.data
  {
    if Fails(r) then Step(Err(Redis), Next(r))
    else match Lookup(r, key, now)
      case None => Step(Ok(()), Next(r).(data := r.data[key := Entry(Members({} + {m}), None)]))
      case Some(Entry(Members(ms), d)) => Step(Ok(()), Next(r).(data := r.data[key := Entry(Members(ms + {m}), d)]))
      case Some(_) => Step(Err(Redis), Next(r))
  }
}

=== FILE: outcomes.dfy ===
/** Error codes and the result type shared by every layer of the passport model.
    The codes are the domain codes the service attaches to its errors; only
    their identity matters here, not their numeric values. */
module Outcomes {

  datatype Option<+T> = None | Some(value: T)

  datatype Code =
    | UserNotFound
    | TokenInvalid
    | Redis
    | Database
    | PasswordIncorrect
    | PermissionDenied
    | UserNotRelateBrand
    | WxUserIsNotRegistered
    | PhoneBoundToOtherWeChatUser
    | BrandNotFound
    | UniminiNotOpen
    | BrandExpired
    | UniminiExpired
    | DataNotFound

  /** A call either yields a value or fails with a domain code. */
  datatype Result<+T> = Ok(value: T) | Err(code: Code) {
    predicate IsFailure() {
      Err?
    }

    function PropagateFailure<U>(): Result<U>
      requires Err?
    {
      Err(code)
    }

    function Extract(): T
      requires Ok?
    {
      value
    }
  }

  /** The result of one step of the state machine: an outcome and the state after it. */
  datatype Step<+T, +S> = Step(res: Result<T>, state: S)
}

=== FILE: registration.dfy ===
/** `RegisterCUserByWeChatUser` (internal/passport/usecase/user_ucase.go):
    the three-way upsert of a WeChat user inside one transaction. A user
    who already has the union id is returned as is; otherwise a user with
    the phone number is bound to the union id if it has none and refused if
    it has one; otherwise a new user is inserted. After a commit the bound
    user's cached row is evicted. */
module Registration {
  import opened Outcomes
  import opened Users
  import opened Text
  import opened FieldFilter
  import opened CacheKeys
  import KvStore
  import BitInt
  import opened UserRepo
  import opened UserCache
  import opened CacheRetry
  import opened UserUsecase

  /** The columns an insert writes: a comma-separated list of these names. */
  const CreateNames: seq<string> :=
    ["unionid", "phone", "nickname", "name", "real_name", "headimgurl", "avatar_url", "sex", "create_time", "update_time"]
  const CreateColumns: string := Join(CreateNames, ',')
  /** The columns a bind writes. */
  const BindNames: seq<string> := ["unionid", "nickname", "headimgurl", "update_time"]
  const BindColumns: string := Join(BindNames, ',')

  lemma JoinFirst(parts: seq<string>, sep: char)
    requires |parts| >= 1 && |parts[0]| > 0
    ensures |Join(parts, sep)| > 0 && Join(parts, sep)[0] == parts[0][0]
  {
  }

  lemma {:induction false} JoinLast(parts: seq<string>, sep: char)
    requires |parts| >= 1 && |parts[|parts| - 1]| > 0
    ensures var j := Join(parts, sep);
      |j| > 0 && j[|j| - 1] == parts[|parts| - 1][|parts[|parts| - 1]| - 1]
  {
    if |parts| > 1 {
      JoinLast(parts[1..], sep);
    }
  }

  /** A CU filter set to a list of column names joined by commas reads
      back as those names. */
  lemma {:induction false} CuFilterOfList(ctx: Ctx, names: seq<string>)
    requires |names| >= 2 && NoSep(names, ',')
    requires |names[0]| > 0 && !IsSpace(names[0][0]) && names[0][0] != '*'
    requires |names[|names| - 1]| > 0 && !IsSpace(names[|names| - 1][|names[|names| - 1]| - 1])
    ensures GetCuFilter(SetCuFilter(ctx, UserTable, Join(names, ',')), UserTable) == names
  {
    var fields := Join(names, ',');
    JoinFirst(names, ',');
    JoinLast(names, ',');
    TrimSpaceOfTrimmed(fields);
    JoinSplit(names, ',');
    CuFilterRoundTrip(ctx, UserTable, fields);
  }

  lemma CreateFilter(ctx: Ctx)
    ensures GetCuFilter(SetCuFilter(ctx, UserTable, CreateColumns), UserTable) == CreateNames
  {
    CuFilterOfList(ctx, CreateNames);
  }

  lemma BindFilter(ctx: Ctx)
    ensures GetCuFilter(SetCuFilter(ctx, UserTable, BindColumns), UserTable) == BindNames
  {
    CuFilterOfList(ctx, BindNames);
  }

  /** The read filters of the two lookups. */
  const IdNames: seq<string> := ["id"]
  const IdColumns: string := Join(IdNames, ',')
  const IdUnionNames: seq<string> := ["id", "unionid"]
  const IdUnionColumns: string := Join(IdUnionNames, ',')

  /** A read filter set to a list of column names joined by commas selects
      the columns those names denote. */
  lemma {:induction false} ReadFilterOfList(ctx: Ctx, names: seq<string>)
    requires |names| >= 1 && NoSep(names, ',')
    requires |names[0]| > 0 && !IsSpace(names[0][0]) && names[0][0] != '*'
    requires |names[|names| - 1]| > 0 && !IsSpace(names[|names| - 1][|names[|names| - 1]| - 1])
    ensures SelectColumns(GetFilter(SetFilter(ctx, UserTable, Join(names, ',')), UserTable)) == NamedColumns(names)
  {
    var fields := Join(names, ',');
    JoinFirst(names, ',');
    JoinLast(names, ',');
    TrimSpaceOfTrimmed(fields);
    FilterRoundTrip(ctx, UserTable, fields);
    JoinSplit(names, ',');
  }

  /** A name without surrounding white space that spells a column selects
      that column. */
  lemma NamedColumn(n: string, c: Column, rest: seq<string>, cs: set<Column>)
    requires ColumnName(c) == n && |n| > 0 && !IsSpace(n[0]) && !IsSpace(n[|n| - 1])
    requires NamedColumns(rest) == Ok(cs)
    ensures NamedColumns([n] + rest) == Ok({c} + cs)
  {
    TrimSpaceOfTrimmed(n);
    ColumnByNameInverse(c);
    assert ([n] + rest)[1..] == rest;
  }

  /** One such name alone selects its column. */
  lemma NamedSingle(a: string, ca: Column)
    requires ColumnName(ca) == a && |a| > 0 && !IsSpace(a[0]) && !IsSpace(a[|a| - 1])
    ensures NamedColumns([a]) == Ok({ca})
  {
    NamedColumn(a, ca, [], {});
    assert [a] + [] == [a];
    assert {ca} + {} == {ca};
  }

  /** Two such names select their two columns. */
  lemma NamedPair(a: string, b: string, ca: Column, cb: Column)
    requires ColumnName(ca) == a && |a| > 0 && !IsSpace(a[0]) && !IsSpace(a[|a| - 1])
    requires ColumnName(cb) == b && |b| > 0 && !IsSpace(b[0]) && !IsSpace(b[|b| - 1])
    ensures NamedColumns([a, b]) == Ok({ca, cb})
  {
    assert [a] + [b] == [a, b];
    assert {ca} + {cb} == {ca, cb};
    assert NamedColumns([a] + [b]) == Ok({ca} + {cb}) by {
      NamedSingle(b, cb);
      NamedColumn(a, ca, [b], {cb});
    }
  }

  lemma IdNamed()
    ensures NamedColumns(IdNames) == Ok({Id})
  {
    NamedSingle("id", Id);
  }

  lemma IdFilter(ctx: Ctx)
    ensures ReadColumns(SetFilter(ctx, UserTable, IdColumns)) == {Id}
  {
    assert IdNames[0] == "id";
    ReadFilterOfList(ctx, IdNames);
    IdNamed();
  }

  /** The names of the phone lookup's filter form a plain column list. */
  lemma IdUnionNamesPlain()
    ensures |IdUnionNames| >= 1 && NoSep(IdUnionNames, ',')
    ensures |IdUnionNames[0]| > 0 && !IsSpace(IdUnionNames[0][0]) && IdUnionNames[0][0] != '*'
    ensures |IdUnionNames[|IdUnionNames| - 1]| > 0
      && !IsSpace(IdUnionNames[|IdUnionNames| - 1][|IdUnionNames[|IdUnionNames| - 1]| - 1])
  {
    assert IdUnionNames[0] == "id" && IdUnionNames[1] == "unionid";
  }

  lemma IdUnionNamed()
    ensures NamedColumns(IdUnionNames) == Ok({Id, Unionid})
  {
    NamedPair("id", "unionid", Id, Unionid);
  }

  lemma IdUnionFilter(ctx: Ctx)
    ensures ReadColumns(SetFilter(ctx, UserTable, IdUnionColumns)) == {Id, Unionid}
  {
    IdUnionNamesPlain();
    ReadFilterOfList(ctx, IdUnionNames);
    IdUnionNamed();
  }

  /** What the transaction yields: the user to return and the id whose
      cached row to evict afterwards (0 when none was bound). */
  datatype Registered = Registered(user: User, evict: int)

  /** The struct an insert writes from: the WeChat profile, with the
      nickname also as name and real name and the head image also as
      avatar, created and updated now. */
  function NewUser(param: User, now: int): User {
    Empty.(unionid := param.unionid, phone := param.phone, nickname := param.nickname, name := param.nickname,
           realName := param.nickname, headimgurl := param.headimgurl, avatarUrl := param.headimgurl,
           sex := param.sex, createTime := now, updateTime := now)
  }

  /** The struct a bind writes from. */
  function BindUser(param: User, now: int): User {
    Empty.(unionid := param.unionid, nickname := param.nickname, headimgurl := param.headimgurl, updateTime := now)
  }

  /** The bind's guard: that id, still without a union id (SQL `NULL`
      reads as the empty string). */
  function Unbound(id: int): Cond {
    Where((v: User) => v.id == id && v.unionid == "")
  }

  /** The two lookups, whatever the user's status. */
  function UnionLookup(db: Db, ctx: Ctx, param: User): (out: Step<User, Db>)
    ensures out.state == UserRepo.Next(db)
  {
    GetUserByUnionIdIgnoreStatus(db, SetFilter(ctx, UserTable, IdColumns), param.unionid)
  }

  function PhoneLookup(db: Db, ctx: Ctx, param: User): (out: Step<User, Db>)
    ensures out.state == UserRepo.Next(db)
  {
    GetUserByPhoneIgnoreStatus(db, SetFilter(ctx, UserTable, IdUnionColumns), param.phone)
  }

  /** The insert branch: a new row from the profile's columns. */
  function Create(db: Db, ctx: Ctx, param: User, now: int, defaults: User): (out: Step<Registered, Db>)
    ensures out.res.Err? ==> out.state.table == db.table
    ensures out.res.Ok? ==> (!UserRepo.Fails(db)
      && out.res.value == Registered(Empty.(id := db.table.nextId), 0)
      && out.state.table == AddUser(db, SetCuFilter(ctx, UserTable, CreateColumns), NewUser(param, now), defaults).state.table)
  {
    var added := AddUser(db, SetCuFilter(ctx, UserTable, CreateColumns), NewUser(param, now), defaults);
    if added.res.Err? then Step(Err(added.res.code), added.state)
    else Step(Ok(Registered(Empty.(id := added.res.value), 0)), added.state)
  }

  /** The bind context: the bind's CU filter and a read filter of `*`. */
  function BindCtx(ctx: Ctx): Ctx {
    SetFilter(SetCuFilter(ctx, UserTable, BindColumns), UserTable, "*")
  }

  /** The bind branch: the union id, nickname and head image of the phone's
      user, guarded by its union id still being empty. */
  function Bind(db: Db, ctx: Ctx, param: User, now: int, id: int): (out: Step<Registered, Db>)
    ensures out.res.Err? ==> out.state.table == db.table
    ensures out.res.Ok? ==> (out.res.value == Registered(Empty.(id := id), id)
      && out.state.table == UpdateUserByCond(db, BindCtx(ctx), BindUser(param, now), Unbound(id)).state.table)
  {
    var upd := UpdateUserByCond(db, BindCtx(ctx), BindUser(param, now), Unbound(id));
    if upd.res.Err? then Step(Err(upd.res.code), upd.state)
    else Step(Ok(Registered(Empty.(id := id), id)), upd.state)
  }

  /** The phone half of the block, after no user had the union id. */
  function PhoneBranch(db: Db, ctx: Ctx, param: User, now: int, defaults: User): (out: Step<Registered, Db>)
    ensures var byPhone := PhoneLookup(db, ctx, param);
      && (byPhone.res.Err? && byPhone.res.code != UserNotFound ==> out == Step(Err(byPhone.res.code), byPhone.state))
      && (byPhone.res == Err(UserNotFound) ==> out == Create(byPhone.state, ctx, param, now, defaults))
      && (byPhone.res.Ok? && byPhone.res.value.unionid != "" ==>
            out == Step(Err(PhoneBoundToOtherWeChatUser), byPhone.state))
      && (byPhone.res.Ok? && byPhone.res.value.unionid == "" ==>
            out == Bind(byPhone.state, ctx, param, now, byPhone.res.value.id))
  {
    var byPhone := PhoneLookup(db, ctx, param);
    match byPhone.res
    case Err(e) =>
      if e != UserNotFound then Step(Err(e), byPhone.state) else Create(byPhone.state, ctx, param, now, defaults)
    case Ok(u) =>
      if u.unionid != "" then Step(Err(PhoneBoundToOtherWeChatUser), byPhone.state)
      else Bind(byPhone.state, ctx, param, now, u.id)
  }

  /** The transaction's block. */
  function RegisterBlock(db: Db, ctx: Ctx, param: User, now: int, defaults: User): (out: Step<Registered, Db>)
    ensures var byUnion := UnionLookup(db, ctx, param);
      && (byUnion.res.Ok? ==> out == Step(Ok(Registered(byUnion.res.value, 0)), byUnion.state))
      && (byUnion.res.Err? && byUnion.res.code != UserNotFound ==> out == Step(Err(byUnion.res.code), byUnion.state))
      && (byUnion.res == Err(UserNotFound) ==> out == PhoneBranch(byUnion.state, ctx, param, now, defaults))
  {
    var byUnion := UnionLookup(db, ctx, param);
    match byUnion.res
    case Ok(u) => Step(Ok(Registered(u, 0)), byUnion.state)
    case Err(e) =>
      if e != UserNotFound then Step(Err(e), byUnion.state)
      else PhoneBranch(byUnion.state, ctx, param, now, defaults)
  }

  /** The transaction around the block. A failed commit is not reported:
      the block's answer stands and its writes are lost. */
  function RegisterTx(db: Db, ctx: Ctx, param: User, now: int, defaults: User): (out: Step<Registered, Db>)
    ensures var block := RegisterBlock(db, ctx, param, now, defaults);
      && out.res == block.res
      && out.state.table.nextId == block.state.table.nextId
      && (out.res.Err? ==> out.state.table.rows == db.table.rows)
      && (out.res.Ok? && !Fails(block.state) ==> out.state.table == block.state.table)
      && (out.res.Ok? && Fails(block.state) ==> out.state.table.rows == db.table.rows)
  {
    LocalRepoAtomic(db, (d: Db) => RegisterBlock(d, ctx, param, now, defaults))
  }

  /** `RegisterCUserByWeChatUser`: `param` carries the WeChat profile and
      `defaults` the table's column defaults. An error leaves the table as
      it was (the transaction rolled back) and the cache untouched; after a
      commit the evicted id's cached row is dropped, retrying, and the
      eviction's outcome does not change the answer. */
  function RegisterCUserByWeChatUser(w: World, ctx: Ctx, param: User, now: int, defaults: User): (out: Out<User>)
    ensures var tx := RegisterTx(w.db, ctx, param, now, defaults);
      && out.res == (if tx.res.Ok? then Ok(tx.res.value.user) else Err(tx.res.code))
      && out.state.db == tx.state
      && (out.res.Err? ==> out.state.db.table == w.db.table && out.state.redis == w.redis)
      && (out.res.Ok? ==> (out.state.redis.data == w.redis.data
            || (UidKey(tx.res.value.evict) !in out.state.redis.data
                && KvStore.SameExcept(out.state.redis.data, w.redis.data, UidKey(tx.res.value.evict)))))
  {
    var tx := RegisterTx(w.db, ctx, param, now, defaults);
    var w1 := w.(db := tx.state);
    match tx.res
    case Err(e) => Step(Err(e), w1)
    case Ok(reg) =>
      EvictKeyEffect(w1, UidKey(reg.evict));
      Step(Ok(reg.user), EvictKey(w1, UidKey(reg.evict)).state)
  }

  // ------------------------------------------------------------ properties

  /** No row holds `c`'s column value: `First` finds nothing. */
  lemma NoMatchNoFirst(t: Table, c: Cond)
    requires forall k :: k in t.rows ==> !Matches(c, t.rows[k])
    ensures First(t, c).None?
  {
  }

  /** The union-id lookup reads only the id of the first row holding the
      union id, or reports not-found when no row holds it. */
  lemma UnionLookupOutcome(db: Db, ctx: Ctx, param: User)
    requires !Fails(db)
    ensures var found := First(db.table, ByUnionId(param.unionid));
      UnionLookup(db, ctx, param).res ==
        if found.Some? then Ok(Project(db.table.rows[found.value], {Id})) else Err(UserNotFound)
  {
    IdFilter(ctx);
  }

  /** The phone lookup reads the id and union id of the first row holding
      the phone number, or reports not-found when no row holds it. */
  lemma PhoneLookupOutcome(db: Db, ctx: Ctx, param: User)
    requires !Fails(db)
    ensures var found := First(db.table, ByPhone(param.phone));
      PhoneLookup(db, ctx, param).res ==
        if found.Some? then Ok(Project(db.table.rows[found.value], {Id, Unionid})) else Err(UserNotFound)
  {
    IdUnionFilter(ctx);
  }

  /** A projection onto the id and union id keeps those two. */
  lemma ProjectIdUnion(u: User)
    ensures Project(u, {Id, Unionid}).id == u.id && Project(u, {Id, Unionid}).unionid == u.unionid
  {
    GetProject(u, {Id, Unionid}, Id);
    GetProject(u, {Id, Unionid}, Unionid);
    GetNumberFields(u);
    GetTextFields(u);
    GetNumberFields(Project(u, {Id, Unionid}));
    GetTextFields(Project(u, {Id, Unionid}));
  }

  /** A user who already has the union id is returned (its id, as the
      lookup reads only that column) and nothing is written or evicted. */
  lemma RegisterExisting(db: Db, ctx: Ctx, param: User, now: int, defaults: User)
    requires !Fails(db)
    requires First(db.table, ByUnionId(param.unionid)).Some?
    ensures var k := First(db.table, ByUnionId(param.unionid)).value;
      var tx := RegisterTx(db, ctx, param, now, defaults);
      && tx.res == Ok(Registered(Project(db.table.rows[k], {Id}), 0))
      && tx.state.table == db.table
  {
    UnionLookupOutcome(db, ctx, param);
  }

  /** A union-id lookup that fails with a database error aborts the
      registration with that error, and the table is as it was. */
  lemma RegisterLookupFails(db: Db, ctx: Ctx, param: User, now: int, defaults: User)
    requires Fails(db)
    ensures var tx := RegisterTx(db, ctx, param, now, defaults);
      tx.res == Err(Database) && tx.state.table == db.table
  {
  }

  /** When no row has the union id and the first row with the phone number
      already has a union id, registration is refused and nothing is
      written. */
  lemma RegisterPhoneTaken(db: Db, ctx: Ctx, param: User, now: int, defaults: User)
    requires !Fails(db) && !Fails(Next(db))
    requires forall k :: k in db.table.rows ==> db.table.rows[k].unionid != param.unionid
    requires First(db.table, ByPhone(param.phone)).Some?
    requires db.table.rows[First(db.table, ByPhone(param.phone)).value].unionid != ""
    ensures var tx := RegisterTx(db, ctx, param, now, defaults);
      tx.res == Err(PhoneBoundToOtherWeChatUser) && tx.state.table == db.table
  {
    NoMatchNoFirst(db.table, ByUnionId(param.unionid));
    UnionLookupOutcome(db, ctx, param);
    PhoneLookupOutcome(Next(db), ctx, param);
    ProjectIdUnion(db.table.rows[First(db.table, ByPhone(param.phone)).value]);
  }

  /** The bind reads its CU filter as the four bound columns. */
  lemma BindCuFilter(ctx: Ctx)
    ensures GetCuFilter(BindCtx(ctx), UserTable) == BindNames
  {
    FiltersIndependent(SetCuFilter(ctx, UserTable, BindColumns), UserTable, UserTable, "*");
    BindFilter(ctx);
  }

  /** Binding the still-unbound row `k` succeeds and asks for its cached
      copy to go. */
  lemma BindSucceeds(db: Db, ctx: Ctx, param: User, now: int, k: int)
    requires !Fails(db)
    ensures Bind(db, ctx, param, now, k).res == Ok(Registered(Empty.(id := k), k))
  {
    BindCuFilter(ctx);
    assert BindNames[0] == "unionid";
    UpdateUserByCondSucceeds(db, BindCtx(ctx), BindUser(param, now), Unbound(k), Unionid);
  }

  /** The bind writes each column its CU filter names into the unbound row. */
  lemma BindColumn(db: Db, ctx: Ctx, param: User, now: int, k: int, col: Column)
    requires !Fails(db) && Wf(db.table) && k in db.table.rows && db.table.rows[k].unionid == ""
    requires col != Id && ColumnName(col) in BindNames
    ensures k in Bind(db, ctx, param, now, k).state.table.rows
    ensures Get(Bind(db, ctx, param, now, k).state.table.rows[k], col) == Written(BindUser(param, now), col)
  {
    var u := BindUser(param, now);
    BindCuFilter(ctx);
    assert Matches(WithKey(Unbound(k), u), db.table.rows[k]);
    UpdateUserByCondSucceeds(db, BindCtx(ctx), u, Unbound(k), col);
    UpdateUserByCondWritesSelected(db, BindCtx(ctx), u, Unbound(k), k, col);
  }

  lemma BindsUnionId(db: Db, ctx: Ctx, param: User, now: int, k: int)
    requires !Fails(db) && Wf(db.table) && k in db.table.rows && db.table.rows[k].unionid == ""
    ensures k in Bind(db, ctx, param, now, k).state.table.rows
    ensures Bind(db, ctx, param, now, k).state.table.rows[k].unionid == param.unionid
  {
    assert BindNames[0] == "unionid";
    BindColumn(db, ctx, param, now, k, Unionid);
    GetTextFields(Bind(db, ctx, param, now, k).state.table.rows[k]);
    GetTextFields(BindUser(param, now));
  }

  lemma BindsNickname(db: Db, ctx: Ctx, param: User, now: int, k: int)
    requires !Fails(db) && Wf(db.table) && k in db.table.rows && db.table.rows[k].unionid == ""
    ensures k in Bind(db, ctx, param, now, k).state.table.rows
    ensures Bind(db, ctx, param, now, k).state.table.rows[k].nickname == param.nickname
  {
    assert BindNames[1] == "nickname";
    BindColumn(db, ctx, param, now, k, Nickname);
    GetTextFields(Bind(db, ctx, param, now, k).state.table.rows[k]);
    GetTextFields(BindUser(param, now));
  }

  lemma BindsHeadImage(db: Db, ctx: Ctx, param: User, now: int, k: int)
    requires !Fails(db) && Wf(db.table) && k in db.table.rows && db.table.rows[k].unionid == ""
    ensures k in Bind(db, ctx, param, now, k).state.table.rows
    ensures Bind(db, ctx, param, now, k).state.table.rows[k].headimgurl == param.headimgurl
  {
    assert BindNames[2] == "headimgurl";
    BindColumn(db, ctx, param, now, k, Headimgurl);
    GetTextFields(Bind(db, ctx, param, now, k).state.table.rows[k]);
    GetTextFields(BindUser(param, now));
  }

  lemma BindsUpdateTime(db: Db, ctx: Ctx, param: User, now: int, k: int)
    requires !Fails(db) && Wf(db.table) && k in db.table.rows && db.table.rows[k].unionid == ""
    ensures k in Bind(db, ctx, param, now, k).state.table.rows
    ensures Bind(db, ctx, param, now, k).state.table.rows[k].updateTime == now
  {
    assert BindNames[3] == "update_time";
    BindColumn(db, ctx, param, now, k, UpdateTime);
    GetNumberFields(Bind(db, ctx, param, now, k).state.table.rows[k]);
    GetNumberFields(BindUser(param, now));
  }

  /** Binding the still-unbound row `k` writes the union id, nickname, head
      image and update time into it. */
  lemma BindWrites(db: Db, ctx: Ctx, param: User, now: int, k: int)
    requires !Fails(db) && Wf(db.table) && k in db.table.rows && db.table.rows[k].unionid == ""
    ensures var out := Bind(db, ctx, param, now, k);
      && k in out.state.table.rows
      && out.state.table.rows[k].unionid == param.unionid
      && out.state.table.rows[k].nickname == param.nickname
      && out.state.table.rows[k].headimgurl == param.headimgurl
      && out.state.table.rows[k].updateTime == now
  {
    BindsUnionId(db, ctx, param, now, k);
    BindsNickname(db, ctx, param, now, k);
    BindsHeadImage(db, ctx, param, now, k);
    BindsUpdateTime(db, ctx, param, now, k);
  }

  /** The bind leaves every other row, and every column its CU filter does
      not name, as it was. */
  lemma BindKeeps(db: Db, ctx: Ctx, param: User, now: int, k: int, j: int, col: Column)
    requires Wf(db.table) && j in db.table.rows
    ensures var t := Bind(db, ctx, param, now, k).state.table;
      && j in t.rows
      && (j != k ==> t.rows[j] == db.table.rows[j])
      && (ColumnName(col) !in BindNames ==> Get(t.rows[j], col) == Get(db.table.rows[j], col))
  {
    BindCuFilter(ctx);
    UpdateUserByCondKeepsUnselected(db, BindCtx(ctx), BindUser(param, now), Unbound(k), j, col);
  }

  /** The insert adds one row under the next id and answers with it; no
      existing row changes and nothing is evicted. */
  lemma CreateAdds(db: Db, ctx: Ctx, param: User, now: int, defaults: User)
    requires !Fails(db) && Wf(db.table)
    ensures var out := Create(db, ctx, param, now, defaults);
      var id := db.table.nextId;
      var t := out.state.table;
      && out.res == Ok(Registered(Empty.(id := id), 0))
      && t.nextId == id + 1 && id !in db.table.rows && id in t.rows && t.rows[id].id == id
      && (forall j :: j in db.table.rows ==> j in t.rows && t.rows[j] == db.table.rows[j])
  {
    var cctx := SetCuFilter(ctx, UserTable, CreateColumns);
    var added := AddUser(db, cctx, NewUser(param, now), defaults);
    AddUserKeepsRows(db, cctx, NewUser(param, now), defaults);
    assert Create(db, ctx, param, now, defaults).state.table == added.state.table;
  }

  /** The new row holds the profile's value in exactly the columns of the
      insert's CU filter and the column default elsewhere. */
  lemma CreateWrites(db: Db, ctx: Ctx, param: User, now: int, defaults: User, c: Column)
    requires !Fails(db) && c != Id
    ensures var row := Create(db, ctx, param, now, defaults).state.table.rows[db.table.nextId];
      Get(row, c) == if ColumnName(c) in CreateNames then Written(NewUser(param, now), c) else Get(defaults, c)
  {
    CreateFilter(ctx);
    AddUserWritesFilteredColumns(db, SetCuFilter(ctx, UserTable, CreateColumns), NewUser(param, now), defaults, c);
  }

  /** With no row holding the union id and the first row holding the phone
      number still unbound, the transaction binds that row: it answers with
      its id, names it for eviction and commits the bind's table. */
  lemma RegisterBinds(db: Db, ctx: Ctx, param: User, now: int, defaults: User, k: int)
    requires !Fails(db) && !Fails(Next(db)) && !Fails(Next(Next(db))) && !Fails(Next(Next(Next(db))))
    requires Wf(db.table)
    requires forall j :: j in db.table.rows ==> db.table.rows[j].unionid != param.unionid
    requires First(db.table, ByPhone(param.phone)) == Some(k) && db.table.rows[k].unionid == ""
    ensures var tx := RegisterTx(db, ctx, param, now, defaults);
      && tx.res == Ok(Registered(Empty.(id := k), k))
      && tx.state.table == Bind(Next(Next(db)), ctx, param, now, k).state.table
  {
    NoMatchNoFirst(db.table, ByUnionId(param.unionid));
    UnionLookupOutcome(db, ctx, param);
    PhoneLookupOutcome(Next(db), ctx, param);
    ProjectIdUnion(db.table.rows[k]);
    BindSucceeds(Next(Next(db)), ctx, param, now, k);
  }

  /** With no row holding the union id or the phone number, the transaction
      inserts a new row: it answers with the new id, names no user for
      eviction and commits the insert's table. */
  lemma RegisterCreates(db: Db, ctx: Ctx, param: User, now: int, defaults: User)
    requires !Fails(db) && !Fails(Next(db)) && !Fails(Next(Next(db))) && !Fails(Next(Next(Next(db))))
    requires Wf(db.table)
    requires forall j :: j in db.table.rows ==> db.table.rows[j].unionid != param.unionid
    requires forall j :: j in db.table.rows ==> db.table.rows[j].phone != param.phone
    ensures var tx := RegisterTx(db, ctx, param, now, defaults);
      && tx.res == Ok(Registered(Empty.(id := db.table.nextId), 0))
      && tx.state.table == Create(Next(Next(db)), ctx, param, now, defaults).state.table
  {
    NoMatchNoFirst(db.table, ByUnionId(param.unionid));
    NoMatchNoFirst(db.table, ByPhone(param.phone));
    UnionLookupOutcome(db, ctx, param);
    PhoneLookupOutcome(Next(db), ctx, param);
    CreateAdds(Next(Next(db)), ctx, param, now, defaults);
  }

  /** With no row holding the union id or the phone number and both
      lookups unfaulted, the block is the insert after the two lookups. */
  lemma BlockCreates(db: Db, ctx: Ctx, param: User, now: int, defaults: User)
    requires !Fails(db) && !Fails(Next(db))
    requires forall j :: j in db.table.rows ==> db.table.rows[j].unionid != param.unionid
    requires forall j :: j in db.table.rows ==> db.table.rows[j].phone != param.phone
    ensures RegisterBlock(db, ctx, param, now, defaults) == Create(Next(Next(db)), ctx, param, now, defaults)
  {
    NoMatchNoFirst(db.table, ByUnionId(param.unionid));
    NoMatchNoFirst(db.table, ByPhone(param.phone));
    UnionLookupOutcome(db, ctx, param);
    PhoneLookupOutcome(Next(db), ctx, param);
  }

  /** When every statement of an insert succeeds but the commit fails, the
      registration still answers with the new id, yet no row holds that id:
      the rows are as they were, while the auto-increment counter has moved
      past the id, so a later insert never reuses it. */
  lemma RegisterCreateCommitLost(db: Db, ctx: Ctx, param: User, now: int, defaults: User)
    requires !Fails(db) && !Fails(Next(db)) && !Fails(Next(Next(db))) && Fails(Next(Next(Next(db))))
    requires Wf(db.table)
    requires forall j :: j in db.table.rows ==> db.table.rows[j].unionid != param.unionid
    requires forall j :: j in db.table.rows ==> db.table.rows[j].phone != param.phone
    ensures var tx := RegisterTx(db, ctx, param, now, defaults);
      && tx.res == Ok(Registered(Empty.(id := db.table.nextId), 0))
      && tx.state.table.rows == db.table.rows
      && db.table.nextId !in tx.state.table.rows
      && tx.state.table.nextId == db.table.nextId + 1
  {
    BlockCreates(db, ctx, param, now, defaults);
    CreateAdds(Next(Next(db)), ctx, param, now, defaults);
    var block := Create(Next(Next(db)), ctx, param, now, defaults);
    assert block.state.faults == Next(Next(Next(db))).faults;
    assert Fails(block.state);
  }
}

=== FILE: retry.dfy ===
/** `DoCacheOpWithRetry` (internal/passport/usecase/user_ucase.go): calls a
    cache operation until it succeeds or `maxTry` attempts have failed, and
    reports the attempt count and the last error. The operation is any
    function of a state and a key yielding a result and a new state; the
    state threads the store and its fault script through the attempts. */
module CacheRetry {
  import opened Outcomes

  datatype Retried<S> = Retried(tryCount: int, err: Option<Code>, state: S)

  /** The state after `n` attempts, whatever their outcome. */
  function After<S, K>(f: (S, K) -> Step<(), S>, s: S, key: K, n: nat): S
    decreases n
  {
    if n == 0 then s else f(After(f, s, key, n - 1), key).state
  }

  /** Attempt `i` (counting from 0) fails. */
  predicate FailsAt<S, K>(f: (S, K) -> Step<(), S>, s: S, key: K, i: nat) {
    f(After(f, s, key, i), key).res.Err?
  }

  /** The error attempt `i` reports, if any. */
  function ErrAt<S, K>(f: (S, K) -> Step<(), S>, s: S, key: K, i: nat): Option<Code> {
    var r := f(After(f, s, key, i), key).res;
    if r.Err? then Some(r.code) else None
  }

  /** What the retry loop promises: a non-positive bound makes no attempt
      and reports `(1, nil)`; otherwise every attempt before the last
      failed, and either the last one succeeded within the bound, or the
      bound was used up and its last error is reported with count
      `maxTry + 1`. */
  ghost predicate Spec<S, K>(f: (S, K) -> Step<(), S>, maxTry: int, s: S, key: K, r: Retried<S>) {
    if maxTry < 1 then r == Retried(1, None, s)
    else
      1 <= r.tryCount <= maxTry + 1
      && (forall i :: 0 <= i < r.tryCount - 1 ==> FailsAt(f, s, key, i))
      && (r.err.None? ==> (
            r.tryCount <= maxTry
            && !FailsAt(f, s, key, r.tryCount - 1)
            && r.state == After(f, s, key, r.tryCount)))
      && (r.err.Some? ==> (
            r.tryCount == maxTry + 1
            && r.err == ErrAt(f, s, key, maxTry - 1)
            && r.state == After(f, s, key, maxTry)))
  }

  /** The loop from attempt `tryCount` on, `err` being the last error. */
  function Loop<S, K>(f: (S, K) -> Step<(), S>, maxTry: int, tryCount: int, err: Option<Code>, s: S, key: K): (r: Retried<S>)
    ensures r.tryCount >= tryCount
    decreases if tryCount > maxTry then 0 else maxTry - tryCount + 1
  {
    if tryCount > maxTry then Retried(tryCount, err, s)
    else
      var step := f(s, key);
      if step.res.Ok? then Retried(tryCount, None, step.state)
      else Loop(f, maxTry, tryCount + 1, Some(step.res.code), step.state, key)
  }

  function DoCacheOpWithRetry<S, K>(f: (S, K) -> Step<(), S>, maxTry: int, s: S, key: K): Retried<S> {
    Loop(f, maxTry, 1, None, s, key)
  }

  /** The loop resumed at attempt `t`, all earlier attempts having failed,
      meets the promise. */
  lemma {:induction false} LoopMeetsSpec<S, K>(f: (S, K) -> Step<(), S>, maxTry: int, t: int, err: Option<Code>, s: S, key: K)
    requires 1 <= maxTry && 1 <= t <= maxTry + 1
    requires forall i :: 0 <= i < t - 1 ==> FailsAt(f, s, key, i)
    requires t > 1 ==> err == ErrAt(f, s, key, t - 2)
    ensures Spec(f, maxTry, s, key, Loop(f, maxTry, t, err, After(f, s, key, t - 1), key))
    decreases maxTry + 1 - t
  {
    var cur := After(f, s, key, t - 1);
    if t <= maxTry {
      var step := f(cur, key);
      assert After(f, s, key, t) == step.state;
      if step.res.Err? {
        assert FailsAt(f, s, key, t - 1);
        LoopMeetsSpec(f, maxTry, t + 1, Some(step.res.code), s, key);
      }
    } else {
      assert FailsAt(f, s, key, t - 2);
    }
  }

  lemma RetryMeetsSpec<S, K>(f: (S, K) -> Step<(), S>, maxTry: int, s: S, key: K)
    ensures Spec(f, maxTry, s, key, DoCacheOpWithRetry(f, maxTry, s, key))
  {
    if maxTry >= 1 {
      LoopMeetsSpec(f, maxTry, 1, None, s, key);
    }
  }

  /** The same loop written imperatively, as the source writes it. */
  method RetryLoop<S, K>(f: (S, K) -> Step<(), S>, maxTry: int, s: S, key: K) returns (tryCount: int, err: Option<Code>, state: S)
    ensures Spec(f, maxTry, s, key, Retried(tryCount, err, state))
  {
    tryCount := 1;
    err := None;
    state := s;
    while tryCount <= maxTry
      invariant 1 <= tryCount && (tryCount == 1 || tryCount <= maxTry + 1)
      invariant state == After(f, s, key, tryCount - 1)
      invariant forall i :: 0 <= i < tryCount - 1 ==> FailsAt(f, s, key, i)
      invariant tryCount > 1 ==> err == ErrAt(f, s, key, tryCount - 2)
      invariant tryCount == 1 ==> err == None
      decreases maxTry + 1 - tryCount
    {
      var step := f(state, key);
      assert After(f, s, key, tryCount) == step.state;
      state := step.state;
      if step.res.Ok? {
        assert !FailsAt(f, s, key, tryCount - 1);
        err := None;
        return;
      }
      err := Some(step.res.code);
      tryCount := tryCount + 1;
    }
    if maxTry >= 1 {
      assert FailsAt(f, s, key, maxTry - 1);
      assert state == After(f, s, key, maxTry);
    }
  }

  /** The imperative loop and the recursive definition agree. */
  lemma RetryLoopAgrees<S, K>(f: (S, K) -> Step<(), S>, maxTry: int, s: S, key: K, r: Retried<S>)
    requires Spec(f, maxTry, s, key, r)
    ensures r == DoCacheOpWithRetry(f, maxTry, s, key)
  {
    RetryMeetsSpec(f, maxTry, s, key);
    SpecUnique(f, maxTry, s, key, r, DoCacheOpWithRetry(f, maxTry, s, key));
  }

  /** At most one outcome meets the promise. */
  lemma SpecUnique<S, K>(f: (S, K) -> Step<(), S>, maxTry: int, s: S, key: K, a: Retried<S>, b: Retried<S>)
    requires Spec(f, maxTry, s, key, a) && Spec(f, maxTry, s, key, b)
    ensures a == b
  {
  }
}

=== FILE: row_effects.dfy ===
/** What an update map does to the columns the use cases care about, one
    column (or one pair of columns) at a time. Kept apart from the use cases
    so that each fact is proved with only the row model in view. */
module RowEffects {
  import opened Users
  import UserRepo

  /** An update map holding the login count's increment counts one more login. */
  lemma CountsLogin(before: User, e: UserRepo.Entity)
    requires UserRepo.EntityFits(e) && LoginTimes in e && e[LoginTimes] == UserRepo.Incr(1)
    ensures UserRepo.ApplyEntity(before, e).loginTimes == before.loginTimes + 1
  {
    UserRepo.ApplyColumn(before, e, LoginTimes);
    GetNumberFields(before);
    GetNumberFields(UserRepo.ApplyEntity(before, e));
  }

  /** An update map writing `now` to both time columns stamps the row. */
  lemma StampsLogin(before: User, e: UserRepo.Entity, now: int)
    requires UserRepo.EntityFits(e)
    requires LastLoginTime in e && e[LastLoginTime] == UserRepo.Put(IntF(now))
    requires UpdateTime in e && e[UpdateTime] == UserRepo.Put(IntF(now))
    ensures UserRepo.ApplyEntity(before, e).lastLoginTime == now
    ensures UserRepo.ApplyEntity(before, e).updateTime == now
  {
    UserRepo.ApplyColumn(before, e, LastLoginTime);
    UserRepo.ApplyColumn(before, e, UpdateTime);
    GetNumberFields(before);
    GetNumberFields(UserRepo.ApplyEntity(before, e));
  }

  /** The update map sets the text column `c` to `given` when it is
      non-empty and leaves the column out otherwise. */
  predicate PutsIfGiven(e: UserRepo.Entity, c: Column, given: string) {
    if given != "" then c in e && e[c] == UserRepo.Put(StrF(given)) else c !in e
  }

  lemma TakesNickname(before: User, e: UserRepo.Entity, nick: string)
    requires UserRepo.EntityFits(e) && PutsIfGiven(e, Nickname, nick)
    ensures UserRepo.ApplyEntity(before, e).nickname == (if nick != "" then nick else before.nickname)
  {
    UserRepo.ApplyColumn(before, e, Nickname);
    GetTextFields(before);
    GetTextFields(UserRepo.ApplyEntity(before, e));
  }

  lemma TakesHeadImage(before: User, e: UserRepo.Entity, image: string)
    requires UserRepo.EntityFits(e) && PutsIfGiven(e, Headimgurl, image)
    ensures UserRepo.ApplyEntity(before, e).headimgurl == (if image != "" then image else before.headimgurl)
  {
    UserRepo.ApplyColumn(before, e, Headimgurl);
    GetTextFields(before);
    GetTextFields(UserRepo.ApplyEntity(before, e));
  }

  /** The update map writes a new token and expiry when `renew` holds and
      leaves both columns out otherwise. */
  predicate Renews(e: UserRepo.Entity, renew: bool, issued: string, expiry: int) {
    if renew then
      && AccessToken in e && e[AccessToken] == UserRepo.Put(StrF(issued))
      && ExpireTime in e && e[ExpireTime] == UserRepo.Put(IntF(expiry))
    else AccessToken !in e && ExpireTime !in e
  }

  lemma RenewsToken(before: User, e: UserRepo.Entity, renew: bool, issued: string, expiry: int)
    requires UserRepo.EntityFits(e) && Renews(e, renew, issued, expiry)
    ensures UserRepo.ApplyEntity(before, e).accessToken == (if renew then issued else before.accessToken)
    ensures UserRepo.ApplyEntity(before, e).expireTime == (if renew then expiry else before.expireTime)
  {
    UserRepo.ApplyColumn(before, e, AccessToken);
    UserRepo.ApplyColumn(before, e, ExpireTime);
    GetTextFields(before);
    GetTextFields(UserRepo.ApplyEntity(before, e));
    GetNumberFields(before);
    GetNumberFields(UserRepo.ApplyEntity(before, e));
  }

  /** An update map setting the union id to SQL `NULL` leaves it empty. */
  lemma ClearsUnionId(before: User, e: UserRepo.Entity)
    requires UserRepo.EntityFits(e) && Unionid in e && e[Unionid] == UserRepo.Null
    ensures UserRepo.ApplyEntity(before, e).unionid == ""
  {
    UserRepo.ApplyColumn(before, e, Unionid);
    GetTextFields(before);
    GetTextFields(UserRepo.ApplyEntity(before, e));
  }

  /** An update map writing `expiry` and `now` sets the expiry and the
      update time. */
  lemma SetsExpiry(before: User, e: UserRepo.Entity, expiry: int, now: int)
    requires UserRepo.EntityFits(e)
    requires ExpireTime in e && e[ExpireTime] == UserRepo.Put(IntF(expiry))
    requires UpdateTime in e && e[UpdateTime] == UserRepo.Put(IntF(now))
    ensures UserRepo.ApplyEntity(before, e).expireTime == expiry
    ensures UserRepo.ApplyEntity(before, e).updateTime == now
  {
    UserRepo.ApplyColumn(before, e, ExpireTime);
    UserRepo.ApplyColumn(before, e, UpdateTime);
    GetNumberFields(before);
    GetNumberFields(UserRepo.ApplyEntity(before, e));
  }
}

=== FILE: text.dfy ===
/** The few pieces of Go's `strings` package the service relies on:
    whitespace trimming, splitting on a separator, upper-casing and
    substring search. */
module Text {

  /** Go's `unicode.IsSpace`, which `strings.TrimSpace` uses. */
  predicate IsSpace(c: char) {
    c == ' ' || c == '\t' || c == '\n' || c == '\U{000B}' || c == '\U{000C}' || c == '\r'
    || c == '\U{0085}' || c == '\U{00A0}' || c == '\U{1680}'
    || ('\U{2000}' <= c <= '\U{200A}')
    || c == '\U{2028}' || c == '\U{2029}' || c == '\U{202F}' || c == '\U{205F}' || c == '\U{3000}'
  }

  /** The index of the first character at or after `i` that is not white
      space, or `|s|` when there is none. */
  function SkipLeading(s: string, i: nat): (j: nat)
    requires i <= |s|
    ensures i <= j <= |s|
    ensures forall k :: i <= k < j ==> IsSpace(s[k])
    ensures j == |s| || !IsSpace(s[j])
    decreases |s| - i
  {
    if i < |s| && IsSpace(s[i]) then SkipLeading(s, i + 1) else i
  }

  /** The index just past the last character before `j` that is not white
      space, stopping at `lo`. */
  function SkipTrailing(s: string, lo: nat, j: nat): (k: nat)
    requires lo <= j <= |s|
    ensures lo <= k <= j
    ensures forall m :: k <= m < j ==> IsSpace(s[m])
    ensures k == lo || !IsSpace(s[k - 1])
  {
    if lo < j && IsSpace(s[j - 1]) then SkipTrailing(s, lo, j - 1) else j
  }

  /** `strings.TrimSpace`: the infix of `s` that neither starts nor ends with
      white space, obtained by dropping only white space on either side. */
  function TrimSpace(s: string): (r: string)
    ensures |r| == 0 || (!IsSpace(r[0]) && !IsSpace(r[|r| - 1]))
    ensures var a := SkipLeading(s, 0);
      && a + |r| <= |s| && r == s[a..a + |r|]
      && (forall i :: 0 <= i < a ==> IsSpace(s[i]))
      && (forall i :: a + |r| <= i < |s| ==> IsSpace(s[i]))
  {
    var a := SkipLeading(s, 0);
    s[a..SkipTrailing(s, a, |s|)]
  }

  /** A string without surrounding white space is its own trimming. */
  lemma TrimSpaceOfTrimmed(s: string)
    requires |s| == 0 || (!IsSpace(s[0]) && !IsSpace(s[|s| - 1]))
    ensures TrimSpace(s) == s
  {
  }

  /** `strings.Split(s, string(sep))`: the pieces of `s` between occurrences
      of `sep`; there is always one more piece than separators. */
  function Split(s: string, sep: char): (parts: seq<string>)
    ensures |parts| >= 1
  {
    if |s| == 0 then [""]
    else
      var rest := Split(s[1..], sep);
      if s[0] == sep then [""] + rest
      else [[s[0]] + rest[0]] + rest[1..]
  }

  /** `strings.Join(parts, string(sep))`. */
  function Join(parts: seq<string>, sep: char): string
    requires |parts| >= 1
  {
    if |parts| == 1 then parts[0] else parts[0] + [sep] + Join(parts[1..], sep)
  }

  predicate NoSep(parts: seq<string>, sep: char) {
    forall i :: 0 <= i < |parts| ==> sep !in parts[i]
  }

  /** Splitting never leaves a separator inside a piece, and joining the
      pieces back gives the original string. */
  lemma {:induction false} SplitJoin(s: string, sep: char)
    ensures NoSep(Split(s, sep), sep)
    ensures Join(Split(s, sep), sep) == s
    decreases |s|
  {
    if |s| > 0 {
      var rest := Split(s[1..], sep);
      SplitJoin(s[1..], sep);
      if s[0] == sep {
        assert Split(s, sep)[1..] == rest;
      } else {
        var parts := Split(s, sep);
        assert parts[0] == [s[0]] + rest[0];
        assert parts[1..] == rest[1..];
        if |rest| == 1 {
          assert s == [s[0]] + s[1..];
        } else {
          assert Join(rest, sep) == rest[0] + [sep] + Join(rest[1..], sep);
          assert s == [s[0]] + s[1..];
        }
      }
    }
  }

  /** One unfolding of `Split` on a string that starts with `c`. */
  lemma SplitCons(c: char, t: string, sep: char)
    ensures Split([c] + t, sep) ==
      if c == sep then [""] + Split(t, sep)
      else [[c] + Split(t, sep)[0]] + Split(t, sep)[1..]
  {
    assert ([c] + t)[1..] == t;
  }

  /** Moving the first character of the first piece out of a join. */
  lemma JoinCons(parts: seq<string>, sep: char)
    requires |parts| >= 1 && |parts[0]| > 0
    ensures Join(parts, sep) == [parts[0][0]] + Join([parts[0][1..]] + parts[1..], sep)
  {
    var shorter := [parts[0][1..]] + parts[1..];
    assert shorter[1..] == parts[1..];
    assert parts[0] == [parts[0][0]] + parts[0][1..];
  }

  /** Splitting a join of separator-free pieces recovers the pieces. */
  lemma {:induction false} JoinSplit(parts: seq<string>, sep: char)
    requires |parts| >= 1 && NoSep(parts, sep)
    ensures Split(Join(parts, sep), sep) == parts
    decreases |parts|, |parts[0]|
  {
    var first := parts[0];
    if |first| == 0 {
      if |parts| > 1 {
        assert NoSep(parts[1..], sep) by {
          forall i | 0 <= i < |parts| - 1 ensures sep !in parts[1..][i] {
            assert parts[1..][i] == parts[i + 1];
          }
        }
        JoinSplit(parts[1..], sep);
        SplitCons(sep, Join(parts[1..], sep), sep);
        assert Join(parts, sep) == [sep] + Join(parts[1..], sep);
        assert [first] + parts[1..] == parts;
      }
    } else {
      var shorter := [first[1..]] + parts[1..];
      assert NoSep(shorter, sep) by {
        forall i | 0 <= i < |shorter| ensures sep !in shorter[i] {
          if i == 0 {
            assert forall c :: c in first[1..] ==> c in first;
          } else {
            assert shorter[i] == parts[i];
          }
        }
      }
      JoinSplit(shorter, sep);
      JoinCons(parts, sep);
      assert first[0] in first;
      SplitCons(first[0], Join(shorter, sep), sep);
      assert shorter[1..] == parts[1..];
      assert [first[0]] + first[1..] == first;
      assert [first] + parts[1..] == parts;
    }
  }

  /** ASCII upper-casing of one character (Go's `unicode.ToUpper` restricted to ASCII). */
  function UpperChar(c: char): char {
    if 'a' <= c <= 'z' then (c as int - 32) as char else c
  }

  /** `strings.ToUpper`, modelled for ASCII letters. */
  function ToUpper(s: string): (r: string)
    ensures |r| == |s|
    ensures forall i :: 0 <= i < |s| ==> r[i] == UpperChar(s[i])
  {
    if |s| == 0 then "" else [UpperChar(s[0])] + ToUpper(s[1..])
  }

  /** `strings.HasPrefix`. */
  predicate HasPrefix(s: string, p: string) {
    |p| <= |s| && s[..|p|] == p
  }

  /** `strings.Contains`. */
  predicate Contains(s: string, sub: string)
    decreases |s|
  {
    HasPrefix(s, sub) || (|s| > 0 && Contains(s[1..], sub))
  }
}

=== FILE: user_cache.dfy ===
/** The user cache (internal/passport/cache/user_cache.go): a cache-aside
    copy of user rows as hashes, the token-to-id indirection for end users
    and administrators, and the per-day set of users who logged in. One
    call sees the key-value store and the table together as a `World`. */
module UserCache {
  import opened Outcomes
  import opened Users
  import opened Text
  import opened Decimal
  import opened FieldFilter
  import opened CacheKeys
  import KvStore
  import UserRepo

  datatype World = World(redis: KvStore.Store, db: UserRepo.Db)

  type Out<T> = Step<T, World>

  /** Seconds left on a token below which a B-side check extends it. */
  const RefreshBelow: int := 1800
  /** Seconds a token and the cached expiry are extended to. */
  const RefreshTo: int := 3600
  /** Seconds a token index outlives the row's expiry. */
  const TokenGrace: int := 60

  /** The cached hash fields the read filter asks for: all of them for `*`,
      otherwise the comma-separated names as they are (not trimmed). */
  function ReadCached(r: KvStore.Store, key: string, fields: string, now: int): (out: KvStore.Reply<Fields>)
    ensures out.state == KvStore.Next(r)
  {
    if fields == "*" then KvStore.HGetAll(r, key, now)
    else KvStore.HMGet(r, key, Split(fields, ','), now)
  }

  /** `GetUserByID`: the cached hash under the uid key when it holds
      anything; otherwise `FillFromDb`. */
  function GetUserById(w: World, ctx: Ctx, id: int, now: int): (out: Out<User>)
  {
    var read := ReadCached(w.redis, UidKey(id), GetFilter(ctx, UserRepo.UserTable), now);
    var w1 := w.(redis := read.state);
    if read.res.Err? then Step(Err(Redis), w1)
    else
      var cached := FromFields(read.res.value);
      if cached != Empty then Step(Ok(cached), w1)
      else FillFromDb(w1, ctx, id, now)
  }

  /** The miss path of `GetUserByID`: the full row from the repository,
      written back by `WriteBack`. */
  function FillFromDb(w: World, ctx: Ctx, id: int, now: int): (out: Out<User>)
  {
    var found := FullRow(w.db, ctx, id);
    WriteBack(w.(db := found.state), found.res, id, now)
  }

  /** The repository read of the miss path, always of every column. */
  function FullRow(db: UserRepo.Db, ctx: Ctx, id: int): (out: Step<User, UserRepo.Db>)
    ensures out.state == UserRepo.Next(db)
  {
    UserRepo.GetUserById(db, SetFilter(ctx, UserRepo.UserTable, "*"), id)
  }

  /** Passes a repository error on; otherwise writes the row to the uid hash
      and gives the hash a 30-day lifetime. */
  function WriteBack(w: World, found: Result<User>, id: int, now: int): (out: Out<User>)
    ensures out.state.db == w.db
    ensures found.Err? ==> out == Step(Err(found.code), w)
    ensures out.res.Err? ==> out.res.code == Redis || out.res == found
    ensures out.res.Ok? ==> out.res == found
  {
    var key := UidKey(id);
    if found.Err? then Step(Err(found.code), w)
    else
      var user := found.value;
      var put := KvStore.HMSet(w.redis, key, ToFields(user), now);
      if put.res.Err? then Step(Err(Redis), w.(redis := put.state))
      else
        var exp := KvStore.Expire(put.state, key, UserTtl, now);
        if exp.res.Err? then Step(Err(Redis), w.(redis := exp.state))
        else Step(Ok(user), w.(redis := exp.state))
  }

  /** A successful write-back leaves every column of the row in the uid
      hash, which then lives 30 days from now. */
  lemma {:induction false} WriteBackWrites(w: World, user: User, id: int, now: int)
    requires WriteBack(w, Ok(user), id, now).res.Ok?
    ensures var r := WriteBack(w, Ok(user), id, now).state.redis;
      && UidKey(id) in r.data
      && r.data[UidKey(id)].deadline == Some(now + UserTtl)
      && r.data[UidKey(id)].value.Hash?
      && (forall c :: c in r.data[UidKey(id)].value.h && r.data[UidKey(id)].value.h[c] == Get(user, c))
  {
    var key := UidKey(id);
    var put := KvStore.HMSet(w.redis, key, ToFields(user), now);
    assert put.res.Ok?;
    var exp := KvStore.Expire(put.state, key, UserTtl, now);
    assert exp.res.Ok?;
    assert WriteBack(w, Ok(user), id, now).state.redis == exp.state;
    assert KvStore.HashAt(w.redis, key, now).Ok?;
    var merged := KvStore.HashAt(w.redis, key, now).value + ToFields(user);
    assert put.state.data[key].value == KvStore.Hash(merged);
    assert KvStore.Live(put.state.data[key], now);
    assert exp.state.data[key] == KvStore.Entry(KvStore.Hash(merged), Some(now + UserTtl));
  }

  /** The cached copy `GetUserById` looks at, when the read succeeds. */
  function CachedCopy(w: World, ctx: Ctx, id: int, now: int): Option<User> {
    var read := ReadCached(w.redis, UidKey(id), GetFilter(ctx, UserRepo.UserTable), now);
    if read.res.Ok? then Some(FromFields(read.res.value)) else None
  }

  /** A non-empty cached copy is returned as it is and the repository is not
      consulted. */
  lemma GetUserByIdHit(w: World, ctx: Ctx, id: int, now: int)
    requires CachedCopy(w, ctx, id, now).Some? && CachedCopy(w, ctx, id, now).value != Empty
    ensures GetUserById(w, ctx, id, now).res == Ok(CachedCopy(w, ctx, id, now).value)
    ensures GetUserById(w, ctx, id, now).state == World(KvStore.Next(w.redis), w.db)
  {
  }

  /** A failed cache read is a Redis error, and nothing else happens. */
  lemma GetUserByIdReadError(w: World, ctx: Ctx, id: int, now: int)
    requires CachedCopy(w, ctx, id, now).None?
    ensures GetUserById(w, ctx, id, now) == Step(Err(Redis), World(KvStore.Next(w.redis), w.db))
  {
  }

  /** An empty cached copy falls through to the repository, which is asked
      for every column whatever the caller's read filter. A repository error
      is passed on with nothing written to the cache; a found row is the
      answer unless writing it back fails, and after a successful write-back
      the uid hash holds every column of the row and lives 30 days. */
  lemma GetUserByIdMiss(w: World, ctx: Ctx, id: int, now: int)
    requires CachedCopy(w, ctx, id, now) == Some(Empty)
    ensures var found := UserRepo.GetUserById(w.db, SetFilter(ctx, UserRepo.UserTable, "*"), id);
      var out := GetUserById(w, ctx, id, now);
      && out.state.db == UserRepo.Next(w.db)
      && (found.res.Err? ==> out.res == found.res && out.state.redis == KvStore.Next(w.redis))
      && (found.res.Ok? ==> out.res == found.res || out.res == Err(Redis))
      && (out.res.Ok? ==>
            var d := out.state.redis.data;
            && UidKey(id) in d && d[UidKey(id)].deadline == Some(now + UserTtl)
            && d[UidKey(id)].value.Hash?
            && forall c :: c in d[UidKey(id)].value.h && d[UidKey(id)].value.h[c] == Get(found.res.value, c))
  {
    var found := FullRow(w.db, ctx, id);
    var w1 := World(KvStore.Next(w.redis), w.db);
    assert GetUserById(w, ctx, id, now) == WriteBack(w1.(db := found.state), found.res, id, now);
    if found.res.Ok? && WriteBack(w1.(db := found.state), found.res, id, now).res.Ok? {
      WriteBackWrites(w1.(db := found.state), found.res.value, id, now);
    }
  }

  /** `accessToken2IDFormCache`: the user id a token maps to; a missing key
      is "user not found", and an unparsable value reads as 0. */
  function TokenToId(w: World, token: string, now: int): (out: Out<int>)
    ensures out.state == w.(redis := KvStore.Next(w.redis))
    ensures out.res.Err? ==> out.res.code == UserNotFound || out.res.code == Redis
    ensures !KvStore.Fails(w.redis) && KvStore.Lookup(w.redis, TokenKey(token), now).None? ==>
      out.res == Err(UserNotFound)
    ensures out.res.Ok? ==> IsInt64(out.res.value)
  {
    var got := KvStore.Get(w.redis, TokenKey(token), now);
    var w1 := w.(redis := got.state);
    match got.res
    case Err(_) => Step(Err(Redis), w1)
    case Ok(None) => Step(Err(UserNotFound), w1)
    case Ok(Some(v)) => Step(Ok(ParseIntIgnoringError(v)), w1)
  }

  /** `AccessToken2IDToCache`: the token maps to the id for `ttl` seconds. */
  function StoreTokenId(w: World, token: string, id: int, ttl: int, now: int): (out: Out<()>)
    ensures out.state.db == w.db
    ensures out.res.Err? <==> KvStore.Fails(w.redis)
    ensures out.res.Err? ==> out.res.code == Redis && out.state.redis.data == w.redis.data
    ensures out.res.Ok? ==> (TokenKey(token) in out.state.redis.data
      && out.state.redis.data[TokenKey(token)] == KvStore.Entry(KvStore.Str(FormatInt(id)), KvStore.DeadlineAfter(now, ttl))
      && KvStore.SameExcept(out.state.redis.data, w.redis.data, TokenKey(token)))
  {
    var wrote := KvStore.Set(w.redis, TokenKey(token), FormatInt(id), ttl, now);
    Step(wrote.res, w.(redis := wrote.state))
  }

  /** Deletes one cache key; deleting a missing key succeeds. */
  function DelKey(w: World, key: string): (out: Out<()>)
    ensures out.state.db == w.db
    ensures out.res.Err? <==> KvStore.Fails(w.redis)
    ensures out.res.Err? ==> out.res.code == Redis && out.state.redis.data == w.redis.data
    ensures out.res.Ok? ==> key !in out.state.redis.data && KvStore.SameExcept(out.state.redis.data, w.redis.data, key)
  {
    var del := KvStore.Del(w.redis, key);
    Step(del.res, w.(redis := del.state))
  }

  /** `DelAccessToken2IDFromCache`. */
  function DelTokenId(w: World, token: string): (out: Out<()>)
    ensures out.res.Ok? ==> TokenKey(token) !in out.state.redis.data
    ensures out.res.Ok? ==> KvStore.SameExcept(out.state.redis.data, w.redis.data, TokenKey(token))
    ensures out.res.Err? ==> out.state.redis.data == w.redis.data && out.state.db == w.db
  {
    DelKey(w, TokenKey(token))
  }

  /** `DelUserCacheByUserID`. */
  function DelUserCache(w: World, id: int): (out: Out<()>)
    ensures out.res.Ok? ==> UidKey(id) !in out.state.redis.data
    ensures out.res.Ok? ==> KvStore.SameExcept(out.state.redis.data, w.redis.data, UidKey(id))
    ensures out.res.Err? ==> out.state.redis.data == w.redis.data && out.state.db == w.db
  {
    DelKey(w, UidKey(id))
  }

  /** `DelMisAccessToken2IDFromCache`. */
  function DelMisTokenId(w: World, token: string): (out: Out<()>)
    ensures out.res.Ok? ==> MisTokenKey(token) !in out.state.redis.data
    ensures out.res.Ok? ==> KvStore.SameExcept(out.state.redis.data, w.redis.data, MisTokenKey(token))
    ensures out.res.Err? ==> out.state.redis.data == w.redis.data && out.state.db == w.db
  {
    DelKey(w, MisTokenKey(token))
  }

  /** Stores a string under a key for `ttl` seconds. */
  function SetKey(w: World, key: string, val: string, ttl: int, now: int): (out: Out<()>)
    ensures out.state.db == w.db
    ensures out.res.Err? <==> KvStore.Fails(w.redis)
    ensures out.res.Err? ==> out.res.code == Redis && out.state.redis.data == w.redis.data
    ensures out.res.Ok? ==> (key in out.state.redis.data
      && out.state.redis.data[key] == KvStore.Entry(KvStore.Str(val), KvStore.DeadlineAfter(now, ttl))
      && KvStore.SameExcept(out.state.redis.data, w.redis.data, key))
  {
    var wrote := KvStore.Set(w.redis, key, val, ttl, now);
    Step(wrote.res, w.(redis := wrote.state))
  }

  /** `MisAccessToken2IDToCache`. */
  function StoreMisTokenId(w: World, token: string, id: int, ttl: int, now: int): (out: Out<()>)
    ensures out.res.Ok? ==> (MisTokenKey(token) in out.state.redis.data
      && out.state.redis.data[MisTokenKey(token)] == KvStore.Entry(KvStore.Str(FormatInt(id)), KvStore.DeadlineAfter(now, ttl))
      && KvStore.SameExcept(out.state.redis.data, w.redis.data, MisTokenKey(token)))
  {
    SetKey(w, MisTokenKey(token), FormatInt(id), ttl, now)
  }

  /** `SetMisAccessTokenByUserID`. */
  function StoreMisSession(w: World, token: string, id: int, ttl: int, now: int): (out: Out<()>)
    ensures out.res.Ok? ==> (MisSessionKey(id) in out.state.redis.data
      && out.state.redis.data[MisSessionKey(id)] == KvStore.Entry(KvStore.Str(token), KvStore.DeadlineAfter(now, ttl))
      && KvStore.SameExcept(out.state.redis.data, w.redis.data, MisSessionKey(id)))
  {
    SetKey(w, MisSessionKey(id), token, ttl, now)
  }

  /** `GetMisAccessTokenByUserID`: the administrator's current token. */
  function MisSessionToken(w: World, id: int, now: int): (out: Out<string>)
    ensures out.state == w.(redis := KvStore.Next(w.redis))
    ensures out.res.Err? ==> out.res.code == UserNotFound || out.res.code == Redis
    ensures !KvStore.Fails(w.redis) && KvStore.Lookup(w.redis, MisSessionKey(id), now).None? ==>
      out.res == Err(UserNotFound)
  {
    var got := KvStore.Get(w.redis, MisSessionKey(id), now);
    var w1 := w.(redis := got.state);
    match got.res
    case Err(_) => Step(Err(Redis), w1)
    case Ok(None) => Step(Err(UserNotFound), w1)
    case Ok(Some(v)) => Step(Ok(v), w1)
  }

  /** Records the user in the day's login set: only a user not yet in it is
      added, and only then is the set's lifetime reset to two days. */
  function RecordDailyLogin(w: World, id: int, today: string, now: int): (out: Out<()>)
    ensures out.state.db == w.db
    ensures out.res.Err? ==> out.res.code == Redis
  {
    var key := LoginUsersKey(today);
    var member := FormatInt(id);
    var seen := KvStore.SIsMember(w.redis, key, member, now);
    if seen.res.Err? then Step(Err(Redis), w.(redis := seen.state))
    else if seen.res.value then Step(Ok(()), w.(redis := seen.state))
    else
      var add := KvStore.SAdd(seen.state, key, member, now);
      if add.res.Err? then Step(Err(Redis), w.(redis := add.state))
      else
        var exp := KvStore.Expire(add.state, key, LoginListTtl, now);
        if exp.res.Err? then Step(Err(Redis), w.(redis := exp.state))
        else Step(Ok(()), w.(redis := exp.state))
  }

  /** After a successful recording the user is in the day's set. */
  lemma {:induction false} RecordDailyLoginMember(w: World, id: int, today: string, now: int)
    requires RecordDailyLogin(w, id, today, now).res.Ok?
    ensures var r := RecordDailyLogin(w, id, today, now).state.redis;
      KvStore.SetAt(r, LoginUsersKey(today), now).Ok?
      && FormatInt(id) in KvStore.SetAt(r, LoginUsersKey(today), now).value
  {
    var key := LoginUsersKey(today);
    var seen := KvStore.SIsMember(w.redis, key, FormatInt(id), now);
    assert KvStore.SetAt(w.redis, key, now).Ok?;
    if seen.res.value {
      RecordDailyLoginSeen(w, id, today, now);
    } else {
      RecordDailyLoginNew(w, id, today, now);
      var d := RecordDailyLogin(w, id, today, now).state.redis.data;
      assert KvStore.Live(d[key], now);
    }
  }

  /** A user already in the day's set leaves the set and its lifetime as
      they were. */
  lemma RecordDailyLoginSeen(w: World, id: int, today: string, now: int)
    requires !KvStore.Fails(w.redis)
    requires KvStore.SetAt(w.redis, LoginUsersKey(today), now).Ok?
    requires FormatInt(id) in KvStore.SetAt(w.redis, LoginUsersKey(today), now).value
    ensures RecordDailyLogin(w, id, today, now).res.Ok?
    ensures RecordDailyLogin(w, id, today, now).state.redis.data == w.redis.data
  {
  }

  /** A user not yet in the day's set is added, and the set then lives two
      days; no other key changes. */
  lemma {:induction false} RecordDailyLoginNew(w: World, id: int, today: string, now: int)
    requires KvStore.SetAt(w.redis, LoginUsersKey(today), now).Ok?
    requires FormatInt(id) !in KvStore.SetAt(w.redis, LoginUsersKey(today), now).value
    requires RecordDailyLogin(w, id, today, now).res.Ok?
    ensures var d := RecordDailyLogin(w, id, today, now).state.redis.data;
      && LoginUsersKey(today) in d
      && d[LoginUsersKey(today)] == KvStore.Entry(
           KvStore.Members(KvStore.SetAt(w.redis, LoginUsersKey(today), now).value + {FormatInt(id)}),
           Some(now + LoginListTtl))
      && KvStore.SameExcept(d, w.redis.data, LoginUsersKey(today))
  {
    var key := LoginUsersKey(today);
    var seen := KvStore.SIsMember(w.redis, key, FormatInt(id), now);
    assert seen.res == Ok(false);
    var add := KvStore.SAdd(seen.state, key, FormatInt(id), now);
    assert KvStore.SetAt(seen.state, key, now) == KvStore.SetAt(w.redis, key, now);
    assert add.res.Ok?;
    var exp := KvStore.Expire(add.state, key, LoginListTtl, now);
    assert exp.res.Ok?;
  }

  /** Recording the same user twice on the same day: the second call changes
      neither the set nor its lifetime. */
  lemma {:induction false} RecordDailyLoginIdempotent(w: World, id: int, today: string, now: int)
    requires KvStore.SetAt(w.redis, LoginUsersKey(today), now).Ok?
    requires RecordDailyLogin(w, id, today, now).res.Ok?
    requires !KvStore.Fails(RecordDailyLogin(w, id, today, now).state.redis)
    ensures var w1 := RecordDailyLogin(w, id, today, now).state;
      RecordDailyLogin(w1, id, today, now).state.redis.data == w1.redis.data
  {
    var key := LoginUsersKey(today);
    var w1 := RecordDailyLogin(w, id, today, now).state;
    if FormatInt(id) in KvStore.SetAt(w.redis, key, now).value {
      RecordDailyLoginSeen(w, id, today, now);
      assert w1.redis.data == w.redis.data;
      assert KvStore.SetAt(w1.redis, key, now) == KvStore.SetAt(w.redis, key, now);
    } else {
      RecordDailyLoginNew(w, id, today, now);
      assert KvStore.Lookup(w1.redis, key, now).Some?;
      assert KvStore.SetAt(w1.redis, key, now).value == KvStore.SetAt(w.redis, key, now).value + {FormatInt(id)};
    }
    RecordDailyLoginSeen(w1, id, today, now);
  }

  /** A token stored for an id resolves to that id while it lives. */
  lemma StoreThenResolve(w: World, token: string, id: int, ttl: int, now: int, later: int)
    requires IsInt64(id)
    requires StoreTokenId(w, token, id, ttl, now).res.Ok?
    requires !KvStore.Fails(StoreTokenId(w, token, id, ttl, now).state.redis)
    requires ttl <= 0 || later < now + ttl
    ensures TokenToId(StoreTokenId(w, token, id, ttl, now).state, token, later).res == Ok(id)
  {
    ParseFormatInt(id);
  }

  /** The repository read of a token-cache miss, always of every column. */
  function RowByToken(db: UserRepo.Db, ctx: Ctx, token: string): (out: Step<User, UserRepo.Db>)
    ensures out.state == UserRepo.Next(db)
  {
    UserRepo.GetUserByAccessToken(db, SetFilter(ctx, UserRepo.UserTable, "*"), token)
  }

  /** Admits a token the repository resolved on a cache miss: an unknown
      token or a row whose expiry has passed is an invalid token and writes
      nothing; otherwise the token is cached for the id until a minute
      after the row's expiry. */
  function AdmitToken(w: World, found: Result<User>, token: string, now: int): (out: Out<int>)
    ensures out.state.db == w.db
    ensures found == Err(UserNotFound) ==> out == Step(Err(TokenInvalid), w)
    ensures found.Err? && found.code != UserNotFound ==> out == Step(Err(found.code), w)
    ensures found.Ok? && found.value.expireTime < now ==> out == Step(Err(TokenInvalid), w)
    ensures found.Ok? && found.value.expireTime >= now ==>
      out.res == (if KvStore.Fails(w.redis) then Err(Redis) else Ok(found.value.id))
  {
    match found
    case Err(UserNotFound) => Step(Err(TokenInvalid), w)
    case Err(e) => Step(Err(e), w)
    case Ok(user) =>
      if user.expireTime < now then Step(Err(TokenInvalid), w)
      else
        var st := StoreTokenId(w, token, user.id, user.expireTime - now + TokenGrace, now);
        if st.res.Err? then Step(Err(st.res.code), st.state) else Step(Ok(user.id), st.state)
  }

  /** An admitted token maps to the row's id until a minute after the row's
      expiry, and no other key changes. */
  lemma AdmitTokenStores(w: World, user: User, token: string, now: int)
    requires user.expireTime >= now && !KvStore.Fails(w.redis)
    ensures var d := AdmitToken(w, Ok(user), token, now).state.redis.data;
      && TokenKey(token) in d
      && d[TokenKey(token)] == KvStore.Entry(KvStore.Str(FormatInt(user.id)), Some(user.expireTime + TokenGrace))
      && KvStore.SameExcept(d, w.redis.data, TokenKey(token))
  {
  }

  /** The B-side refresh: when the token has between 0 and 1800 seconds
      left, the cached row's expiry becomes an hour from now and so does
      the token's lifetime. */
  function ExtendToken(w: World, id: int, token: string, now: int): (out: Out<()>)
    ensures out.state.db == w.db
    ensures out.res.Err? ==> out.res.code == Redis
  {
    var ttl := KvStore.Ttl(w.redis, TokenKey(token), now);
    if ttl.res.Err? then Step(Err(Redis), w.(redis := ttl.state))
    else if !(ttl.res.value < RefreshBelow && ttl.res.value > 0) then Step(Ok(()), w.(redis := ttl.state))
    else
      var hset := KvStore.HMSet(ttl.state, UidKey(id), map[ExpireTime := IntF(now + RefreshTo)], now);
      if hset.res.Err? then Step(Err(Redis), w.(redis := hset.state))
      else
        var exp := KvStore.Expire(hset.state, TokenKey(token), RefreshTo, now);
        if exp.res.Err? then Step(Err(Redis), w.(redis := exp.state))
        else Step(Ok(()), w.(redis := exp.state))
  }

  /** Seconds the token has left, when it has a deadline. */
  function Remaining(r: KvStore.Store, token: string, now: int): Option<int> {
    var e := KvStore.Lookup(r, TokenKey(token), now);
    if e.Some? && e.value.deadline.Some? then Some(e.value.deadline.value - now) else None
  }

  /** Outside the refresh window the token entry and everything else stay
      as they were. */
  lemma ExtendTokenOutsideWindow(w: World, id: int, token: string, now: int)
    requires !KvStore.Fails(w.redis)
    requires Remaining(w.redis, token, now).None? || Remaining(w.redis, token, now).value >= RefreshBelow
    ensures ExtendToken(w, id, token, now).res.Ok?
    ensures ExtendToken(w, id, token, now).state.redis.data == w.redis.data
  {
  }

  /** Inside the refresh window a successful refresh sets the cached
      `expire_time` to an hour from now and the token's deadline to an hour
      from now. */
  lemma {:induction false} ExtendTokenInsideWindow(w: World, id: int, token: string, now: int)
    requires Remaining(w.redis, token, now).Some? && Remaining(w.redis, token, now).value < RefreshBelow
    requires ExtendToken(w, id, token, now).res.Ok?
    ensures var d := ExtendToken(w, id, token, now).state.redis.data;
      && UidKey(id) in d && d[UidKey(id)].value.Hash?
      && ExpireTime in d[UidKey(id)].value.h && d[UidKey(id)].value.h[ExpireTime] == IntF(now + RefreshTo)
      && TokenKey(token) in d && d[TokenKey(token)].deadline == Some(now + RefreshTo)
      && d[TokenKey(token)].value == w.redis.data[TokenKey(token)].value
  {
    KindsDisjoint(Uid(id), Token(token));
    var ttl := KvStore.Ttl(w.redis, TokenKey(token), now);
    assert ttl.res == Ok(Remaining(w.redis, token, now).value);
    var hset := KvStore.HMSet(ttl.state, UidKey(id), map[ExpireTime := IntF(now + RefreshTo)], now);
    assert hset.res.Ok?;
    assert KvStore.HashAt(ttl.state, UidKey(id), now).Ok?;
    var exp := KvStore.Expire(hset.state, TokenKey(token), RefreshTo, now);
    assert exp.res.Ok?;
    assert ExtendToken(w, id, token, now).state.redis == exp.state;
    assert KvStore.Lookup(hset.state, TokenKey(token), now) == KvStore.Lookup(w.redis, TokenKey(token), now);
  }

  /** The first layer of both end-user checks: the id the token maps to,
      from the cache or, on a miss, from the repository. Only the B side
      (`extend`) refreshes a token that is about to expire. */
  function ResolveToken(w: World, ctx: Ctx, token: string, now: int, extend: bool): (out: Out<int>)
  {
    var hit := TokenToId(w, token, now);
    if hit.res == Err(UserNotFound) then
      var found := RowByToken(hit.state.db, ctx, token);
      AdmitToken(hit.state.(db := found.state), found.res, token, now)
    else if hit.res.Err? then hit
    else if extend then
      var ext := ExtendToken(hit.state, hit.res.value, token, now);
      if ext.res.Err? then Step(Err(ext.res.code), ext.state) else Step(Ok(hit.res.value), ext.state)
    else hit
  }

  /** The value cached for a token, when the cache can be read. */
  function CachedToken(w: World, token: string, now: int): Option<string> {
    var e := KvStore.Lookup(w.redis, TokenKey(token), now);
    if !KvStore.Fails(w.redis) && e.Some? && e.value.value.Str? then Some(e.value.value.s) else None
  }

  /** On a cache hit the C side touches nothing: the id is the cached value
      read as an integer. */
  lemma ResolveHitWithoutExtension(w: World, ctx: Ctx, token: string, now: int)
    requires CachedToken(w, token, now).Some?
    ensures ResolveToken(w, ctx, token, now, false) ==
      Step(Ok(ParseIntIgnoringError(CachedToken(w, token, now).value)), w.(redis := KvStore.Next(w.redis)))
  {
  }

  /** On a cache hit the B side runs the refresh on the cached id. */
  lemma ResolveHitWithExtension(w: World, ctx: Ctx, token: string, now: int)
    requires CachedToken(w, token, now).Some?
    ensures var id := ParseIntIgnoringError(CachedToken(w, token, now).value);
      var ext := ExtendToken(w.(redis := KvStore.Next(w.redis)), id, token, now);
      ResolveToken(w, ctx, token, now, true) == Step(if ext.res.Ok? then Ok(id) else Err(Redis), ext.state)
  {
  }

  /** On a cache miss both sides consult the repository and admit the token
      the same way. */
  lemma ResolveMiss(w: World, ctx: Ctx, token: string, now: int, extend: bool)
    requires !KvStore.Fails(w.redis) && KvStore.Lookup(w.redis, TokenKey(token), now).None?
    ensures var w1 := w.(redis := KvStore.Next(w.redis));
      var found := RowByToken(w.db, ctx, token);
      ResolveToken(w, ctx, token, now, extend) == AdmitToken(w1.(db := found.state), found.res, token, now)
  {
  }

  /** `CheckBUserAccessToken` (`extend`) and `CheckCUserAccessToken`: resolve
      the token, read the user through the cache and record the day's login. */
  function CheckAccessToken(w: World, ctx: Ctx, token: string, now: int, today: string, extend: bool): (out: Out<User>)
  {
    var resolved := ResolveToken(w, ctx, token, now, extend);
    if resolved.res.Err? then Step(Err(resolved.res.code), resolved.state)
    else
      var read := GetUserById(resolved.state, ctx, resolved.res.value, now);
      if read.res.Err? then read
      else
        var rec := RecordDailyLogin(read.state, read.res.value.id, today, now);
        if rec.res.Err? then Step(Err(Redis), rec.state) else Step(read.res, rec.state)
  }

  /** A successful check returns the user read through the cache for the
      resolved id, and leaves that user in the day's login set. */
  lemma {:induction false} CheckAccessTokenOk(w: World, ctx: Ctx, token: string, now: int, today: string, extend: bool)
    requires CheckAccessToken(w, ctx, token, now, today, extend).res.Ok?
    ensures var resolved := ResolveToken(w, ctx, token, now, extend);
      var out := CheckAccessToken(w, ctx, token, now, today, extend);
      && resolved.res.Ok?
      && out.res == GetUserById(resolved.state, ctx, resolved.res.value, now).res
      && KvStore.SetAt(out.state.redis, LoginUsersKey(today), now).Ok?
      && FormatInt(out.res.value.id) in KvStore.SetAt(out.state.redis, LoginUsersKey(today), now).value
  {
    var resolved := ResolveToken(w, ctx, token, now, extend);
    var read := GetUserById(resolved.state, ctx, resolved.res.value, now);
    RecordDailyLoginMember(read.state, read.res.value.id, today, now);
  }

  function CheckBUserAccessToken(w: World, ctx: Ctx, token: string, now: int, today: string): (out: Out<User>)
  {
    CheckAccessToken(w, ctx, token, now, today, true)
  }

  function CheckCUserAccessToken(w: World, ctx: Ctx, token: string, now: int, today: string): (out: Out<User>)
  {
    CheckAccessToken(w, ctx, token, now, today, false)
  }

  /** `CheckMisUserAccessToken`: the administrator token maps straight to a
      user id; a missing token is "user not found" without any repository
      read, and an unparsable value reads as id 0. */
  function CheckMisUserAccessToken(w: World, ctx: Ctx, token: string, now: int): (out: Out<User>)
    ensures !KvStore.Fails(w.redis) && KvStore.Lookup(w.redis, MisTokenKey(token), now).None? ==>
      out == Step(Err(UserNotFound), w.(redis := KvStore.Next(w.redis)))
    ensures KvStore.Fails(w.redis) ==> out == Step(Err(Redis), w.(redis := KvStore.Next(w.redis)))
  {
    var got := KvStore.Get(w.redis, MisTokenKey(token), now);
    var w1 := w.(redis := got.state);
    match got.res
    case Err(_) => Step(Err(Redis), w1)
    case Ok(None) => Step(Err(UserNotFound), w1)
    case Ok(Some(v)) => GetUserById(w1, ctx, ParseIntIgnoringError(v), now)
  }

  /** A cached administrator token whose value is not a number resolves to
      user id 0. */
  lemma MisNonNumericIsUserZero(w: World, ctx: Ctx, token: string, now: int, i: nat)
    requires !KvStore.Fails(w.redis)
    requires KvStore.Lookup(w.redis, MisTokenKey(token), now).Some?
    requires KvStore.Lookup(w.redis, MisTokenKey(token), now).value.value.Str?
    requires var v := KvStore.Lookup(w.redis, MisTokenKey(token), now).value.value.s;
      |v| > 0 && i < |Unsigned(v)| && i < 20 && !IsDigit(Unsigned(v)[i])
    ensures CheckMisUserAccessToken(w, ctx, token, now) == GetUserById(w.(redis := KvStore.Next(w.redis)), ctx, 0, now)
  {
    NonNumericParsesToZero(KvStore.Lookup(w.redis, MisTokenKey(token), now).value.value.s, i);
  }
}

=== FILE: user_repo.dfy ===
/** The user repository (internal/passport/repository/user_repo.go) over an
    abstract `user` table. SQL conditions are predicates over `User`; an
    empty condition list is the never-true `1 = -1`. Every statement is one
    round trip that the environment may fail (`faults`, as in `KvStore`);
    a failed statement changes nothing. */
module UserRepo {
  import opened Outcomes
  import opened Users
  import opened Text
  import opened FieldFilter
  import BitInt

  /** The table's name in filter keys; the name is declared outside this model. */
  const UserTable: string := "user"

  /** Rows by primary key and the next auto-increment value. */
  datatype Table = Table(rows: map<int, User>, nextId: int)

  /** Every row is stored under its own id, below the auto-increment value. */
  ghost predicate Wf(t: Table) {
    t.nextId >= 1 && forall k :: k in t.rows ==> 1 <= k < t.nextId && t.rows[k].id == k
  }

  datatype Db = Db(table: Table, faults: seq<bool>)

  function Fails(db: Db): bool {
    |db.faults| > 0 && db.faults[0]
  }

  function Next(db: Db): (db': Db)
    ensures db'.table == db.table
  {
    if |db.faults| > 0 then db.(faults := db.faults[1..]) else db
  }

  /** A `WHERE` clause; `Never` is what an empty condition list becomes. */
  datatype Cond = Never | Where(holds: User -> bool)

  predicate Matches(c: Cond, u: User) {
    c.Where? && c.holds(u)
  }

  /** The least key in `lo..hi` whose row matches, as `First` orders by
      primary key. */
  function FirstFrom(rows: map<int, User>, c: Cond, lo: int, hi: int): (r: Option<int>)
    decreases hi - lo
    ensures r.Some? ==> lo <= r.value < hi && r.value in rows && Matches(c, rows[r.value])
    ensures r.Some? ==> forall k :: lo <= k < r.value && k in rows ==> !Matches(c, rows[k])
    ensures r.None? ==> forall k :: lo <= k < hi && k in rows ==> !Matches(c, rows[k])
  {
    if lo >= hi then None
    else if lo in rows && Matches(c, rows[lo]) then Some(lo)
    else FirstFrom(rows, c, lo + 1, hi)
  }

  function First(t: Table, c: Cond): Option<int> {
    FirstFrom(t.rows, c, 1, t.nextId)
  }

  /** On a well-formed table, `First` finds nothing only if no row matches. */
  lemma FirstNoneMeansNoMatch(t: Table, c: Cond)
    requires Wf(t) && First(t, c).None?
    ensures forall k :: k in t.rows ==> !Matches(c, t.rows[k])
  {
  }

  /** On a well-formed table, a row that is the only match is the one
      `First` finds. */
  lemma FirstOnlyMatch(t: Table, c: Cond, k: int)
    requires Wf(t) && k in t.rows && Matches(c, t.rows[k])
    requires forall j :: j in t.rows && Matches(c, t.rows[j]) ==> j == k
    ensures First(t, c) == Some(k)
  {
    if First(t, c).None? {
      FirstNoneMeansNoMatch(t, c);
    }
  }

  /** The columns a read filter names: `*` is all of them; otherwise the
      comma-separated names, each trimmed. A name that is no column (the
      sentinel included) makes the statement fail. */
  function SelectColumns(filter: string): (r: Result<set<Column>>)
    ensures r.Err? ==> r.code == Database
    ensures filter == "*" ==> r == Ok(AllColumns)
    ensures filter != "*" ==> (r.Ok? <==> forall p :: p in Split(filter, ',') ==> ColumnByName(TrimSpace(p)).Some?)
    ensures filter != "*" && r.Ok? ==> forall c :: c in r.value <==> exists p :: p in Split(filter, ',') && ColumnByName(TrimSpace(p)) == Some(c)
  {
    if filter == "*" then Ok(AllColumns) else NamedColumns(Split(filter, ','))
  }

  function NamedColumns(names: seq<string>): (r: Result<set<Column>>)
    ensures r.Err? ==> r.code == Database
    ensures r.Ok? <==> forall p :: p in names ==> ColumnByName(TrimSpace(p)).Some?
    ensures r.Ok? ==> forall c :: c in r.value <==> exists p :: p in names && ColumnByName(TrimSpace(p)) == Some(c)
  {
    if |names| == 0 then Ok({})
    else match ColumnByName(TrimSpace(names[0]))
      case None => Err(Database)
      case Some(c) =>
        match NamedColumns(names[1..])
        case Err(e) => Err(e)
        case Ok(cs) =>
          assert forall p :: p in names <==> p == names[0] || p in names[1..];
          Ok({c} + cs)
  }

  /** `getSingleUserByCond`: the first matching row, restricted to the
      columns of the table's read filter. */
  function GetSingleUserByCond(db: Db, ctx: Ctx, c: Cond): (out: Step<User, Db>)
    ensures out.state == Next(db)
    ensures Fails(db) ==> out.res == Err(Database)
    ensures out.res.Err? ==> out.res.code == Database || out.res.code == UserNotFound
    ensures !Fails(db) && SelectColumns(GetFilter(ctx, UserTable)).Err? ==> out.res == Err(Database)
    ensures out.res == Err(UserNotFound) ==> First(db.table, c).None?
    ensures !Fails(db) && SelectColumns(GetFilter(ctx, UserTable)).Ok? ==>
      (out.res.Ok? <==> First(db.table, c).Some?)
    ensures out.res.Ok? ==> var k := First(db.table, c).value;
      k in db.table.rows && Matches(c, db.table.rows[k])
      && out.res.value == Project(db.table.rows[k], SelectColumns(GetFilter(ctx, UserTable)).value)
    ensures c.Never? ==> out.res.Err?
  {
    if Fails(db) then Step(Err(Database), Next(db))
    else match SelectColumns(GetFilter(ctx, UserTable))
      case Err(e) => Step(Err(e), Next(db))
      case Ok(cols) =>
        match First(db.table, c)
        case None => Step(Err(UserNotFound), Next(db))
        case Some(k) => Step(Ok(Project(db.table.rows[k], cols)), Next(db))
  }

  function ByIdOk(id: int): Cond { Where((u: User) => u.id == id && u.status == StatusOk) }
  function ByPhoneNotDeleted(phone: string): Cond { Where((u: User) => u.phone == phone && u.status != StatusDel) }
  function ByTokenOk(token: string): Cond { Where((u: User) => u.accessToken == token && u.status == StatusOk) }
  function ByUnionIdOk(unionid: string): Cond { Where((u: User) => u.unionid == unionid && u.status == StatusOk) }
  function ByUnionId(unionid: string): Cond { Where((u: User) => u.unionid == unionid) }
  function ByPhone(phone: string): Cond { Where((u: User) => u.phone == phone) }
  function ByToken(token: string): Cond { Where((u: User) => u.accessToken == token) }
  function ById(id: int): Cond { Where((u: User) => u.id == id) }

  /** `GetUserByID`. */
  function GetUserById(db: Db, ctx: Ctx, id: int): (out: Step<User, Db>)
    ensures out.state == Next(db)
  {
    GetSingleUserByCond(db, ctx, ByIdOk(id))
  }

  /** `GetUserByPhone`. */
  function GetUserByPhone(db: Db, ctx: Ctx, phone: string): (out: Step<User, Db>)
    ensures out.state == Next(db)
  {
    GetSingleUserByCond(db, ctx, ByPhoneNotDeleted(phone))
  }

  /** `GetUserByAccessToken`. */
  function GetUserByAccessToken(db: Db, ctx: Ctx, token: string): (out: Step<User, Db>)
    ensures out.state == Next(db)
  {
    GetSingleUserByCond(db, ctx, ByTokenOk(token))
  }

  /** `GetUserByUnionID` (its body is not part of this model): by analogy
      with the lookups above, a union id match among rows whose status is OK. */
  function GetUserByUnionId(db: Db, ctx: Ctx, unionid: string): (out: Step<User, Db>)
    ensures out.state == Next(db)
  {
    GetSingleUserByCond(db, ctx, ByUnionIdOk(unionid))
  }

  /** The `...IgnoreStatusCheck` lookups (their bodies are not part of this
      model): the same column match with no status filter. */
  function GetUserByUnionIdIgnoreStatus(db: Db, ctx: Ctx, unionid: string): (out: Step<User, Db>)
    ensures out.state == Next(db)
  {
    GetSingleUserByCond(db, ctx, ByUnionId(unionid))
  }

  function GetUserByPhoneIgnoreStatus(db: Db, ctx: Ctx, phone: string): (out: Step<User, Db>)
    ensures out.state == Next(db)
  {
    GetSingleUserByCond(db, ctx, ByPhone(phone))
  }

  function GetUserByAccessTokenIgnoreStatus(db: Db, ctx: Ctx, token: string): (out: Step<User, Db>)
    ensures out.state == Next(db)
  {
    GetSingleUserByCond(db, ctx, ByToken(token))
  }

  /** The columns the read filter of `ctx` selects, when it is valid. */
  function ReadColumns(ctx: Ctx): set<Column> {
    var r := SelectColumns(GetFilter(ctx, UserTable));
    if r.Ok? then r.value else {}
  }

  /** `GetUserByID` finds only a row of that id whose status is OK, and
      reports not-found only when there is none. */
  lemma {:induction false} GetUserByIdFindsOnlyOk(db: Db, ctx: Ctx, id: int)
    ensures var out := GetUserById(db, ctx, id);
      out.res.Ok? ==> exists k :: (k in db.table.rows && db.table.rows[k].id == id
        && db.table.rows[k].status == StatusOk && out.res.value == Project(db.table.rows[k], ReadColumns(ctx)))
    ensures Wf(db.table) && GetUserById(db, ctx, id).res == Err(UserNotFound) ==>
      id !in db.table.rows || db.table.rows[id].status != StatusOk
  {
    var out := GetUserById(db, ctx, id);
    if out.res.Ok? {
      var k := First(db.table, ByIdOk(id)).value;
      assert Matches(ByIdOk(id), db.table.rows[k]);
    }
    if Wf(db.table) && out.res == Err(UserNotFound) && id in db.table.rows {
      assert !Matches(ByIdOk(id), db.table.rows[id]);
    }
  }

  /** `GetUserByPhone` finds any row of that phone not marked deleted, and
      reports not-found only when every such row is deleted. */
  lemma {:induction false} GetUserByPhoneSkipsDeleted(db: Db, ctx: Ctx, phone: string)
    ensures var out := GetUserByPhone(db, ctx, phone);
      out.res.Ok? ==> exists k :: (k in db.table.rows && db.table.rows[k].phone == phone
        && db.table.rows[k].status != StatusDel && out.res.value == Project(db.table.rows[k], ReadColumns(ctx)))
    ensures Wf(db.table) && GetUserByPhone(db, ctx, phone).res == Err(UserNotFound) ==>
      forall k :: k in db.table.rows && db.table.rows[k].phone == phone ==> db.table.rows[k].status == StatusDel
  {
    var out := GetUserByPhone(db, ctx, phone);
    if out.res.Ok? {
      var k := First(db.table, ByPhoneNotDeleted(phone)).value;
      assert Matches(ByPhoneNotDeleted(phone), db.table.rows[k]);
    }
    if Wf(db.table) && out.res == Err(UserNotFound) {
      forall k | k in db.table.rows && db.table.rows[k].phone == phone
        ensures db.table.rows[k].status == StatusDel
      {
        assert !Matches(ByPhoneNotDeleted(phone), db.table.rows[k]);
      }
    }
  }

  /** `GetUserByAccessToken` finds only a row holding the token whose status
      is OK, and reports not-found only when there is none. */
  lemma {:induction false} GetUserByAccessTokenFindsOnlyOk(db: Db, ctx: Ctx, token: string)
    ensures var out := GetUserByAccessToken(db, ctx, token);
      out.res.Ok? ==> exists k :: (k in db.table.rows && db.table.rows[k].accessToken == token
        && db.table.rows[k].status == StatusOk && out.res.value == Project(db.table.rows[k], ReadColumns(ctx)))
    ensures Wf(db.table) && GetUserByAccessToken(db, ctx, token).res == Err(UserNotFound) ==>
      forall k :: k in db.table.rows && db.table.rows[k].accessToken == token ==> db.table.rows[k].status != StatusOk
  {
    var out := GetUserByAccessToken(db, ctx, token);
    if out.res.Ok? {
      var k := First(db.table, ByTokenOk(token)).value;
      assert Matches(ByTokenOk(token), db.table.rows[k]);
    }
    if Wf(db.table) && out.res == Err(UserNotFound) {
      forall k | k in db.table.rows && db.table.rows[k].accessToken == token
        ensures db.table.rows[k].status != StatusOk
      {
        assert !Matches(ByTokenOk(token), db.table.rows[k]);
      }
    }
  }

  /** An empty condition list reads nothing: the lookup can only fail. */
  lemma EmptyConditionFindsNothing(db: Db, ctx: Ctx)
    ensures !Fails(db) && SelectColumns(GetFilter(ctx, UserTable)).Ok? ==>
      GetSingleUserByCond(db, ctx, Never).res == Err(UserNotFound)
  {
    var r := FirstFrom(db.table.rows, Never, 1, db.table.nextId);
  }

  /** One value of an update: a literal, SQL `NULL` (read back as the zero
      value), or `column + delta`. */
  datatype Assign = Put(f: Field) | Null | Incr(delta: int)

  /** The `map[string]interface{}` of `Updates`, keyed by column. */
  type Entity = map<Column, Assign>

  predicate AssignFits(c: Column, a: Assign) {
    match a
    case Put(f) => Fits(c, f)
    case Null => true
    case Incr(_) => Zero(c).IntF?
  }

  predicate EntityFits(e: Entity) {
    forall c :: c in e ==> AssignFits(c, e[c])
  }

  function Assigned(u: User, c: Column, a: Assign): (f: Field)
    ensures AssignFits(c, a) ==> Fits(c, f)
  {
    match a
    case Put(f) => f
    case Null => Zero(c)
    case Incr(d) => if Get(u, c).IntF? then IntF(Get(u, c).i + d) else Get(u, c)
  }

  /** A column's value after the assignments; the primary key is never
      reassigned. */
  function Pick(u: User, e: Entity, c: Column): (f: Field)
    requires EntityFits(e)
    ensures Fits(c, f)
  {
    if c in e && c != Id then Assigned(u, c, e[c]) else Get(u, c)
  }

  /** The row after the assignments. */
  function ApplyEntity(u: User, e: Entity): (r: User)
    requires EntityFits(e)
    ensures forall c :: Get(r, c) == if c in e && c != Id then Assigned(u, c, e[c]) else Get(u, c)
  {
    var f := (c: Column) => Pick(u, e, c);
    TabulateAll(f);
    Tabulate(f)
  }

  /** One column of `ApplyEntity`. */
  lemma ApplyColumn(u: User, e: Entity, c: Column)
    requires EntityFits(e)
    ensures Get(ApplyEntity(u, e), c) == if c in e && c != Id then Assigned(u, c, e[c]) else Get(u, c)
  {
  }

  /** The number of rows the condition matches. */
  function MatchCount(t: Table, c: Cond): nat {
    |set k | k in t.rows && Matches(c, t.rows[k])|
  }

  /** The number of rows whose contents differ between two tables with the
      same keys: what the MySQL driver reports as affected when the
      connection does not ask for found rows. */
  function ChangedCount(before: Table, after: Table): nat {
    |set k | k in before.rows && k in after.rows && after.rows[k] != before.rows[k]|
  }

  function UpdateRows(t: Table, c: Cond, e: Entity): (r: Table)
    requires EntityFits(e)
    ensures r.nextId == t.nextId && r.rows.Keys == t.rows.Keys
    ensures forall k :: k in t.rows && Matches(c, t.rows[k]) ==> r.rows[k] == ApplyEntity(t.rows[k], e)
    ensures forall k :: k in t.rows && !Matches(c, t.rows[k]) ==> r.rows[k] == t.rows[k]
  {
    Table(map k | k in t.rows :: if Matches(c, t.rows[k]) then ApplyEntity(t.rows[k], e) else t.rows[k], t.nextId)
  }

  /** `UpdateUserByCondUseMap`: the rows affected, or a database error for a
      value the column cannot hold. A matching row whose values the map
      leaves as they were is not counted. */
  function UpdateUserByCondUseMap(db: Db, e: Entity, c: Cond): (out: Step<int, Db>)
    ensures out.state.faults == Next(db).faults
    ensures Fails(db) || !EntityFits(e) ==> out.res == Err(Database) && out.state.table == db.table
    ensures !Fails(db) && EntityFits(e) ==>
      out.res == Ok(ChangedCount(db.table, out.state.table)) && out.state.table == UpdateRows(db.table, c, e)
    ensures c.Never? ==> out.state.table == db.table
  {
    if Fails(db) || !EntityFits(e) then Step(Err(Database), Next(db))
    else
      var t := UpdateRows(db.table, c, e);
      assert c.Never? ==> t == db.table;
      Step(Ok(ChangedCount(db.table, t)), Next(db).(table := t))
  }

  /** The rows an update reports are among the rows it matches, and an
      update that changes nothing reports 0. */
  lemma {:induction false} ChangedWithinMatched(db: Db, e: Entity, c: Cond)
    requires !Fails(db) && EntityFits(e)
    ensures var out := UpdateUserByCondUseMap(db, e, c);
      && out.res.Ok? && out.res.value <= MatchCount(db.table, c)
      && (out.state.table == db.table ==> out.res.value == 0)
  {
    var t := UpdateRows(db.table, c, e);
    var changed := set k | k in db.table.rows && k in t.rows && t.rows[k] != db.table.rows[k];
    var matched := set k | k in db.table.rows && Matches(c, db.table.rows[k]);
    assert changed <= matched;
    SubsetCard(changed, matched);
    if t == db.table {
      assert changed == {};
    }
  }

  lemma SubsetCard<K>(a: set<K>, b: set<K>)
    requires a <= b
    ensures |a| <= |b|
  {
    if a != {} {
      var x :| x in a;
      SubsetCard(a - {x}, b - {x});
    }
  }

  /** `UpdateUserByIDUseMap`: only the row with that id changes, and in it
      only the columns the entity names. */
  function UpdateUserByIdUseMap(db: Db, e: Entity, id: int): (out: Step<int, Db>)
    ensures out.res.Err? ==> out.state.table == db.table
    ensures out.state.table.rows.Keys == db.table.rows.Keys
    ensures out.state.table.nextId == db.table.nextId
    ensures forall k :: k in db.table.rows && db.table.rows[k].id != id ==> out.state.table.rows[k] == db.table.rows[k]
    ensures out.res.Ok? ==> forall k, col :: k in db.table.rows && db.table.rows[k].id == id ==>
      Get(out.state.table.rows[k], col) == if col in e && col != Id then Assigned(db.table.rows[k], col, e[col]) else Get(db.table.rows[k], col)
  {
    UpdateUserByCondUseMap(db, e, ById(id))
  }

  /** One row under `UpdateUserByIDUseMap`: the entity applied when the id
      matches, the row as it was otherwise. */
  lemma UpdateByIdRow(db: Db, e: Entity, id: int, k: int)
    requires !Fails(db) && EntityFits(e) && k in db.table.rows
    ensures var t := UpdateUserByIdUseMap(db, e, id).state.table;
      && UpdateUserByIdUseMap(db, e, id).res.Ok?
      && k in t.rows
      && t.rows[k] == if db.table.rows[k].id == id then ApplyEntity(db.table.rows[k], e) else db.table.rows[k]
  {
    assert UpdateUserByIdUseMap(db, e, id) == UpdateUserByCondUseMap(db, e, ById(id));
  }

  /** The columns a CU filter lets a write touch: the names that are
      columns; the sentinel and unknown names select nothing. */
  function CuColumns(filter: seq<string>): (r: set<Column>)
    ensures forall c :: c in r <==> ColumnName(c) in filter
  {
    var r := set n, c | n in filter && c == ColumnByName(n) && c.Some? :: c.value;
    forall c ensures c in r <==> ColumnName(c) in filter {
      ColumnByNameInverse(c);
    }
    r
  }

  /** The value a struct field is written as: `sex` goes through the `bit(1)`
      codec, so the column holds 0 or 1. */
  function Written(u: User, c: Column): (f: Field)
    ensures Fits(c, f)
  {
    if c == Sex then IntF(BitInt.Scan(0, BitInt.Value(u.sex)).value) else Get(u, c)
  }

  /** The assignments a struct update makes: the selected columns, from the struct. */
  function StructEntity(u: User, cols: set<Column>): (e: Entity)
    ensures EntityFits(e)
  {
    map c | c in cols :: Put(Written(u, c))
  }

  /** The struct's non-zero primary key joins the condition. */
  function WithKey(c: Cond, u: User): Cond {
    if u.id == 0 then c
    else match c
      case Never => Never
      case Where(p) => Where((v: User) => p(v) && v.id == u.id)
  }

  /** `UpdateUserByCond`. When the CU filter names no column, no statement
      is sent and nothing changes. */
  function UpdateUserByCond(db: Db, ctx: Ctx, u: User, c: Cond): (out: Step<int, Db>)
    ensures out.state.table.rows.Keys == db.table.rows.Keys && out.state.table.nextId == db.table.nextId
    ensures CuColumns(GetCuFilter(ctx, UserTable)) - {Id} == {} ==> out == Step(Ok(0), db)
    ensures out.res.Err? ==> out.res == Err(Database) && out.state.table == db.table
  {
    var cols := CuColumns(GetCuFilter(ctx, UserTable)) - {Id};
    if cols == {} then Step(Ok(0), db)
    else UpdateUserByCondUseMap(db, StructEntity(u, cols), WithKey(c, u))
  }

  /** A struct update sets each selected column to the struct's value and
      leaves the others alone. */
  lemma ApplyStruct(row: User, u: User, cols: set<Column>, col: Column)
    ensures Get(ApplyEntity(row, StructEntity(u, cols)), col) ==
      if col in cols && col != Id then Written(u, col) else Get(row, col)
  {
  }

  /** `UpdateUserByCond` leaves rows that do not match the condition, the
      primary key and every column the CU filter does not name as they were. */
  lemma {:induction false} UpdateUserByCondKeepsUnselected(db: Db, ctx: Ctx, u: User, c: Cond, k: int, col: Column)
    requires k in db.table.rows
    ensures var out := UpdateUserByCond(db, ctx, u, c);
      && (!Matches(c, db.table.rows[k]) ==> out.state.table.rows[k] == db.table.rows[k])
      && (col == Id || ColumnName(col) !in GetCuFilter(ctx, UserTable) ==>
            Get(out.state.table.rows[k], col) == Get(db.table.rows[k], col))
  {
    var cols := CuColumns(GetCuFilter(ctx, UserTable)) - {Id};
    if cols != {} && !Fails(db) {
      var e := StructEntity(u, cols);
      var row := db.table.rows[k];
      var t := UpdateRows(db.table, WithKey(c, u), e);
      assert UpdateUserByCond(db, ctx, u, c).state.table == t;
      if Matches(WithKey(c, u), row) {
        ApplyStruct(row, u, cols, col);
      } else {
        assert t.rows[k] == row;
      }
    }
  }

  /** With a working connection and a CU filter naming some column other
      than the key, `UpdateUserByCond` succeeds. */
  lemma UpdateUserByCondSucceeds(db: Db, ctx: Ctx, u: User, c: Cond, col: Column)
    requires !Fails(db) && col != Id && ColumnName(col) in GetCuFilter(ctx, UserTable)
    ensures UpdateUserByCond(db, ctx, u, c).res.Ok?
  {
    assert col in CuColumns(GetCuFilter(ctx, UserTable)) - {Id};
  }

  /** `UpdateUserByCond` writes the struct's value into every column the CU
      filter names (other than the primary key) of every row matching the
      condition and the struct's key. */
  lemma {:induction false} UpdateUserByCondWritesSelected(db: Db, ctx: Ctx, u: User, c: Cond, k: int, col: Column)
    requires k in db.table.rows
    requires UpdateUserByCond(db, ctx, u, c).res.Ok? && Matches(WithKey(c, u), db.table.rows[k])
    requires col != Id && ColumnName(col) in GetCuFilter(ctx, UserTable)
    ensures Get(UpdateUserByCond(db, ctx, u, c).state.table.rows[k], col) == Written(u, col)
  {
    var cols := CuColumns(GetCuFilter(ctx, UserTable)) - {Id};
    assert col in cols;
    var e := StructEntity(u, cols);
    var t := UpdateRows(db.table, WithKey(c, u), e);
    assert UpdateUserByCond(db, ctx, u, c).state.table == t;
    ApplyStruct(db.table.rows[k], u, cols, col);
  }

  function RowValue(u: User, cols: set<Column>, defaults: User, id: int, c: Column): (f: Field)
    ensures Fits(c, f)
  {
    if c == Id then IntF(id) else if c in cols then Written(u, c) else Get(defaults, c)
  }

  /** The row an insert stores: the selected columns from `u`, the others
      from the column defaults, the key from the auto-increment counter. */
  function NewRow(u: User, cols: set<Column>, defaults: User, id: int): (r: User)
    ensures r.id == id
    ensures forall c :: c != Id ==> Get(r, c) == if c in cols then Written(u, c) else Get(defaults, c)
  {
    var f := (c: Column) => RowValue(u, cols, defaults, id, c);
    TabulateAll(f);
    assert Get(Tabulate(f), Id) == IntF(id);
    Tabulate(f)
  }

  /** `AddUser`: inserts the row and returns its new id. */
  function AddUser(db: Db, ctx: Ctx, u: User, defaults: User): (out: Step<int, Db>)
    ensures out.state.faults == Next(db).faults
    ensures Fails(db) ==> out.res == Err(Database) && out.state.table == db.table
    ensures !Fails(db) ==> (out.res == Ok(db.table.nextId)
      && out.state.table.nextId == db.table.nextId + 1
      && out.state.table.rows ==
           db.table.rows[db.table.nextId := NewRow(u, CuColumns(GetCuFilter(ctx, UserTable)), defaults, db.table.nextId)])
  {
    if Fails(db) then Step(Err(Database), Next(db))
    else
      var id := db.table.nextId;
      var row := NewRow(u, CuColumns(GetCuFilter(ctx, UserTable)), defaults, id);
      Step(Ok(id), Db(Table(db.table.rows[id := row], id + 1), Next(db).faults))
  }

  /** The inserted row holds the struct's value in exactly the columns the
      CU filter names and the column default everywhere else. */
  lemma AddUserWritesFilteredColumns(db: Db, ctx: Ctx, u: User, defaults: User, c: Column)
    requires !Fails(db)
    ensures var row := AddUser(db, ctx, u, defaults).state.table.rows[db.table.nextId];
      && row.id == db.table.nextId
      && (c != Id ==> Get(row, c) == if ColumnName(c) in GetCuFilter(ctx, UserTable) then Written(u, c) else Get(defaults, c))
  {
  }

  /** Storing a row under the next key of a well-formed table leaves every
      existing row as it was. */
  lemma InsertKeepsRows(t: Table, row: User)
    requires Wf(t)
    ensures t.nextId !in t.rows
    ensures forall j :: j in t.rows ==> j in t.rows[t.nextId := row] && t.rows[t.nextId := row][j] == t.rows[j]
  {
  }

  /** An insert into a well-formed table takes a fresh key and leaves every
      existing row as it was. */
  lemma AddUserKeepsRows(db: Db, ctx: Ctx, u: User, defaults: User)
    requires !Fails(db) && Wf(db.table)
    ensures var t := AddUser(db, ctx, u, defaults).state.table;
      && db.table.nextId !in db.table.rows && db.table.nextId in t.rows && t.rows[db.table.nextId].id == db.table.nextId
      && (forall j :: j in db.table.rows ==> j in t.rows && t.rows[j] == db.table.rows[j])
  {
    var row := NewRow(u, CuColumns(GetCuFilter(ctx, UserTable)), defaults, db.table.nextId);
    InsertKeepsRows(db.table, row);
  }

  /** `LocalRepoAtomic`: runs `fn` in a transaction. An error rolls the
      rows back to their state before the call. After a success the commit
      is one more round trip; its error is discarded, so a failed commit
      still answers with `fn`'s result while every write is lost. A
      rollback never gives back auto-increment values, so `nextId` keeps
      the value `fn` left. */
  function LocalRepoAtomic<T>(db: Db, fn: Db -> Step<T, Db>): (out: Step<T, Db>)
    ensures out.res == fn(db).res
    ensures out.state.table.nextId == fn(db).state.table.nextId
    ensures out.res.Err? ==> out.state.faults == fn(db).state.faults && out.state.table.rows == db.table.rows
    ensures out.res.Ok? ==> out.state.faults == Next(fn(db).state).faults
    ensures out.res.Ok? && !Fails(fn(db).state) ==> out.state.table == fn(db).state.table
    ensures out.res.Ok? && Fails(fn(db).state) ==> out.state.table.rows == db.table.rows
  {
    var r := fn(db);
    var rolledBack := Table(db.table.rows, r.state.table.nextId);
    if r.res.Err? then Step(r.res, r.state.(table := rolledBack))
    else if Fails(r.state) then Step(r.res, Next(r.state).(table := rolledBack))
    else Step(r.res, Next(r.state))
  }

  /** Updates and inserts keep the table well formed. */
  lemma UpdateKeepsWf(db: Db, e: Entity, c: Cond)
    requires Wf(db.table)
    ensures Wf(UpdateUserByCondUseMap(db, e, c).state.table)
  {
    var out := UpdateUserByCondUseMap(db, e, c);
    if !Fails(db) && EntityFits(e) {
      forall k | k in out.state.table.rows ensures out.state.table.rows[k].id == k {
        if Matches(c, db.table.rows[k]) {
          assert Get(out.state.table.rows[k], Id) == Get(db.table.rows[k], Id);
        }
      }
    }
  }

  lemma AddKeepsWf(db: Db, ctx: Ctx, u: User, defaults: User)
    requires Wf(db.table)
    ensures Wf(AddUser(db, ctx, u, defaults).state.table)
  {
    var t := AddUser(db, ctx, u, defaults).state.table;
    if !Fails(db) {
      forall k | k in t.rows ensures 1 <= k < t.nextId && t.rows[k].id == k {
        if k != db.table.nextId {
          assert k in db.table.rows;
        }
      }
    }
  }
}

=== FILE: user_ucase.dfy ===
/** The passport use cases (internal/passport/usecase/user_ucase.go) over
    the cache and the repository: login checks for the three kinds of
    caller, the administrator login with its session swap, the WeChat H5
    login, unbinding and logout. Token generation, the password hash and
    the administrator, agent and brand-membership lookups are inputs: the
    caller passes the token the generator produced and the outcome of each
    lookup. */
module UserUsecase {
  import opened Outcomes
  import opened Users
  import opened Text
  import opened Decimal
  import opened FieldFilter
  import opened CacheKeys
  import KvStore
  import UserRepo
  import opened UserCache
  import opened CacheRetry
  import RowEffects

  /** Seconds an administrator session lasts. */
  const MisTokenTtl: int := 7 * 86400
  /** Seconds a "keep me logged in" administrator session lasts longer. */
  const KeepExtra: int := 30 * 86400
  /** Seconds a WeChat H5 token lasts. */
  const WxH5TokenTtl: int := 30 * 86400
  /** Attempts at a cache eviction. */
  const EvictTries: int := 3

  // ---------------------------------------------------------------- eviction

  /** A cache delete retried up to three times, as every use case evicts:
      `DoCacheOpWithRetry(DelUserCacheByUserID, 3)` is `EvictKey` of the
      user's hash key, `DoCacheOpWithRetry(DelAccessToken2IDFromCache, 3)`
      of the token's key. */
  function EvictKey(w: World, key: string): Retried<World> {
    DoCacheOpWithRetry(DelKey, EvictTries, w, key)
  }

  /** Failed deletes change no data. */
  lemma {:induction false} FailedDeletesChangeNothing(w: World, key: string, n: nat)
    requires forall i :: 0 <= i < n ==> FailsAt(DelKey, w, key, i)
    ensures After(DelKey, w, key, n).redis.data == w.redis.data
    ensures After(DelKey, w, key, n).db == w.db
  {
    if n > 0 {
      FailedDeletesChangeNothing(w, key, n - 1);
      assert FailsAt(DelKey, w, key, n - 1);
    }
  }

  /** An eviction either removes the key and nothing else, or fails with a
      cache error after three attempts and changes no data; the table is
      never touched. */
  lemma {:induction false} EvictKeyEffect(w: World, key: string)
    ensures var r := EvictKey(w, key);
      && r.state.db == w.db
      && (r.err.None? ==> key !in r.state.redis.data && KvStore.SameExcept(r.state.redis.data, w.redis.data, key))
      && (r.err.Some? ==> r.err == Some(Redis) && r.state.redis.data == w.redis.data)
  {
    RetryMeetsSpec(DelKey, EvictTries, w, key);
    var r := EvictKey(w, key);
    if r.err.None? {
      FailedDeletesChangeNothing(w, key, r.tryCount - 1);
      assert !FailsAt(DelKey, w, key, r.tryCount - 1);
    } else {
      FailedDeletesChangeNothing(w, key, EvictTries);
      assert FailsAt(DelKey, w, key, EvictTries - 1);
    }
  }

  /** The table and the data of every other key survive an eviction. */
  lemma EvictKeyKeepsOthers(w: World, key: string, other: string)
    requires other != key
    ensures var r := EvictKey(w, key);
      r.state.db == w.db
      && (other in r.state.redis.data <==> other in w.redis.data)
      && (other in w.redis.data ==> r.state.redis.data[other] == w.redis.data[other])
  {
    EvictKeyEffect(w, key);
  }

  // ------------------------------------------------------------ login checks

  /** The user columns the B- and C-side logins read. */
  const EndUserFields: string := "id,phone,name,sex,unionid,headimgurl,nickname,birthday"
  /** The user columns the administrator login check reads. */
  const MisUserFields: string := "id,phone,name,sex,unionid,headimgurl,nickname"

  /** `CheckBUserLogin`: the B-side token check with the end-user columns. */
  function CheckBUserLogin(w: World, ctx: Ctx, token: string, now: int, today: string): Out<User> {
    CheckBUserAccessToken(w, SetFilter(ctx, UserRepo.UserTable, EndUserFields), token, now, today)
  }

  /** `CheckBUserAgentLogin`: a B-side login that must also be an agent
      administrator; `agentAdmin` is the agent repository's answer. */
  function CheckBUserAgentLogin(w: World, ctx: Ctx, token: string, now: int, today: string,
                                agentAdmin: int -> Result<bool>): (out: Out<User>)
    ensures var chk := CheckBUserLogin(w, ctx, token, now, today);
      && out.state == chk.state
      && (out.res.Ok? <==> chk.res.Ok? && agentAdmin(chk.res.value.id) == Ok(true))
      && (out.res.Ok? ==> out.res == chk.res)
      && (chk.res.Ok? && agentAdmin(chk.res.value.id) == Ok(false) ==> out.res == Err(PermissionDenied))
      && (chk.res.Err? ==> out.res == chk.res)
  {
    var chk := CheckBUserLogin(w, ctx, token, now, today);
    if chk.res.Err? then chk
    else match agentAdmin(chk.res.value.id)
      case Err(e) => Step(Err(e), chk.state)
      case Ok(false) => Step(Err(PermissionDenied), chk.state)
      case Ok(true) => chk
  }

  /** `CheckCUserLogin`: the C-side token check, and for a non-zero brand
      the user's membership of it; `related` is the brand repository's
      answer for (brand, user). */
  function CheckCUserLogin(w: World, ctx: Ctx, token: string, brandId: int, now: int, today: string,
                           related: (int, int) -> Result<bool>): (out: Out<User>)
    ensures var chk := CheckCUserAccessToken(w, SetFilter(ctx, UserRepo.UserTable, EndUserFields), token, now, today);
      && out.state == chk.state
      && (brandId == 0 ==> out == chk)
      && (brandId != 0 ==> (out.res.Ok? <==> chk.res.Ok? && related(brandId, chk.res.value.id) == Ok(true)))
      && (out.res.Ok? ==> out.res == chk.res)
      && (brandId != 0 && chk.res.Ok? && related(brandId, chk.res.value.id) == Ok(false) ==>
            out.res == Err(UserNotRelateBrand))
  {
    var chk := CheckCUserAccessToken(w, SetFilter(ctx, UserRepo.UserTable, EndUserFields), token, now, today);
    if chk.res.Err? || brandId == 0 then chk
    else match related(brandId, chk.res.value.id)
      case Err(e) => Step(Err(e), chk.state)
      case Ok(false) => Step(Err(UserNotRelateBrand), chk.state)
      case Ok(true) => chk
  }

  /** The administrator table's answer names an administrator: a record
      with a non-zero user id. */
  predicate IsMisUser(answer: Result<Option<int>>) {
    answer.Ok? && answer.value.Some? && answer.value.value != 0
  }

  /** The error a failed administrator lookup yields. */
  function MisUserError(answer: Result<Option<int>>): Code {
    if answer.Err? then answer.code else UserNotFound
  }

  /** `CheckMisUserLogin`: the administrator token check, then, for a
      non-zero user id, the administrator record; `misUser` is the
      administrator repository's answer (the record's user id, if any). */
  function CheckMisUserLogin(w: World, ctx: Ctx, token: string, now: int,
                             misUser: int -> Result<Option<int>>): (out: Out<User>)
    ensures var chk := CheckMisUserAccessToken(w, SetFilter(ctx, UserRepo.UserTable, MisUserFields), token, now);
      && out.state == chk.state
      && (out.res.Ok? <==> chk.res.Ok? && (chk.res.value.id == 0 || IsMisUser(misUser(chk.res.value.id))))
      && (out.res.Ok? ==> out.res == chk.res)
      && (chk.res.Ok? && chk.res.value.id != 0 && misUser(chk.res.value.id).Ok? && !IsMisUser(misUser(chk.res.value.id)) ==>
            out.res == Err(UserNotFound))
  {
    var chk := CheckMisUserAccessToken(w, SetFilter(ctx, UserRepo.UserTable, MisUserFields), token, now);
    if chk.res.Err? then Step(Err(chk.res.code), chk.state)
    else if chk.res.value.id != 0 && !IsMisUser(misUser(chk.res.value.id)) then
      Step(Err(MisUserError(misUser(chk.res.value.id))), chk.state)
    else chk
  }

  // ------------------------------------------------------------------ logout

  /** `BLogout`: drops the token's index entry, once, and reports success
      whatever the cache said. */
  function BLogout(w: World, token: string): (out: Out<()>)
    ensures out.res == Ok(())
    ensures out.state.db == w.db
    ensures !KvStore.Fails(w.redis) ==> (TokenKey(token) !in out.state.redis.data
      && KvStore.SameExcept(out.state.redis.data, w.redis.data, TokenKey(token)))
    ensures KvStore.Fails(w.redis) ==> out.state.redis.data == w.redis.data
  {
    Step(Ok(()), DelTokenId(w, token).state)
  }

  /** `BSetLoginInfo`: the B-side login, after which a known user's cached
      row is evicted; the eviction's outcome does not affect the answer. */
  function BSetLoginInfo(w: World, ctx: Ctx, token: string, now: int, today: string): (out: Out<User>)
    ensures var chk := CheckBUserLogin(w, ctx, token, now, today);
      && out.res == chk.res
      && out.state.db == chk.state.db
      && (chk.res.Ok? && chk.res.value.id != 0 ==>
            out.state.redis.data == chk.state.redis.data
            || (UidKey(chk.res.value.id) !in out.state.redis.data
                && KvStore.SameExcept(out.state.redis.data, chk.state.redis.data, UidKey(chk.res.value.id))))
      && (chk.res.Err? || chk.res.value.id == 0 ==> out == chk)
  {
    var chk := CheckBUserLogin(w, ctx, token, now, today);
    if chk.res.Ok? && chk.res.value.id != 0 then
      EvictKeyEffect(chk.state, UidKey(chk.res.value.id));
      Step(chk.res, EvictKey(chk.state, UidKey(chk.res.value.id)).state)
    else chk
  }

  // ------------------------------------------------------ administrator login

  /** Seconds the administrator session lasts: a week, and thirty days more
      when the caller asks to stay logged in. */
  function MisSessionTtl(keep: int): int {
    MisTokenTtl + if keep > 0 then KeepExtra else 0
  }

  /** The administrator's current session token, or "" when the cache has
      none or cannot be read. */
  function PrevSession(w: World, id: int, now: int): string {
    var p := MisSessionToken(w, id, now);
    if p.res.Ok? then p.res.value else ""
  }

  /** `MisLogin`: `login` is the outcome of the phone-and-password lookup
      and `misUser` that of the administrator lookup; `issued` is the newly
      generated token. A wrong password, or a non-zero user who is no
      administrator, is refused before anything is written. */
  function MisLogin(w: World, login: Result<User>, misUser: Result<Option<int>>, keep: int,
                    issued: string, now: int): (out: Out<User>)
    ensures login == Err(UserNotFound) ==> out == Step(Err(PasswordIncorrect), w)
    ensures login.Err? && login.code != UserNotFound ==> out == Step(Err(login.code), w)
    ensures login.Ok? && login.value.id != 0 && !IsMisUser(misUser) ==>
      out == Step(Err(MisUserError(misUser)), w)
    ensures out.res.Ok? ==> (login.Ok? && (login.value.id == 0 || IsMisUser(misUser))
      && out.res.value == login.value.(accessToken := issued, expireTime := now + MisSessionTtl(keep)))
    ensures out.state.db == w.db
  {
    match login
    case Err(e) => Step(Err(if e == UserNotFound then PasswordIncorrect else e), w)
    case Ok(user) =>
      if user.id != 0 && !IsMisUser(misUser) then Step(Err(MisUserError(misUser)), w)
      else IssueMisSession(w, user, keep, issued, now)
  }

  /** The session swap: index the new token, point the user's session at
      it, then drop the previous token's index. */
  function IssueMisSession(w: World, user: User, keep: int, issued: string, now: int): (out: Out<User>)
    ensures out.state.db == w.db
    ensures out.res.Ok? ==> out.res.value == user.(accessToken := issued, expireTime := now + MisSessionTtl(keep))
  {
    var prev := MisSessionToken(w, user.id, now);
    var prior := PrevSession(w, user.id, now);
    var ttl := MisSessionTtl(keep);
    var s1 := StoreMisTokenId(prev.state, issued, user.id, ttl, now);
    if s1.res.Err? then Step(Err(s1.res.code), s1.state)
    else
      var s2 := StoreMisSession(s1.state, issued, user.id, ttl, now);
      if s2.res.Err? then Step(Err(s2.res.code), s2.state)
      else
        var done := user.(accessToken := issued, expireTime := now + ttl);
        if prior == "" then Step(Ok(done), s2.state)
        else
          var s3 := DelMisTokenId(s2.state, prior);
          if s3.res.Err? then Step(Err(s3.res.code), s3.state) else Step(Ok(done), s3.state)
  }

  /** Keys of different namespaces or different ids never meet. */
  lemma MisKeysDistinct(issued: string, prior: string, id: int)
    ensures MisTokenKey(issued) != MisSessionKey(id)
    ensures MisTokenKey(prior) != MisSessionKey(id)
    ensures issued != prior ==> MisTokenKey(issued) != MisTokenKey(prior)
  {
    if MisTokenKey(issued) == MisSessionKey(id) {
      KeyStringInjective(MisToken(issued), MisSession(id));
    }
    if MisTokenKey(prior) == MisSessionKey(id) {
      KeyStringInjective(MisToken(prior), MisSession(id));
    }
    if issued != prior && MisTokenKey(issued) == MisTokenKey(prior) {
      KeyStringInjective(MisToken(issued), MisToken(prior));
    }
  }

  /** Storing the token's index and then the user's session leaves both
      in the cache with the same deadline. */
  lemma StoresMisPair(w: World, issued: string, id: int, ttl: int, now: int)
    requires StoreMisTokenId(w, issued, id, ttl, now).res.Ok?
    requires StoreMisSession(StoreMisTokenId(w, issued, id, ttl, now).state, issued, id, ttl, now).res.Ok?
    ensures var d := StoreMisSession(StoreMisTokenId(w, issued, id, ttl, now).state, issued, id, ttl, now).state.redis.data;
      var until := KvStore.DeadlineAfter(now, ttl);
      && MisTokenKey(issued) in d && d[MisTokenKey(issued)] == KvStore.Entry(KvStore.Str(FormatInt(id)), until)
      && MisSessionKey(id) in d && d[MisSessionKey(id)] == KvStore.Entry(KvStore.Str(issued), until)
  {
    MisKeysDistinct(issued, issued, id);
  }

  /** A completed session swap leaves the new token mapped to the user and
      the user's session mapped to the new token, both for `ttl` seconds,
      and drops the previous token's index. */
  lemma {:induction false} IssueMisSessionSwaps(w: World, user: User, keep: int, issued: string, now: int)
    requires IssueMisSession(w, user, keep, issued, now).res.Ok?
    requires issued != PrevSession(w, user.id, now)
    ensures var ttl := MisSessionTtl(keep);
      var prior := PrevSession(w, user.id, now);
      var d := IssueMisSession(w, user, keep, issued, now).state.redis.data;
      && MisTokenKey(issued) in d && d[MisTokenKey(issued)] == KvStore.Entry(KvStore.Str(FormatInt(user.id)), Some(now + ttl))
      && MisSessionKey(user.id) in d && d[MisSessionKey(user.id)] == KvStore.Entry(KvStore.Str(issued), Some(now + ttl))
      && (prior != "" ==> MisTokenKey(prior) !in d)
  {
    var id := user.id;
    var ttl := MisSessionTtl(keep);
    var prior := PrevSession(w, id, now);
    var prev := MisSessionToken(w, id, now);
    var s1 := StoreMisTokenId(prev.state, issued, id, ttl, now);
    var s2 := StoreMisSession(s1.state, issued, id, ttl, now);
    StoresMisPair(prev.state, issued, id, ttl, now);
    assert KvStore.DeadlineAfter(now, ttl) == Some(now + ttl);
    if prior != "" {
      MisKeysDistinct(issued, prior, id);
      var s3 := DelMisTokenId(s2.state, prior);
      assert IssueMisSession(w, user, keep, issued, now).state == s3.state;
    } else {
      assert IssueMisSession(w, user, keep, issued, now).state == s2.state;
    }
  }

  /** After a successful administrator login the new token maps to the user
      and the user's session to the new token, both for the session's
      lifetime (seven days, or thirty-seven when asked to stay logged in),
      and the previous token no longer maps to anyone. */
  lemma MisLoginSwapsSession(w: World, login: Result<User>, misUser: Result<Option<int>>,
                             keep: int, issued: string, now: int)
    requires MisLogin(w, login, misUser, keep, issued, now).res.Ok?
    requires login.Ok? ==> issued != PrevSession(w, login.value.id, now)
    ensures login.Ok?
    ensures var id := login.value.id;
      var ttl := if keep > 0 then 37 * 86400 else 7 * 86400;
      var prior := PrevSession(w, id, now);
      var d := MisLogin(w, login, misUser, keep, issued, now).state.redis.data;
      && MisLogin(w, login, misUser, keep, issued, now).res.value.expireTime == now + ttl
      && MisTokenKey(issued) in d && d[MisTokenKey(issued)] == KvStore.Entry(KvStore.Str(FormatInt(id)), Some(now + ttl))
      && MisSessionKey(id) in d && d[MisSessionKey(id)] == KvStore.Entry(KvStore.Str(issued), Some(now + ttl))
      && (prior != "" ==> MisTokenKey(prior) !in d)
  {
    assert MisLogin(w, login, misUser, keep, issued, now) == IssueMisSession(w, login.value, keep, issued, now);
    IssueMisSessionSwaps(w, login.value, keep, issued, now);
  }

  // ---------------------------------------------------------- WeChat H5 login

  /** The user columns the WeChat H5 login reads. */
  const WxUserFields: string :=
    "id,phone,name,sex,avatar_url,access_token,unionid,headimgurl,nickname,birthday,expire_time,login_times"

  /** An avatar the WeChat head image replaces: a non-empty one hosted on
      neither of the service's own object-store domains. */
  predicate ReplacesAvatar(avatar: string, ossOnline: string, ossOffline: string) {
    avatar != "" && !Contains(avatar, ossOnline) && !Contains(avatar, ossOffline)
  }

  /** What the WeChat H5 login's update map assigns to a column: the login
      time, update time and count always; a new token and expiry when the
      stored one has passed; the head image (and a replaceable avatar) and
      the nickname when supplied; nothing else. */
  function WxAssign(user: User, param: User, now: int, issued: string, swapAvatar: bool,
                    c: Column): (a: Option<UserRepo.Assign>)
  {
    match c
    case LastLoginTime => Some(UserRepo.Put(IntF(now)))
    case UpdateTime => Some(UserRepo.Put(IntF(now)))
    case LoginTimes => Some(UserRepo.Incr(1))
    case AccessToken => if user.expireTime < now then Some(UserRepo.Put(StrF(issued))) else None
    case ExpireTime => if user.expireTime < now then Some(UserRepo.Put(IntF(now + WxH5TokenTtl))) else None
    case Headimgurl => if param.headimgurl != "" then Some(UserRepo.Put(StrF(param.headimgurl))) else None
    case AvatarUrl =>
      if param.headimgurl != "" && swapAvatar then Some(UserRepo.Put(StrF(param.headimgurl))) else None
    case Nickname => if param.nickname != "" then Some(UserRepo.Put(StrF(param.nickname))) else None
    case _ => None
  }

  /** `e` assigns exactly what `WxAssign` prescribes. */
  predicate AssignsAsWx(e: UserRepo.Entity, user: User, param: User, now: int, issued: string, swapAvatar: bool)
  {
    && (forall c :: c in e <==> WxAssign(user, param, now, issued, swapAvatar, c).Some?)
    && (forall c :: c in e ==> e[c] == WxAssign(user, param, now, issued, swapAvatar, c).value)
  }

  /** The update map of a WeChat H5 login. */
  function WxEntity(user: User, param: User, now: int, issued: string, ossOnline: string, ossOffline: string): (e: UserRepo.Entity)
    ensures UserRepo.EntityFits(e)
    ensures AssignsAsWx(e, user, param, now, issued, ReplacesAvatar(user.avatarUrl, ossOnline, ossOffline))
  {
    var swapAvatar := ReplacesAvatar(user.avatarUrl, ossOnline, ossOffline);
    map c: Column | WxAssign(user, param, now, issued, swapAvatar, c).Some? ::
      WxAssign(user, param, now, issued, swapAvatar, c).value
  }

  /** The user the login returns: the stored one with the same changes
      applied in memory (the login count is not re-read). */
  function WxUser(user: User, param: User, now: int, issued: string, ossOnline: string, ossOffline: string): User {
    var renewed := if user.expireTime < now then user.(accessToken := issued, expireTime := now + WxH5TokenTtl) else user;
    var imaged := if param.headimgurl == "" then renewed
      else if ReplacesAvatar(user.avatarUrl, ossOnline, ossOffline)
      then renewed.(headimgurl := param.headimgurl, avatarUrl := param.headimgurl)
      else renewed.(headimgurl := param.headimgurl);
    if param.nickname == "" then imaged else imaged.(nickname := param.nickname)
  }

  /** The repository read of a WeChat H5 login. */
  function WxLookup(db: UserRepo.Db, ctx: Ctx, param: User): (out: Step<User, UserRepo.Db>)
    ensures out.state == UserRepo.Next(db)
  {
    UserRepo.GetUserByUnionId(db, SetFilter(ctx, UserRepo.UserTable, WxUserFields), param.unionid)
  }

  /** `LoginWxH5`: `param` carries the WeChat profile, `issued` the token the
      generator produced, `ossOnline`/`ossOffline` the object-store domains.
      A union id with no user is "not registered"; an expired token is
      replaced (the old one's index is dropped once, its error ignored); the
      row is updated and its cached copy evicted, the eviction's outcome
      ignored. */
  function LoginWxH5(w: World, ctx: Ctx, param: User, now: int, issued: string,
                     ossOnline: string, ossOffline: string): (out: Out<User>)
    ensures var found := WxLookup(w.db, ctx, param);
      && (found.res == Err(UserNotFound) ==>
            out == Step(Err(WxUserIsNotRegistered), w.(db := found.state)))
      && (found.res.Err? && found.res.code != UserNotFound ==>
            out == Step(Err(found.res.code), w.(db := found.state)))
      && (out.res.Ok? ==> (found.res.Ok?
            && out.res.value == WxUser(found.res.value, param, now, issued, ossOnline, ossOffline)))
  {
    var found := WxLookup(w.db, ctx, param);
    var w1 := w.(db := found.state);
    match found.res
    case Err(e) => Step(Err(if e == UserNotFound then WxUserIsNotRegistered else e), w1)
    case Ok(user) => WxUpdate(w1, user, param, now, issued, ossOnline, ossOffline)
  }

  /** The writes of a WeChat H5 login for the user found. */
  function WxUpdate(w: World, user: User, param: User, now: int, issued: string,
                    ossOnline: string, ossOffline: string): (out: Out<User>)
    ensures out.res.Ok? ==> out.res.value == WxUser(user, param, now, issued, ossOnline, ossOffline)
    ensures out.res.Err? ==> out.state.db.table == w.db.table
    ensures out.res.Ok? <==> !UserRepo.Fails(w.db)
    ensures out.res.Ok? ==> (out.state.db.table ==
      UserRepo.UpdateUserByIdUseMap(w.db, WxEntity(user, param, now, issued, ossOnline, ossOffline), user.id).state.table)
  {
    var w2 := if user.expireTime < now then DelTokenId(w, user.accessToken).state else w;
    var upd := UserRepo.UpdateUserByIdUseMap(w2.db, WxEntity(user, param, now, issued, ossOnline, ossOffline), user.id);
    var w3 := w2.(db := upd.state);
    if upd.res.Err? then Step(Err(upd.res.code), w3)
    else
      EvictKeyEffect(w3, UidKey(user.id));
      Step(Ok(WxUser(user, param, now, issued, ossOnline, ossOffline)), EvictKey(w3, UidKey(user.id)).state)
  }

  /** The token a WeChat H5 login returns is the stored one while it is
      valid (an expiry equal to `now` still is) and a new one good for
      thirty days once it has passed. */
  lemma WxTokenReissue(user: User, param: User, now: int, issued: string, ossOnline: string, ossOffline: string)
    ensures var r := WxUser(user, param, now, issued, ossOnline, ossOffline);
      && (user.expireTime < now ==> r.accessToken == issued && r.expireTime == now + 30 * 86400)
      && (user.expireTime >= now ==> r.accessToken == user.accessToken && r.expireTime == user.expireTime)
      && r.id == user.id && r.loginTimes == user.loginTimes
  {
  }

  /** The login's update map always counts the login and stamps its time. */
  lemma WxEntityStamps(user: User, param: User, now: int, issued: string, ossOnline: string, ossOffline: string)
    ensures var e := WxEntity(user, param, now, issued, ossOnline, ossOffline);
      && LoginTimes in e && e[LoginTimes] == UserRepo.Incr(1)
      && LastLoginTime in e && e[LastLoginTime] == UserRepo.Put(IntF(now))
      && UpdateTime in e && e[UpdateTime] == UserRepo.Put(IntF(now))
  {
    var swapAvatar := ReplacesAvatar(user.avatarUrl, ossOnline, ossOffline);
    assert WxAssign(user, param, now, issued, swapAvatar, LoginTimes).Some?;
    assert WxAssign(user, param, now, issued, swapAvatar, LastLoginTime).Some?;
    assert WxAssign(user, param, now, issued, swapAvatar, UpdateTime).Some?;
  }

  /** The login's update map takes the nickname and head image only when
      supplied, and a new token and expiry only when the stored one has
      passed. */
  lemma WxEntityOptional(user: User, param: User, now: int, issued: string, ossOnline: string, ossOffline: string)
    ensures var e := WxEntity(user, param, now, issued, ossOnline, ossOffline);
      && RowEffects.PutsIfGiven(e, Nickname, param.nickname)
      && RowEffects.PutsIfGiven(e, Headimgurl, param.headimgurl)
      && RowEffects.Renews(e, user.expireTime < now, issued, now + WxH5TokenTtl)
  {
    var swapAvatar := ReplacesAvatar(user.avatarUrl, ossOnline, ossOffline);
    assert WxAssign(user, param, now, issued, swapAvatar, Nickname).Some? <==> param.nickname != "";
    assert WxAssign(user, param, now, issued, swapAvatar, Headimgurl).Some? <==> param.headimgurl != "";
    assert WxAssign(user, param, now, issued, swapAvatar, AccessToken).Some? <==> user.expireTime < now;
    assert WxAssign(user, param, now, issued, swapAvatar, ExpireTime).Some? <==> user.expireTime < now;
  }

  /** What a successful WeChat H5 login writes to the user's row: one more
      login at `now`; the nickname and head image only when supplied; a new
      token and expiry exactly when the stored expiry has passed. Rows of
      other users do not change. */
  lemma {:induction false} WxUpdateRow(w: World, user: User, param: User, now: int, issued: string,
                                       ossOnline: string, ossOffline: string, k: int)
    requires WxUpdate(w, user, param, now, issued, ossOnline, ossOffline).res.Ok?
    requires k in w.db.table.rows
    ensures var before := w.db.table.rows[k];
      var t := WxUpdate(w, user, param, now, issued, ossOnline, ossOffline).state.db.table;
      && k in t.rows
      && (before.id != user.id ==> t.rows[k] == before)
      && (before.id == user.id ==> (
            && t.rows[k].loginTimes == before.loginTimes + 1
            && t.rows[k].lastLoginTime == now
            && t.rows[k].updateTime == now
            && t.rows[k].nickname == (if param.nickname != "" then param.nickname else before.nickname)
            && t.rows[k].headimgurl == (if param.headimgurl != "" then param.headimgurl else before.headimgurl)
            && (user.expireTime < now ==> t.rows[k].accessToken == issued && t.rows[k].expireTime == now + WxH5TokenTtl)
            && (user.expireTime >= now ==>
                  t.rows[k].accessToken == before.accessToken && t.rows[k].expireTime == before.expireTime)))
  {
    var e := WxEntity(user, param, now, issued, ossOnline, ossOffline);
    var swapAvatar := ReplacesAvatar(user.avatarUrl, ossOnline, ossOffline);
    UserRepo.UpdateByIdRow(w.db, e, user.id, k);
    var before := w.db.table.rows[k];
    WxEntityStamps(user, param, now, issued, ossOnline, ossOffline);
    WxEntityOptional(user, param, now, issued, ossOnline, ossOffline);
    RowEffects.CountsLogin(before, e);
    RowEffects.StampsLogin(before, e, now);
    RowEffects.TakesNickname(before, e, param.nickname);
    RowEffects.TakesHeadImage(before, e, param.headimgurl);
    RowEffects.RenewsToken(before, e, user.expireTime < now, issued, now + WxH5TokenTtl);
  }

  // ------------------------------------------------------------------ unbind

  /** The update of an unbind: no union id, a token already ten seconds
      expired. */
  function UnbindEntity(now: int): (e: UserRepo.Entity)
    ensures UserRepo.EntityFits(e)
  {
    map[Unionid := UserRepo.Null, ExpireTime := UserRepo.Put(IntF(now - 10)), UpdateTime := UserRepo.Put(IntF(now))]
  }

  /** The repository read of an unbind: the token's user, whatever its status. */
  function UnbindLookup(db: UserRepo.Db, ctx: Ctx, token: string): (out: Step<User, UserRepo.Db>)
    ensures out.state == UserRepo.Next(db)
  {
    UserRepo.GetUserByAccessTokenIgnoreStatus(db, SetFilter(ctx, UserRepo.UserTable, "id"), token)
  }

  /** `UnbindWeChatCUser`: with no user for the token nothing is written;
      otherwise the row loses its union id and its token expires, then the
      cached row and the token's index are evicted, and a failed eviction
      is reported. */
  function UnbindWeChatCUser(w: World, ctx: Ctx, token: string, now: int): (out: Out<()>)
    ensures var found := UnbindLookup(w.db, ctx, token);
      && (found.res.Err? && found.res.code != UserNotFound ==> out == Step(Err(found.res.code), w.(db := found.state)))
      && (found.res == Err(UserNotFound) ==> out == Step(Ok(()), w.(db := found.state)))
      && (found.res.Ok? && found.res.value.id == 0 ==> out == Step(Ok(()), w.(db := found.state)))
      && (found.res.Ok? && found.res.value.id != 0 ==> out == Unbind(w.(db := found.state), found.res.value.id, token, now))
  {
    var found := UnbindLookup(w.db, ctx, token);
    var w1 := w.(db := found.state);
    if found.res.Err? && found.res.code != UserNotFound then Step(Err(found.res.code), w1)
    else if found.res.Err? || found.res.value.id == 0 then Step(Ok(()), w1)
    else Unbind(w1, found.res.value.id, token, now)
  }

  /** The writes of an unbind for a known user id. */
  function Unbind(w: World, id: int, token: string, now: int): (out: Out<()>)
    ensures out.res.Err? ==> out.res.code == Database || out.res.code == Redis
    ensures out.res.Ok? ==> (
      && out.state.db.table == UserRepo.UpdateUserByCondUseMap(w.db, UnbindEntity(now), UserRepo.ById(id)).state.table
      && !UserRepo.Fails(w.db)
      && UidKey(id) !in out.state.redis.data
      && TokenKey(token) !in out.state.redis.data)
  {
    var upd := UserRepo.UpdateUserByCondUseMap(w.db, UnbindEntity(now), UserRepo.ById(id));
    var w2 := w.(db := upd.state);
    if upd.res.Err? then Step(Err(upd.res.code), w2)
    else
      EvictKeyEffect(w2, UidKey(id));
      var ev := EvictKey(w2, UidKey(id));
      if ev.err.Some? then Step(Err(ev.err.value), ev.state)
      else
        EvictKeyEffect(ev.state, TokenKey(token));
        UidAndTokenKeysDiffer(id, token);
        var ev2 := EvictKey(ev.state, TokenKey(token));
        if ev2.err.Some? then Step(Err(ev2.err.value), ev2.state) else Step(Ok(()), ev2.state)
  }

  lemma UidAndTokenKeysDiffer(id: int, token: string)
    ensures UidKey(id) != TokenKey(token)
  {
    if UidKey(id) == TokenKey(token) {
      KeyStringInjective(Uid(id), Token(token));
    }
  }

  /** The unbind's update applied to one row. */
  lemma {:induction false} UnbindApplied(before: User, now: int)
    ensures var r := UserRepo.ApplyEntity(before, UnbindEntity(now));
      r.unionid == "" && r.expireTime == now - 10 && r.updateTime == now
  {
    var e := UnbindEntity(now);
    RowEffects.ClearsUnionId(before, e);
    RowEffects.SetsExpiry(before, e, now - 10, now);
  }

  /** A completed unbind leaves the user's rows without a union id and with
      an expiry ten seconds in the past, which the token check refuses;
      other rows are untouched; neither the cached row nor the token's
      index remains. */
  lemma {:induction false} UnbindClears(w: World, id: int, token: string, now: int, k: int)
    requires Unbind(w, id, token, now).res.Ok?
    requires k in w.db.table.rows
    ensures var out := Unbind(w, id, token, now);
      var before := w.db.table.rows[k];
      && k in out.state.db.table.rows
      && (before.id != id ==> out.state.db.table.rows[k] == before)
      && (before.id == id ==> (
            && out.state.db.table.rows[k].unionid == ""
            && out.state.db.table.rows[k].expireTime == now - 10
            && out.state.db.table.rows[k].updateTime == now
            && AdmitToken(out.state, Ok(out.state.db.table.rows[k]), token, now).res == Err(TokenInvalid)))
      && UidKey(id) !in out.state.redis.data
      && TokenKey(token) !in out.state.redis.data
  {
    UserRepo.UpdateByIdRow(w.db, UnbindEntity(now), id, k);
    assert UserRepo.UpdateUserByIdUseMap(w.db, UnbindEntity(now), id)
      == UserRepo.UpdateUserByCondUseMap(w.db, UnbindEntity(now), UserRepo.ById(id));
    UnbindApplied(w.db.table.rows[k], now);
  }

  /** End to end: when the token names a user with a non-zero id and the
      unbind completes, that user's row has no union id and an expired
      token, and neither its cached row nor the token's index is left. */
  lemma UnbindWeChatCUserClears(w: World, ctx: Ctx, token: string, now: int, k: int)
    requires UnbindLookup(w.db, ctx, token).res.Ok?
    requires UnbindLookup(w.db, ctx, token).res.value.id != 0
    requires UnbindWeChatCUser(w, ctx, token, now).res.Ok?
    requires k in w.db.table.rows && w.db.table.rows[k].id == UnbindLookup(w.db, ctx, token).res.value.id
    ensures var out := UnbindWeChatCUser(w, ctx, token, now);
      var id := UnbindLookup(w.db, ctx, token).res.value.id;
      && k in out.state.db.table.rows
      && out.state.db.table.rows[k].unionid == ""
      && out.state.db.table.rows[k].expireTime == now - 10
      && UidKey(id) !in out.state.redis.data
      && TokenKey(token) !in out.state.redis.data
  {
    var found := UnbindLookup(w.db, ctx, token);
    assert found.state.table == w.db.table;
    UnbindClears(w.(db := found.state), found.res.value.id, token, now, k);
  }
}

=== FILE: users.dfy ===
/** The user record of the passport service and its columns. A row is read
    and written column by column (a `SELECT` list, an `UPDATE` map, a cached
    hash), so the record is paired with a column enumeration, a typed field
    value and conversions to and from a name-keyed field map. */
module Users {
  import opened Outcomes

  /** Values of the `status` column. The numeric codes live outside this
      model; only `StatusOk` and `StatusDel` are ever tested for. */
  datatype UserStatus = StatusOk | StatusDel | StatusOther(raw: int)

  datatype User = User(
    id: int,
    phone: string,
    unionid: string,
    nickname: string,
    name: string,
    realName: string,
    headimgurl: string,
    avatarUrl: string,
    sex: int,
    birthday: int,
    accessToken: string,
    expireTime: int,
    loginTimes: int,
    lastLoginTime: int,
    createTime: int,
    updateTime: int,
    status: UserStatus)

  datatype Column =
    | Id | Phone | Unionid | Nickname | Name | RealName | Headimgurl | AvatarUrl | Sex
    | Birthday | AccessToken | ExpireTime | LoginTimes | LastLoginTime | CreateTime
    | UpdateTime | Status

  datatype Field = IntF(i: int) | StrF(s: string) | StatusF(st: UserStatus)

  /** The column's name in SQL and in the cached hash. */
  function ColumnName(c: Column): string {
    match c
    case Id => "id"
    case Phone => "phone"
    case Unionid => "unionid"
    case Nickname => "nickname"
    case Name => "name"
    case RealName => "real_name"
    case Headimgurl => "headimgurl"
    case AvatarUrl => "avatar_url"
    case Sex => "sex"
    case Birthday => "birthday"
    case AccessToken => "access_token"
    case ExpireTime => "expire_time"
    case LoginTimes => "login_times"
    case LastLoginTime => "last_login_time"
    case CreateTime => "create_time"
    case UpdateTime => "update_time"
    case Status => "status"
  }

  /** The column a name denotes, if any. */
  function ColumnByName(n: string): (r: Option<Column>)
    ensures r.Some? ==> ColumnName(r.value) == n
  {
    if n == "id" then Some(Id)
    else if n == "phone" then Some(Phone)
    else if n == "unionid" then Some(Unionid)
    else if n == "nickname" then Some(Nickname)
    else if n == "name" then Some(Name)
    else if n == "real_name" then Some(RealName)
    else if n == "headimgurl" then Some(Headimgurl)
    else if n == "avatar_url" then Some(AvatarUrl)
    else if n == "sex" then Some(Sex)
    else if n == "birthday" then Some(Birthday)
    else if n == "access_token" then Some(AccessToken)
    else if n == "expire_time" then Some(ExpireTime)
    else if n == "login_times" then Some(LoginTimes)
    else if n == "last_login_time" then Some(LastLoginTime)
    else if n == "create_time" then Some(CreateTime)
    else if n == "update_time" then Some(UpdateTime)
    else if n == "status" then Some(Status)
    else None
  }

  /** Every column is found again by its name, so names are distinct. */
  lemma ColumnByNameInverse(c: Column)
    ensures ColumnByName(ColumnName(c)) == Some(c)
  {
    match c
    case Id =>
    case Phone =>
    case Unionid =>
    case Nickname =>
    case Name =>
    case RealName =>
    case Headimgurl =>
    case AvatarUrl =>
    case Sex =>
    case Birthday =>
    case AccessToken =>
    case ExpireTime =>
    case LoginTimes =>
    case LastLoginTime =>
    case CreateTime =>
    case UpdateTime =>
    case Status =>
  }

  lemma ColumnNameInjective(a: Column, b: Column)
    requires ColumnName(a) == ColumnName(b)
    ensures a == b
  {
    ColumnByNameInverse(a);
    ColumnByNameInverse(b);
  }

  /** The zero value a Go struct holds in the column's field. */
  function Zero(c: Column): Field {
    match c
    case Phone | Unionid | Nickname | Name | RealName | Headimgurl | AvatarUrl | AccessToken => StrF("")
    case Status => StatusF(StatusOther(0))
    case _ => IntF(0)
  }

  /** A value of the column's type. */
  predicate Fits(c: Column, f: Field) {
    match Zero(c)
    case IntF(_) => f.IntF?
    case StrF(_) => f.StrF?
    case StatusF(_) => f.StatusF?
  }

  function Get(u: User, c: Column): (f: Field)
    ensures Fits(c, f)
  {
    match c
    case Id => IntF(u.id)
    case Phone => StrF(u.phone)
    case Unionid => StrF(u.unionid)
    case Nickname => StrF(u.nickname)
    case Name => StrF(u.name)
    case RealName => StrF(u.realName)
    case Headimgurl => StrF(u.headimgurl)
    case AvatarUrl => StrF(u.avatarUrl)
    case Sex => IntF(u.sex)
    case Birthday => IntF(u.birthday)
    case AccessToken => StrF(u.accessToken)
    case ExpireTime => IntF(u.expireTime)
    case LoginTimes => IntF(u.loginTimes)
    case LastLoginTime => IntF(u.lastLoginTime)
    case CreateTime => IntF(u.createTime)
    case UpdateTime => IntF(u.updateTime)
    case Status => StatusF(u.status)
  }

  /** Stores `f` into column `c`; a value of the wrong type is not stored. */
  function With(u: User, c: Column, f: Field): (r: User)
    ensures Fits(c, f) ==> Get(r, c) == f
    ensures !Fits(c, f) ==> r == u
    ensures forall d :: d != c ==> Get(r, d) == Get(u, d)
  {
    if !Fits(c, f) then u
    else match c
      case Id => u.(id := f.i)
      case Phone => u.(phone := f.s)
      case Unionid => u.(unionid := f.s)
      case Nickname => u.(nickname := f.s)
      case Name => u.(name := f.s)
      case RealName => u.(realName := f.s)
      case Headimgurl => u.(headimgurl := f.s)
      case AvatarUrl => u.(avatarUrl := f.s)
      case Sex => u.(sex := f.i)
      case Birthday => u.(birthday := f.i)
      case AccessToken => u.(accessToken := f.s)
      case ExpireTime => u.(expireTime := f.i)
      case LoginTimes => u.(loginTimes := f.i)
      case LastLoginTime => u.(lastLoginTime := f.i)
      case CreateTime => u.(createTime := f.i)
      case UpdateTime => u.(updateTime := f.i)
      case Status => u.(status := f.st)
  }

  /** Two records that agree on every column are the same record. */
  lemma Extensionality(a: User, b: User)
    requires forall c :: Get(a, c) == Get(b, c)
    ensures a == b
  {
    assert a.id == b.id by { assert Get(a, Id) == Get(b, Id); }
    assert a.phone == b.phone by { assert Get(a, Phone) == Get(b, Phone); }
    assert a.unionid == b.unionid by { assert Get(a, Unionid) == Get(b, Unionid); }
    assert a.nickname == b.nickname by { assert Get(a, Nickname) == Get(b, Nickname); }
    assert a.name == b.name by { assert Get(a, Name) == Get(b, Name); }
    assert a.realName == b.realName by { assert Get(a, RealName) == Get(b, RealName); }
    assert a.headimgurl == b.headimgurl by { assert Get(a, Headimgurl) == Get(b, Headimgurl); }
    assert a.avatarUrl == b.avatarUrl by { assert Get(a, AvatarUrl) == Get(b, AvatarUrl); }
    assert a.sex == b.sex by { assert Get(a, Sex) == Get(b, Sex); }
    assert a.birthday == b.birthday by { assert Get(a, Birthday) == Get(b, Birthday); }
    assert a.accessToken == b.accessToken by { assert Get(a, AccessToken) == Get(b, AccessToken); }
    assert a.expireTime == b.expireTime by { assert Get(a, ExpireTime) == Get(b, ExpireTime); }
    assert a.loginTimes == b.loginTimes by { assert Get(a, LoginTimes) == Get(b, LoginTimes); }
    assert a.lastLoginTime == b.lastLoginTime by { assert Get(a, LastLoginTime) == Get(b, LastLoginTime); }
    assert a.createTime == b.createTime by { assert Get(a, CreateTime) == Get(b, CreateTime); }
    assert a.updateTime == b.updateTime by { assert Get(a, UpdateTime) == Get(b, UpdateTime); }
    assert a.status == b.status by { assert Get(a, Status) == Get(b, Status); }
  }

  /** The Go zero value `passport.User{}`. */
  const Empty: User := User(0, "", "", "", "", "", "", "", 0, 0, "", 0, 0, 0, 0, 0, StatusOther(0))

  lemma EmptyIsZero(c: Column)
    ensures Get(Empty, c) == Zero(c)
  {
  }

  /** A record as a column-keyed field map: a cached hash, or the column
      values of an `UPDATE`. */
  type Fields = map<Column, Field>

  /** The record as a field map (`structs.Map`). */
  function ToFields(u: User): (m: Fields)
    ensures forall c :: c in m && m[c] == Get(u, c)
  {
    AllColumnsComplete();
    map c: Column | c in AllColumns :: Get(u, c)
  }

  /** The column's value in a field map, or its zero value when the map has
      no value of the right type for the column. */
  function FieldOf(m: Fields, c: Column): (f: Field)
    ensures Fits(c, f)
  {
    if c in m && Fits(c, m[c]) then m[c] else Zero(c)
  }

  function IntOf(m: Fields, c: Column): int {
    if c in m && m[c].IntF? then m[c].i else 0
  }

  function StrOf(m: Fields, c: Column): string {
    if c in m && m[c].StrF? then m[c].s else ""
  }

  function StatusOf(m: Fields, c: Column): UserStatus {
    if c in m && m[c].StatusF? then m[c].st else StatusOther(0)
  }

  /** Scanning a field map into an empty record: every column takes the
      value stored for it. */
  function FromFields(m: Fields): (u: User)
  {
    User(
      IntOf(m, Id), StrOf(m, Phone), StrOf(m, Unionid), StrOf(m, Nickname),
      StrOf(m, Name), StrOf(m, RealName), StrOf(m, Headimgurl),
      StrOf(m, AvatarUrl), IntOf(m, Sex), IntOf(m, Birthday),
      StrOf(m, AccessToken), IntOf(m, ExpireTime), IntOf(m, LoginTimes),
      IntOf(m, LastLoginTime), IntOf(m, CreateTime), IntOf(m, UpdateTime),
      StatusOf(m, Status))
  }

  lemma GetFromFields(m: Fields, c: Column)
    ensures Get(FromFields(m), c) == FieldOf(m, c)
  {
    match c
    case Id =>
    case Phone =>
    case Unionid =>
    case Nickname =>
    case Name =>
    case RealName =>
    case Headimgurl =>
    case AvatarUrl =>
    case Sex =>
    case Birthday =>
    case AccessToken =>
    case ExpireTime =>
    case LoginTimes =>
    case LastLoginTime =>
    case CreateTime =>
    case UpdateTime =>
    case Status =>
  }

  function IntIn(f: Field): int {
    if f.IntF? then f.i else 0
  }

  function StrIn(f: Field): string {
    if f.StrF? then f.s else ""
  }

  function StatusIn(f: Field): UserStatus {
    if f.StatusF? then f.st else StatusOther(0)
  }

  /** The record whose every column holds the value `f` gives for it. */
  function Tabulate(f: Column -> Field): (u: User)
  {
    User(
      IntIn(f(Id)), StrIn(f(Phone)), StrIn(f(Unionid)), StrIn(f(Nickname)),
      StrIn(f(Name)), StrIn(f(RealName)), StrIn(f(Headimgurl)),
      StrIn(f(AvatarUrl)), IntIn(f(Sex)), IntIn(f(Birthday)),
      StrIn(f(AccessToken)), IntIn(f(ExpireTime)), IntIn(f(LoginTimes)),
      IntIn(f(LastLoginTime)), IntIn(f(CreateTime)), IntIn(f(UpdateTime)),
      StatusIn(f(Status)))
  }

  lemma GetTabulate(f: Column -> Field, c: Column)
    requires Fits(c, f(c))
    ensures Get(Tabulate(f), c) == f(c)
  {
    match c
    case Id =>
    case Phone =>
    case Unionid =>
    case Nickname =>
    case Name =>
    case RealName =>
    case Headimgurl =>
    case AvatarUrl =>
    case Sex =>
    case Birthday =>
    case AccessToken =>
    case ExpireTime =>
    case LoginTimes =>
    case LastLoginTime =>
    case CreateTime =>
    case UpdateTime =>
    case Status =>
  }

  /** A record tabulated from fitting values holds exactly those values. */
  lemma TabulateAll(f: Column -> Field)
    requires forall c :: Fits(c, f(c))
    ensures forall c :: Get(Tabulate(f), c) == f(c)
  {
    forall c ensures Get(Tabulate(f), c) == f(c) {
      GetTabulate(f, c);
    }
  }

  /** Scanning a map that holds a fitting value for every column gives a
      record holding exactly those values. */
  lemma FromTotalFields(m: Fields)
    requires forall c :: c in m && Fits(c, m[c])
    ensures forall c :: Get(FromFields(m), c) == m[c]
  {
    forall c ensures Get(FromFields(m), c) == m[c] {
      GetFromFields(m, c);
    }
  }

  /** Writing a record as a field map and scanning it back loses nothing. */
  lemma FieldsRoundTrip(u: User)
    ensures FromFields(ToFields(u)) == u
  {
    forall c ensures Get(FromFields(ToFields(u)), c) == Get(u, c) {
      GetFromFields(ToFields(u), c);
    }
    Extensionality(FromFields(ToFields(u)), u);
  }

  /** Every column, for a `SELECT *`. */
  const AllColumns: set<Column> := {
    Id, Phone, Unionid, Nickname, Name, RealName, Headimgurl, AvatarUrl, Sex, Birthday,
    AccessToken, ExpireTime, LoginTimes, LastLoginTime, CreateTime, UpdateTime, Status}

  lemma AllColumnsComplete()
    ensures forall c: Column :: c in AllColumns
  {
    forall c: Column ensures c in AllColumns {
      match c
      case Id =>
      case Phone =>
      case Unionid =>
      case Nickname =>
      case Name =>
      case RealName =>
      case Headimgurl =>
      case AvatarUrl =>
      case Sex =>
      case Birthday =>
      case AccessToken =>
      case ExpireTime =>
      case LoginTimes =>
      case LastLoginTime =>
      case CreateTime =>
      case UpdateTime =>
      case Status =>
    }
  }

  /** The record with only the listed columns kept and the others zeroed,
      as a `SELECT` of those columns scans it. */
  function Project(u: User, cols: set<Column>): (r: User)
  {
    FromFields(map c | c in cols :: Get(u, c))
  }

  lemma GetProject(u: User, cols: set<Column>, c: Column)
    ensures Get(Project(u, cols), c) == if c in cols then Get(u, c) else Zero(c)
  {
    GetFromFields(map c | c in cols :: Get(u, c), c);
  }

  lemma ProjectAll(u: User)
    ensures Project(u, AllColumns) == u
  {
    forall c ensures Get(Project(u, AllColumns), c) == Get(u, c) {
      AllColumnsComplete();
      GetProject(u, AllColumns, c);
    }
    Extensionality(Project(u, AllColumns), u);
  }

  /** `Get` spelled out for the text columns. */
  lemma GetTextFields(u: User)
    ensures Get(u, Phone) == StrF(u.phone) && Get(u, Unionid) == StrF(u.unionid)
    ensures Get(u, Nickname) == StrF(u.nickname) && Get(u, Name) == StrF(u.name)
    ensures Get(u, RealName) == StrF(u.realName) && Get(u, Headimgurl) == StrF(u.headimgurl)
    ensures Get(u, AvatarUrl) == StrF(u.avatarUrl) && Get(u, AccessToken) == StrF(u.accessToken)
  {
  }

  /** `Get` spelled out for the numeric and status columns. */
  lemma GetNumberFields(u: User)
    ensures Get(u, Id) == IntF(u.id) && Get(u, Sex) == IntF(u.sex) && Get(u, Birthday) == IntF(u.birthday)
    ensures Get(u, ExpireTime) == IntF(u.expireTime) && Get(u, LoginTimes) == IntF(u.loginTimes)
    ensures Get(u, LastLoginTime) == IntF(u.lastLoginTime) && Get(u, CreateTime) == IntF(u.createTime)
    ensures Get(u, UpdateTime) == IntF(u.updateTime) && Get(u, Status) == StatusF(u.status)
  {
  }
}
